=== FILE: README.md ===
# llmsmith core in Dafny

A model of the core of **llmsmith**, a Python library that chains LLM tasks into
jobs. The model covers:

- **Tasks.** A task is a named unit of work; its name must not be blank.
- **Jobs.** A sequential or concurrent job holds tasks, each with an input
  template. Before a task runs, the template's `{{root}}`, `{{name.input}}` and
  `{{name.output}}` placeholders are resolved against the job memory. The memory
  keeps each task's input and output under its name.
- **Text-generation tasks** for OpenAI, Groq, Cohere and Gemini. Each builds a
  request, sends it, and classifies the reply into text, function calls or a
  failure code.
- **Function-calling agents.** The OpenAI assistant agent, and the Gemini, Groq
  and Cohere agents, loop on model call, tool dispatch and model call until the
  model answers with text or the turns run out.
- **Option-dictionary builders.** For every provider, retriever and reranker: the
  keyword dictionaries handed to the SDKs, with their defaults and renamings.
- **The Cohere reranker** and the ChromaDB document formatter.

Python semantics the code depends on are written out:

- truthiness of `None`, `0`, `""` and `{}`
- `dict` insertion order and last-write-wins
- `str.replace` and `str.strip`
- negative list indices and `IndexError`
- the `TypeError` for a keyword passed twice
- `AttributeError` on `None`

The SDKs, the LLMs and the tools' callables are function parameters (oracles).
The model works with whatever they answer. Each module follows one part of the
library:

| module | file | models |
|---|---|---|
| `Wrappers` | wrappers.dfy | `Option`, `Outcome` and `next(...)` as `First` |
| `PyValue` | pyvalue.dfy | Python values, truthiness, `strip`, `str(n)`, `join` |
| `PyDict` | pydict.dfy | ordered dicts: `get`, upsert, `del`, dict comprehensions |
| `Models` | models.dfy | `TaskInput`, `TaskOutput`, `ChatResponse`, `FunctionCall`, the exceptions |
| `Tasks` | task.dfy | `Task.__init__` and its name |
| `Memory` | memory.dfy | `JobMemory` |
| `Placeholders` | placeholders.dfy | template resolution |
| `Jobs` | jobs.dfy | `SequentialJob` and `ConcurrentJob`: registration, run, retrieval |
| `Options` | options.dfy | every `_..._options_dict` builder |
| `Payload` | payload.dfy | appending the system prompt to a message payload |
| `Completions` | completions.dfy | OpenAI and Groq chat and text tasks |
| `CohereText` | coheretext.dfy | Cohere chat and text task |
| `GeminiText` | geminitext.dfy | Gemini text task |
| `Tools` | tools.dfy | tool constructors and callable registries |
| `AgentLoop` | agentloop.dfy | the turn loop shared by the Gemini, Groq and Cohere agents |
| `Agents` | agents.dfy | the provider-specific conversations of those three agents |
| `Assistant` | assistant.dfy | the OpenAI assistant agent: run-status machine, tool outputs, failure codes |
| `Chroma` | chroma.dfy | `default_doc_processor` |
| `Reranker` | reranker.dfy | `CohereReranker` |

## Model

| member | source | states |
|---|---|---|
| Wrappers.First | llmsmith/task/textgen/openai.py:92-95 | `next(...)` over a predicate yields the index of the first element satisfying it; `None` exactly when no element does |
| PyValue.Strip | llmsmith/task/base.py:23 | `strip()` is no longer than its input and leaves no whitespace at either end |
| PyValue.StripIsSlice | llmsmith/task/base.py:23 | `strip()` is a contiguous part of its input |
| PyValue.StripRemovesOnlySpace | llmsmith/task/base.py:23 | what `strip()` cuts off on each side of that part is whitespace only; with `Strip`'s contract, exactly the surrounding whitespace goes |
| PyValue.StripEmptyIffAllSpace | llmsmith/task/base.py:23 | `name.strip()` is empty exactly when the name is all whitespace; this is the blank-name test |
| PyValue.NatToStr | llmsmith/task/retrieval/vector/chromadb.py:32 | `str(idx)` is a non-empty run of decimal digits without a leading zero |
| PyValue.NatToStrRoundTrip | llmsmith/task/retrieval/vector/chromadb.py:32 | parsing the rendered index gives the index back |
| PyValue.NatToStrInjective | llmsmith/task/retrieval/vector/chromadb.py:32 | distinct indices render differently, so document labels are unique |
| PyValue.Join | llmsmith/task/retrieval/vector/chromadb.py:34 | `sep.join(items)`: the empty list joins to "", one item to itself |
| PyValue.JoinSnoc | llmsmith/task/retrieval/vector/chromadb.py:34 | joining one more item appends exactly one separator and the item |
| PyValue.JoinEnds | llmsmith/task/retrieval/vector/chromadb.py:34 | a non-empty join starts with the first item and ends with the last |
| PyValue.PyStrShape | llmsmith/agent/function/openai.py:188 | `str()` leaves a string untouched and renders every non-numeric non-string value as non-empty text |
| PyValue.PyStr | llmsmith/agent/function/openai.py:188 | `str()` of a tool result: a string is itself; a list, tuple or dict is shown in its brackets, with each item as `repr()` writes it |
| PyValue.StrRepr | llmsmith/agent/function/groq.py:135 | `repr()` of a text inside a container display begins and ends with the chosen quote: `"` when the text holds `'` but no `"`, else `'` |
| PyValue.UnescapeChar | llmsmith/agent/function/groq.py:135 | each character `repr()` escapes (the quote, backslash, tab, newline, carriage return, other controls as `\xhh`) reads back as itself |
| PyValue.UnescapeEscape | llmsmith/agent/function/groq.py:135 | the escaped body of a text reads back as the text and holds no bare quote |
| PyValue.StrReprRoundTrip | llmsmith/agent/function/groq.py:135 | `repr()` of a text is a string literal that reads back as the text |
| PyValue.StrReprInjective | llmsmith/agent/function/groq.py:135 | distinct texts have distinct `repr()`s |
| PyValue.ApostropheExample | llmsmith/agent/function/groq.py:135 | (example) `str(["it's"])` is `["it's"]`, in double quotes |
| PyValue.NewlineExample | llmsmith/agent/function/groq.py:135 | (example) `str(["a\nb", ""])` shows the newline as the escape `\n` |
| PyValue.DictExample | llmsmith/agent/function/groq.py:135 | (example) `str({"k": 1})` is `{'k': 1}` |
| PyValue.TupleExample | llmsmith/agent/function/groq.py:135 | (example) `str((None,))` keeps the trailing comma |
| PyDict.Get | llmsmith/job/base.py:51-53 | `get` is `None` exactly for a key never stored, else the stored value |
| PyDict.Put | llmsmith/job/base.py:28 | `d[k] = v` upserts: an existing key keeps its position, a new key is appended; other keys are untouched |
| PyDict.Items | llmsmith/job/base.py:123 | `items()` lists every stored key once, in insertion order, with its value |
| PyDict.FromPairs | llmsmith/task/textgen/openai.py:101-111 | a dict comprehension keeps the first position and the last value of each key |
| PyDict.FromPairsLastWins | llmsmith/task/textgen/openai.py:101-111 | the value stored for a key is the one of the last pair with that key |
| PyDict.FromPairsAgree | llmsmith/task/textgen/openai.py:101-111 | when every pair for `k` carries `v`, `k` maps to `v` exactly when some pair has key `k` |
| PyDict.FromDistinctPairs | llmsmith/task/textgen/openai.py:101-111 | with distinct keys the dict keeps every pair, in order |
| PyDict.ItemsOf | llmsmith/task/textgen/openai.py:101-111 | every item of the comprehension is one of its pairs, and there are no more items than pairs |
| PyDict.ItemsOfLastWins | llmsmith/task/textgen/openai.py:101-111 | a pair whose key no later pair repeats survives as an item |
| PyDict.ItemsOfDistinct | llmsmith/task/textgen/openai.py:101-111 | with distinct keys the items are the pairs themselves |
| PyDict.Delete | llmsmith/task/textgen/options/cohere.py:61-63 | deleting keys removes exactly those; the others keep their values, and the remaining keys are the original keys filtered in their order |
| PyDict.KeepConcat | llmsmith/task/textgen/options/cohere.py:61-63 | the order-keeping filter behind `del`: it works piece by piece along a concatenation, and keeps a single key exactly when it is not deleted |
| PyDict.PutNewItems | llmsmith/job/base.py:28 | storing an absent key appends exactly one item at the end |
| Models.TextValue | llmsmith/task/textgen/openai.py:172-174 | a task's text content is the reply's text, or `None` when the reply has none |
| Tasks.NewTask | llmsmith/task/base.py:22-26 | a name that is empty or all whitespace raises `ValueError`; any other name is kept as given |
| Tasks.PaddedNameKept | llmsmith/task/base.py:22-26 | (example) a name with surrounding whitespace is accepted and kept unstripped |
| Memory.EmptyMemory | llmsmith/job/base.py:15-17 | a new memory has no inputs and no outputs |
| Memory.AddTaskInput | llmsmith/job/base.py:19-28 | storing an input upserts it under the key; reading the key gives it back; other keys and all outputs are unchanged |
| Memory.AddTaskOutput | llmsmith/job/base.py:30-40 | storing an output upserts it under the key, with no check that an input exists; inputs are unchanged |
| Memory.GetTaskInput | llmsmith/job/base.py:42-53 | `None` exactly when the key was never stored, else the stored input; never raises |
| Memory.GetTaskOutput | llmsmith/job/base.py:55-66 | `None` exactly when the key was never stored, else the stored output; never raises |
| Placeholders.Replace | llmsmith/job/base.py:121 | `str.replace`: replacing a pattern by itself, or in a string shorter than the pattern, changes nothing |
| Placeholders.ReplaceAbsent | llmsmith/job/base.py:121-127 | replacing a pattern that does not occur leaves the string unchanged |
| Placeholders.ReplaceCopies | llmsmith/job/base.py:121-127 | characters before the first possible match are copied unchanged |
| Placeholders.ReplaceSplit | llmsmith/job/base.py:121-127 | the first occurrence of the pattern is replaced: the text before it is copied, the replacement takes its place, and the scan continues after it |
| Placeholders.TokenBraces | llmsmith/job/base.py:124 | in `{{name.input}}` with a brace-free name, braces occur only at the two ends |
| Placeholders.SameStartSameToken | llmsmith/job/base.py:124-127 | two brace-free placeholders starting at the same place are equal |
| Placeholders.TokenInterior | llmsmith/job/base.py:124-127 | no brace-free placeholder starts strictly inside another |
| Placeholders.TokensApart | llmsmith/job/base.py:124-127 | two distinct brace-free placeholders cannot overlap |
| Placeholders.ReplaceKeepsToken | llmsmith/job/base.py:124-127 | replacing one placeholder never destroys an occurrence of a different one |
| Placeholders.NoBracesNoToken | llmsmith/job/base.py:121-127 | a string without `{{` contains no placeholder |
| Placeholders.SubstAll | llmsmith/job/base.py:123-127 | a failing resolution loop fails on a stored content that is not a string, with the `TypeError` of `replace` |
| Placeholders.Resolve | llmsmith/job/base.py:114-129 | resolution can raise only `TypeError` |
| Placeholders.SubstAllOkIff | llmsmith/job/base.py:123-127 | a resolution loop fails exactly when some stored content is not a string |
| Placeholders.ResolveOkIff | llmsmith/job/base.py:114-129 | resolution raises exactly when the root input or some stored content is not a string |
| Placeholders.SubstAllNoBraces | llmsmith/job/base.py:123-127 | a string without `{{` passes through a resolution loop unchanged |
| Placeholders.NoBracesUnchanged | llmsmith/job/base.py:114-129 | a template without `{{` comes back unchanged, whatever the root input and the memory hold |
| Placeholders.SubstAllKeepsToken | llmsmith/job/base.py:123-127 | a placeholder that no loop entry names survives the loop |
| Placeholders.UnknownPlaceholderKept | llmsmith/job/base.py:114-129 | for brace-free names (the placeholder's and every stored key's), a placeholder naming no stored entry stays verbatim in the resolved input |
| Placeholders.AbsentInputPlaceholderKept | llmsmith/job/base.py:123-124 | when the key and every stored name are brace-free, `{{key.input}}` for a task whose input is not stored is left as it is |
| Placeholders.OnlyToken | llmsmith/job/base.py:124-127 | in a text whose only braces belong to one placeholder, no other placeholder occurs |
| Placeholders.SubstAllMisses | llmsmith/job/base.py:123-127 | a resolution loop leaves a placeholder in brace-free text alone when no entry names it |
| Placeholders.SubstAllHits | llmsmith/job/base.py:123-127 | a resolution loop replaces a placeholder in brace-free text by the content of the first entry that names it |
| Placeholders.ResolveOutputPlaceholder | llmsmith/job/base.py:114-129 | `{{key.output}}` of a stored string output resolves to that output, with the text around it kept (brace-free text, name and content; only string contents stored) |
| Placeholders.ResolveInputPlaceholder | llmsmith/job/base.py:114-129 | `{{key.input}}` of a stored string input resolves to that input, under the same conditions |
| Placeholders.ResolveRootPlaceholder | llmsmith/job/base.py:114-129 | `{{root}}` in brace-free text resolves to a brace-free root input, with the text around it kept |
| Placeholders.RootOnly | llmsmith/job/base.py:121 | (example) the template `{{root}}` resolves to the root input |
| Placeholders.RootTextIsResolvedToo | llmsmith/job/base.py:121-127 | (example) each step works on the previous result, so an output placeholder inside the root input is substituted too |
| Jobs.NewJob | llmsmith/job/base.py:142-144 | a new job has no tasks and an empty memory |
| Jobs.ScanNamesNoneIff | llmsmith/job/base.py:187-196 | the duplicate-name scan passes exactly when every entry is a `Task` and no name repeats or clashes with one already seen |
| Jobs.ValidateTaskNamesIff | llmsmith/job/base.py:179-196 | `_validate_task_names` raises exactly when some entry is not a `Task` or some name occurs twice |
| Jobs.ScanNamesErrorKind | llmsmith/job/base.py:187-196 | the scan raises only `ValueError` (duplicate) or `AttributeError` (an entry that is not a task) |
| Jobs.AddTask | llmsmith/job/job.py:104-124 | the entry is appended before validation, so it stays even when registration raises; a non-task raises `TypeError`; registration succeeds exactly when the extended list is registrable |
| Jobs.AddTaskDefault | llmsmith/job/job.py:104-105 | the default template is `{{root}}` |
| Jobs.AddConcurrentTask | llmsmith/job/job.py:202-216 | a concurrent registration appends exactly one entry, with template `{{root}}`, and leaves the memory alone; so every template is `{{root}}` afterwards exactly when it was before; it raises exactly when the extended list is not registrable |
| Jobs.OnceRaisedAlwaysRaises | llmsmith/job/job.py:119-122 | after one registration raised, every later registration on that job raises too |
| Jobs.RegistrablePrefix | llmsmith/job/base.py:187-196 | dropping entries from the end keeps a task list registrable |
| Jobs.DistinctRegistrationsSucceed | llmsmith/job/job.py:104-124 | registering tasks with distinct names never raises, and the job's list is exactly the registrations, in order |
| Jobs.ExecuteJobTask | llmsmith/job/base.py:84-103 | a task starts exactly when its template resolves; its input is stored before it runs, and its output only if it returned |
| Jobs.ExecuteJobTaskEffects | llmsmith/job/base.py:84-103 | one execution stores the resolved input under the task name, stores the output only on success, and touches no other key |
| Jobs.RunWith | llmsmith/job/job.py:133-134 | a run starts no more tasks than are registered, and all of them when nothing raised; the memory stays well formed |
| Jobs.Executing | llmsmith/job/base.py:84-103 | on any well-formed memory the step is `_JobTask.execute`, and it keeps the memory well formed |
| Jobs.RunTasks | llmsmith/job/job.py:126-134 | `SequentialJob.run` starts no more tasks than are registered, and all of them when nothing raised |
| Jobs.RunTasksCons | llmsmith/job/job.py:133-134 | a run is the first task's step followed by the rest of the run on the memory that step left |
| Jobs.Run | llmsmith/job/job.py:126-134 | the job keeps its tasks, its memory becomes what the run left, and the run starts no more tasks than are registered |
| Jobs.RunKeepsOtherEntries | llmsmith/job/job.py:126-134 | a run keeps the memory of earlier runs: the input and output under a name that none of the job's tasks carries are unchanged |
| Jobs.JobTaskInput | llmsmith/job/base.py:156-165 | `task_input(key)` is `None` exactly when no input is stored under the key, else that input |
| Jobs.JobTaskOutput | llmsmith/job/base.py:167-176 | `task_output(key)` is `None` exactly when no output is stored under the key, else that output |
| Jobs.RunWithStartsInOrder | llmsmith/job/job.py:133-134 | the tasks a run starts are the registered ones, in registration order |
| Jobs.RunStartsInOrder | llmsmith/job/job.py:133-134 | `SequentialJob.run` starts the registered tasks in registration order |
| Jobs.RunWithSplit | llmsmith/job/job.py:133-134 | a run over `a + b` is the run of `a`, then, if that raised nothing, the run of `b` on the memory `a` left |
| Jobs.RunSplit | llmsmith/job/job.py:133-134 | the split above, for the job's own executions |
| Jobs.FirstStartedInput | llmsmith/job/base.py:95-101 | the first task's input is resolved against the memory the run began with |
| Jobs.PrefixRaisesWhole | llmsmith/job/job.py:133-134 | if a prefix raises, the whole run raises that exception, with no more starts than the prefix |
| Jobs.TaskSeesEarlierTasks | llmsmith/job/base.py:95-101 | task `i` resolves its template against the memory exactly as the first `i` tasks left it |
| Jobs.FailureStopsRun | llmsmith/job/job.py:133-134 | when task `k` raises, no later task starts, its input stays stored if it started, and no output is stored for it |
| Jobs.FailureRun | llmsmith/job/job.py:133-134 | when task `k` raises, the run is the first `k` tasks' run followed by the failed step |
| Jobs.FailureAt | llmsmith/job/job.py:133-134 | running a list whose first `k` tasks succeed and whose task `k` raises is those `k` runs, then the failed step |
| Jobs.FirstFails | llmsmith/job/job.py:133-134 | a run whose first task raises is that one step |
| Jobs.SplitAfterSuccess | llmsmith/job/job.py:133-134 | when `a` raises nothing, running `a + b` gives `a`'s starts, then `b`'s run |
| Jobs.FailedStep | llmsmith/job/base.py:101-103 | a raising task stores no output, and its input stays stored if it started |
| Jobs.OutputsRetrievable | llmsmith/job/base.py:101-103 | after a run that raised nothing over distinct names, each task's stored output is what it returned for its input |
| Jobs.SequentialOutputByName | llmsmith/job/base.py:167-176 | after such a run, `task_output(name)` of every task is what that task returned |
| Jobs.EntriesUntouched | llmsmith/job/base.py:99-103 | a run never writes the input or the output of a name none of its tasks carries |
| Jobs.StepKeepsStrMemory | llmsmith/job/base.py:99-103 | one execution keeps every stored content a string when the task returns a string |
| Jobs.RootOnlyInputs | llmsmith/job/job.py:211 | with every template `{{root}}` and a root input without `{{`, every task started receives exactly the root input, in any order, whatever the entries are |
| Jobs.RootStep | llmsmith/job/base.py:95-99 | a `{{root}}` task started with a root input without `{{` receives the root input, whatever the memory holds |
| Jobs.RunConcurrent | llmsmith/job/job.py:218-227 | the tasks execute as atomic steps in the schedule's order, stopping at the first exception |
| Jobs.ConcurrentRunByName | llmsmith/job/job.py:202-227 | in a concurrent job, every started task receives the root input; after a run that raised nothing, each task's output is what it returned for that input |
| Jobs.ScheduledOutput | llmsmith/job/job.py:225-227 | one task of the concurrent run's result, found through its position in the schedule |
| Options.Project | llmsmith/task/textgen/options/openai.py:51-56 | copying the declared names gives exactly those keys, an absent one as `None` |
| Options.DefaultIfFalsy | llmsmith/task/retrieval/vector/options/chromadb.py:28-29 | a falsy value is replaced by the default and a truthy one kept; other keys are unchanged |
| Options.DefaultsIfFalsy | llmsmith/task/retrieval/vector/options/pinecone.py:30-34 | two falsy-defaults in a row: each named key defaulted independently, truthy values kept |
| Options.RenameSystemPrompt | llmsmith/task/textgen/options/cohere.py:56-57 | a truthy `system_prompt` is copied under the new name; otherwise nothing is added |
| Options.ProjectWithout | llmsmith/task/textgen/options/openai.py:51-56 | the declared names without `system_prompt`, copied as given |
| Options.DropFalsy | llmsmith/task/textgen/options/cohere.py:61-63 | deletes exactly the declared keys holding a falsy value; the rest are kept |
| Options.KeepTruthy | llmsmith/task/textgen/options/claude.py:36-40 | only declared names with a truthy value are kept, each with that value |
| Options.OrDefault | llmsmith/task/textgen/openai.py:51 | `None` or `{}` options become the defaults; any other dict is kept |
| Options.KwargsClash | llmsmith/task/textgen/openai.py:86-88 | a call `f(name=..., **opts)` clashes exactly when some named argument is also a key of `opts` |
| Options.ClashAt | llmsmith/task/textgen/cohere.py:78-85 | when only one named argument can be an option key, the call clashes exactly when it is one |
| Options.OpenAITextGen | llmsmith/task/textgen/options/openai.py:51-56 | every declared name but `system_prompt`, copied as given; `tools` is among them |
| Options.GroqTextGen | llmsmith/task/textgen/options/groq.py:41-54 | the declared names but `system_prompt`; `model` and `tool_choice` defaulted when falsy; never `tools` or `messages` |
| Options.ClaudeTextGen | llmsmith/task/textgen/options/claude.py:35-46 | only truthy declared names, plus `model` and `max_tokens`; every value is truthy |
| Options.ClaudeDefaults | llmsmith/task/textgen/options/claude.py:41-44 | a falsy `model` or `max_tokens` gets its default |
| Options.RenamedAndSparse | llmsmith/task/textgen/options/cohere.py:46-65 | `system_prompt` dropped, model set, prompt renamed when truthy, then falsy declared names deleted |
| Options.ModelAndRename | llmsmith/task/textgen/options/cohere.py:47-57 | `system_prompt` dropped, model set, prompt renamed when truthy |
| Options.CohereTextGen | llmsmith/task/textgen/options/cohere.py:46-65 | `model` defaulted; `preamble` present exactly when `system_prompt` is truthy; a declared name present exactly when truthy; never `message`, `chat_history`, `tools` or `tool_results` |
| Options.GeminiTextGen | llmsmith/task/textgen/options/gemini.py:29-30 | exactly the three declared names, copied as given |
| Options.OrEmpty | llmsmith/agent/function/options/openai.py:43-44 | `None` options read as empty; others unchanged |
| Options.AssistantCreate | llmsmith/agent/function/options/openai.py:42-58 | the declared names but `system_prompt`; `instructions` present exactly when the prompt is truthy; `model` defaulted when falsy |
| Options.QdrantQuery | llmsmith/task/retrieval/vector/options/qdrant.py:36-43 | the declared names plus `with_payload`, which is always true; `limit` is 10 when falsy |
| Options.PineconeQuery | llmsmith/task/retrieval/vector/options/pinecone.py:27-36 | `top_k` is 10 and `include_values` false when falsy |
| Options.PgVectorQuery | llmsmith/task/retrieval/vector/options/pgvector.py:28-37 | `limit` is 10 and `distance_function` "cosine" when falsy |
| Options.ChromaQuery | llmsmith/task/retrieval/vector/options/chromadb.py:25-31 | `n_results` is 10 when falsy, 0 included |
| Options.RerankerOptions | llmsmith/reranker/options/cohere.py:28-37 | `None` reads as `{}`; `model` is "rerank-english-v2.0" when falsy |
| Payload.WithSystemPrompt | llmsmith/task/textgen/openai.py:69-76 | the stripped prompt is appended at the end exactly when it is non-empty and no system message is present; nothing else changes |
| Payload.SystemPromptOnce | llmsmith/task/textgen/openai.py:70-76 | once a system message is present, appending messages and preparing again adds nothing |
| Payload.SystemPromptIdempotent | llmsmith/task/textgen/openai.py:69-76 | preparing a payload twice is the same as preparing it once |
| Completions.FirstFor | llmsmith/task/textgen/openai.py:92-95 | the first choice with the given finish reason, `None` when there is none |
| Completions.FirstIsUnique | llmsmith/task/textgen/openai.py:92-95 | at most one index is the first choice for a reason |
| Completions.CallDict | llmsmith/task/textgen/openai.py:101-111 | the calls keyed by function name, with empty arguments read as `{}` |
| Completions.CallDictLastWins | llmsmith/task/textgen/openai.py:101-111 | a function called twice keeps only its last call |
| Completions.CallDictDistinct | llmsmith/task/textgen/openai.py:101-111 | with distinct names, every call is kept in reply order |
| Completions.Classify | llmsmith/task/textgen/openai.py:92-128 | a "tool_calls" choice gives text and calls; else the first "stop" choice gives text alone; else `NO_NATURAL_STOP_POINT` |
| Completions.ToolCallsChoiceAnswers | llmsmith/task/textgen/openai.py:92-112 | a "tool_calls" choice wins over every "stop" choice, earlier ones included |
| Completions.StopChoiceAnswers | llmsmith/task/textgen/openai.py:114-128 | without a "tool_calls" choice, the first "stop" choice's text is the answer and there are no calls |
| Completions.NoStopPointFails | llmsmith/task/textgen/openai.py:119-122 | with neither kind of choice, generation fails with `NO_NATURAL_STOP_POINT` |
| Completions.Chat | llmsmith/task/textgen/openai.py:69-88 | the system prompt is appended first; then a named argument clashing with an option raises `TypeError`, and otherwise one request is sent |
| Completions.OpenAIToolsClash | llmsmith/task/textgen/openai.py:78-88 | the written `chat` raises `TypeError` on every call, whatever the options |
| Completions.OpenAIRequestOptions | llmsmith/task/textgen/options/openai.py:51-56 | the corrected request's options are the option dict without `tools` |
| Completions.OpenAIChat | llmsmith/task/textgen/openai.py:69-128 | with `tools` passed once, exactly one request reaches the SDK: the payload with the system prompt appended, the tools, and the options without `tools`; the outcome is the SDK's exception or its reply classified by function name |
| Completions.OpenAIDefaultsHold | llmsmith/task/textgen/openai.py:30-32 | (example) the default options hold the model and the temperature and nothing else |
| Completions.OpenAIModelTemperatureRequest | llmsmith/task/textgen/options/openai.py:51-56 | a model and a temperature alone send those two, and every other declared option as `None` |
| Completions.OpenAIDefaultRequest | llmsmith/task/textgen/openai.py:30-32 | the default options send the model and temperature, and the others as `None` |
| Completions.NewTextGenTask | llmsmith/task/textgen/openai.py:144-151 | the name is checked; `None` or `{}` options become the defaults |
| Completions.Execute | llmsmith/task/textgen/openai.py:163-174 | a non-string input raises `ValueError` before any request; otherwise one user message is sent and the reply's text and raw output returned |
| Completions.OpenAIExecuteSendsOnce | llmsmith/task/textgen/openai.py:163-174 | a string input sends one request: the user message, then the system prompt when set, without tools |
| Completions.GroqChat | llmsmith/task/textgen/groq.py:69-129 | Groq's options never hold `messages` or `tools`, so the request always reaches the SDK; the result is the SDK's exception or the reply classified with calls keyed by call id |
| Completions.GroqCallsById | llmsmith/task/textgen/groq.py:92-113 | Groq calls are keyed by call id; the text and raw reply come back unchanged |
| CohereText.CohereReason | llmsmith/task/textgen/cohere.py:110-124 | each known finish reason has its own code; any other reason gives "OTHER" |
| CohereText.CohereReasonInjective | llmsmith/task/textgen/cohere.py:110-124 | distinct known finish reasons never share a code |
| CohereText.CohereCalls | llmsmith/task/textgen/cohere.py:95-102 | absent or empty tool calls give `None`; otherwise the calls keyed by tool name |
| CohereText.CohereCallsLastWins | llmsmith/task/textgen/cohere.py:95-102 | a tool called several times keeps its last parameters |
| CohereText.CohereCallsDistinct | llmsmith/task/textgen/cohere.py:95-102 | distinct tool names keep every call, in order |
| CohereText.ClassifyCohere | llmsmith/task/textgen/cohere.py:89-108 | any finish reason but "COMPLETE" fails with its code before the calls are read; a complete reply gives its text, the raw reply, and its tool calls keyed by tool name (`None` when there are none) |
| CohereText.ToxicReplyFails | llmsmith/task/textgen/cohere.py:89-93 | a toxic reply fails with "SAFETY_CHECK_FAILED", whatever calls it carries |
| CohereText.CohereChatWith | llmsmith/task/textgen/cohere.py:78-85 | the SDK gets five named arguments and the options; Python refuses the call when an option repeats a name |
| CohereText.CohereConversationClash | llmsmith/task/textgen/cohere.py:74-85 | a truthy `conversation_id` option makes the written `chat` raise `TypeError`; without one the request goes out |
| CohereText.CohereClashIsConversation | llmsmith/task/textgen/cohere.py:78-85 | only `conversation_id` can clash, and it clashes exactly when truthy |
| CohereText.CohereClashWhen | llmsmith/task/textgen/cohere.py:78-85 | options holding none of the other four names clash exactly when they hold `conversation_id` |
| CohereText.CohereRequestOptions | llmsmith/task/textgen/cohere.py:74 | the corrected request's options are the Cohere options without `conversation_id` |
| CohereText.ConversationOf | llmsmith/task/textgen/cohere.py:78-85 | the argument when given, else a truthy option, else `None` |
| CohereText.CohereChat | llmsmith/task/textgen/cohere.py:51-108 | with `conversation_id` passed once, the request always reaches the SDK and the reply is classified |
| CohereText.CohereDefaultsHold | llmsmith/task/textgen/cohere.py:28-30 | (example) the defaults are `command-r-plus` and temperature 0.3, nothing else |
| CohereText.CohereModelTemperatureOptions | llmsmith/task/textgen/options/cohere.py:46-65 | a truthy model and temperature alone reduce to exactly those two |
| CohereText.CohereDefaultRequest | llmsmith/task/textgen/cohere.py:28-30 | the default options reduce to exactly `model` and `temperature` |
| CohereText.CohereExecute | llmsmith/task/textgen/cohere.py:159-169 | a non-string input raises `ValueError` before any request; otherwise only the message is sent, and the text and raw reply come back |
| GeminiText.GeminiBlockReason | llmsmith/task/textgen/gemini.py:116-124 | a safety block gives "SAFETY_CHECK_FAILED"; anything else gives "OTHER" |
| GeminiText.ClassifyGemini | llmsmith/task/textgen/gemini.py:85-114 | a blocked prompt is reported first; then the first "STOP" candidate must exist and have a text part |
| GeminiText.GeminiAnswerText | llmsmith/task/textgen/gemini.py:95-114 | the answer is the first non-empty part of the first "STOP" candidate |
| GeminiText.GeminiNoTextData | llmsmith/task/textgen/gemini.py:104-110 | a first "STOP" candidate without text fails with "NO_TEXT_DATA", whatever later candidates hold |
| GeminiText.GeminiBlockedNeverReported | llmsmith/task/textgen/gemini.py:85-93 | the written code never raises `PromptBlockedError`; it agrees with the intended one exactly on unblocked replies |
| GeminiText.NewGeminiTask | llmsmith/task/textgen/gemini.py:41-50 | the name is checked; options are kept as given, `None` included |
| GeminiText.GeminiDefaults | llmsmith/task/textgen/gemini.py:25 | the default options are an empty dict |
| GeminiText.GeminiNoDefaults | llmsmith/task/textgen/options/gemini.py:29-30 | (example) the defaults send all three keywords, each as `None` |
| GeminiText.RunGemini | llmsmith/task/textgen/gemini.py:64-114 | a non-string input and `None` options each fail before any request; otherwise one user message is sent with the options |
| GeminiText.GeminiSendsOnce | llmsmith/task/textgen/gemini.py:70-81 | a string input sends exactly one request holding one user message |
| Tools.NewChatTool | llmsmith/agent/tool/gemini.py:22-27 | both declaration and callable must be truthy, else `ValueError`; both stored as given |
| Tools.NewAssistantTool | llmsmith/agent/tool/openai.py:41-51 | the declaration must be truthy; only `function` tools need a callable; the declaration check comes first |
| Tools.AssistantToolWithoutCallable | llmsmith/agent/tool/openai.py:41-51 | a non-function tool is accepted without a callable, and only such a tool is |
| Tools.Registry | llmsmith/agent/function/openai.py:67-71 | the registry's names are exactly those of the selected tools (all of them, or only `function` tools); an agent builds a `function`-only registry only after every declaration was read without error, see `AgentLoop.NewAgent` |
| Tools.RegistryError | llmsmith/agent/function/openai.py:67-71 | building a `function`-only registry raises exactly when some tool lacks its `type`, or is a `function` tool lacking `["function"]["name"]`; the first such tool in order gives the `KeyError`, `type` read before the name |
| Tools.UntypedRaises | llmsmith/agent/function/groq.py:60-64 | a declaration without `type` always makes a `function`-only registry raise `KeyError` |
| Tools.RegistryLastWins | llmsmith/agent/function/gemini.py:76-78 | a name maps to the callable of the last tool that declares it |
| Tools.DeclaredTools | llmsmith/agent/function/gemini.py:70-75 | Gemini and Groq pass `None` for an empty tool list; Cohere passes the list as it is |
| AgentLoop.Dispatch | llmsmith/agent/function/gemini.py:122-147 | the calls run in order; the first exception propagates and the rest never run |
| AgentLoop.Loop | llmsmith/agent/function/gemini.py:101-149 | at most `max_turns` model calls; text ends the loop; otherwise the calls are dispatched and the loop goes on |
| AgentLoop.TurnDone | llmsmith/agent/function/gemini.py:122-147 | a turn that continues completed every call it requested |
| AgentLoop.LoopContinues | llmsmith/agent/function/gemini.py:101-147 | a turn with calls is one model call, its calls, then the loop from the next turn |
| AgentLoop.LoopTail | llmsmith/agent/function/gemini.py:101-149 | a continuing turn sends its conversation, then the later calls; exhaustion passes to the rest |
| AgentLoop.LoopStops | llmsmith/agent/function/gemini.py:106-116 | a turn without calls is the last one, and turns did not run out |
| AgentLoop.LoopChain | llmsmith/agent/function/gemini.py:101-147 | every model call but the last continued, and each conversation extends the previous one |
| AgentLoop.ExhaustedAllContinue | llmsmith/agent/function/gemini.py:149 | a run that ran out of turns made `max_turns` calls, all continuing |
| AgentLoop.AllContinueExhausted | llmsmith/agent/function/gemini.py:101-149 | `max_turns` continuing calls exhaust the loop |
| AgentLoop.ExhaustedIff | llmsmith/agent/function/gemini.py:101-149 | the loop raises `MaxTurnsReachedException` exactly when all `max_turns` turns continued |
| AgentLoop.FirstTextAnswers | llmsmith/agent/function/gemini.py:106-116 | a first reply without calls is the answer: one model call, no tool call |
| AgentLoop.NewAgent | llmsmith/agent/function/groq.py:52-64 | the name is checked first, then `max_turns`; an agent keeping only `function` tools then raises the registry's `KeyError` (a missing `type`, `function` or `name` entry, the first tool in order); otherwise the declarations and registry come from the tools |
| AgentLoop.Execute | llmsmith/agent/function/gemini.py:80-149 | a non-string input raises `ValueError` before any model call; otherwise the loop runs from the first message |
| AgentLoop.ExecuteChain | llmsmith/agent/function/gemini.py:99-147 | every model call but the last continued, and each sends the previous conversation extended |
| AgentLoop.ExecuteStep | llmsmith/agent/function/gemini.py:99-147 | each model call after the first sends the previous call's conversation, extended |
| Agents.GeminiTurn | llmsmith/agent/function/gemini.py:122-147 | a turn adds a call message and a response message per completed call, in order |
| Agents.GeminiConversation | llmsmith/agent/function/gemini.py:99-147 | the conversation starts with the user text; each call adds two messages per completed call |
| Agents.GroqCallsMsg | llmsmith/agent/function/groq.py:110-125 | one assistant message with a `tool_calls` entry per completed call, by call id |
| Agents.GroqToolMsgs | llmsmith/agent/function/groq.py:128-137 | one tool message per completed call, holding `str()` of the return value, containers shown with their items' `repr()` (see `PyValue.PyStr`) |
| Agents.HasSystemAppend | llmsmith/task/textgen/groq.py:69-76 | a payload holding a system message still holds one after more are appended |
| Agents.GroqFirstRequest | llmsmith/agent/function/groq.py:85 | the first request is the user message, then the stripped prompt when it is non-empty |
| Agents.GroqLaterHasSystem | llmsmith/agent/function/groq.py:87-137 | every later request holds a non-empty system prompt |
| Agents.GroqRequestHasSystem | llmsmith/agent/function/groq.py:85-137 | with a non-empty prompt, every request holds a system message |
| Agents.GroqConversation | llmsmith/agent/function/groq.py:85-137 | each later request is the previous plus an assistant message and one tool message per call |
| Agents.CohereTurn | llmsmith/agent/function/cohere.py:127-132 | a turn adds the tool results of its calls, in order |
| Agents.ToolResultsArg | llmsmith/agent/function/cohere.py:100-106 | empty tool results are passed as `None` |
| Agents.HistoryArg | llmsmith/agent/function/cohere.py:100-106 | an empty history is passed as `None` |
| Agents.CohereConversation | llmsmith/agent/function/cohere.py:96-132 | each call carries the message; later calls add the turn's results and the last reply's history |
| Agents.CohereMessageKept | llmsmith/agent/function/cohere.py:100-106 | every Cohere call carries the user's message unchanged |
| Assistant.FirstText | llmsmith/agent/function/openai.py:153-160 | the first text part of the message, `None` when there is none |
| Assistant.AsItems | llmsmith/agent/function/openai.py:179-185 | the requested calls by call id, empty arguments read as `{}` |
| Assistant.Outputs | llmsmith/agent/function/openai.py:187-189 | one output per completed call: the call id and `str()` of the return value, containers shown with their items' `repr()` (see `PyValue.PyStr`) |
| Assistant.CallAll | llmsmith/agent/function/openai.py:179-189 | every call runs in order, by function name; the first exception propagates |
| Assistant.FailureReason | llmsmith/agent/function/openai.py:215-234 | the intended codes for cancelled, failed (by error code) and expired runs, else unknown |
| Assistant.FailedRun | llmsmith/agent/function/openai.py:198-211 | a run in any other status fails with `TextGenFailedError` and its reason code |
| Assistant.FailedRunAsWritten | llmsmith/agent/function/openai.py:208-211 | as written, every failed, cancelled or expired run raises `AttributeError` |
| Assistant.FailedRunAsWrittenLosesReason | llmsmith/agent/function/openai.py:208-216 | the written branch never raises the intended `TextGenFailedError` |
| Assistant.CancelledRunExample | llmsmith/agent/function/openai.py:215-217 | (example) a cancelled run's intended code is `OPENAI__RUN_CANCELLED`; the written code raises instead |
| Assistant.Loop | llmsmith/agent/function/openai.py:143-213 | at most `max_turns` runs, all of them when the turns run out; each turn lists the messages first, whose exception ends the agent; completed answers, requires_action submits and goes on, any other status fails |
| Assistant.LoopProceeds | llmsmith/agent/function/openai.py:172-195 | a run requiring action submits its outputs and the loop continues from the returned run |
| Assistant.LoopStops | llmsmith/agent/function/openai.py:152-211 | a run that does not proceed ends the loop before turns run out |
| Assistant.LoopSubmissions | llmsmith/agent/function/openai.py:172-195 | each submission holds exactly the outputs of the tools a run required, and the next run is what it returned |
| Assistant.ExhaustedAllProceed | llmsmith/agent/function/openai.py:213 | running out of turns took `max_turns` runs that all proceeded |
| Assistant.AllProceedExhausted | llmsmith/agent/function/openai.py:143-213 | `max_turns` proceeding runs exhaust the agent |
| Assistant.ExhaustedIff | llmsmith/agent/function/openai.py:143-213 | `MaxTurnsReachedException` exactly when all `max_turns` observed runs proceeded |
| Assistant.CompletedAnswers | llmsmith/agent/function/openai.py:144-169 | a completed run whose messages were listed answers with the latest message's first text, and the run as raw output |
| Assistant.OtherStatusFails | llmsmith/agent/function/openai.py:198-211 | once the messages were listed, any status but completed or requires_action fails with the run's reason code |
| Assistant.ListingRaises | llmsmith/agent/function/openai.py:143-150 | `messages.list` runs at the top of every turn, before the status is read; its exception ends the agent |
| Assistant.SubmissionRaises | llmsmith/agent/function/openai.py:191-193 | an exception from `submit_tool_outputs_and_poll` ends the agent, and nothing more is observed |
| Assistant.NewAssistantAgent | llmsmith/agent/function/openai.py:49-71 | the name, then `max_turns`, then every declaration's `type` and each `function` declaration's name are checked, a missing entry raising `KeyError`; the agent keeps the task, the turn limit and a registry of exactly the `function` tools |
| Assistant.Execute | llmsmith/agent/function/openai.py:127-141 | a non-string input raises before a thread is created; an exception from creating the thread, posting the message or starting the run ends the agent with no turn; otherwise the loop starts from the first polled run |
| Chroma.Numbered | llmsmith/task/retrieval/vector/chromadb.py:32 | `[idx] doc` |
| Chroma.NumberAll | llmsmith/task/retrieval/vector/chromadb.py:30-32 | every document numbered by its position |
| Chroma.FormatDocs | llmsmith/task/retrieval/vector/chromadb.py:30-34 | the text is empty exactly when there are no documents; otherwise it starts with `[0] ` and the first document |
| Chroma.FormatDocsSnoc | llmsmith/task/retrieval/vector/chromadb.py:30-34 | one more document adds one blank line and its numbered text; earlier ones keep their numbers |
| Chroma.DocProcessor | llmsmith/task/retrieval/vector/chromadb.py:15-34 | only the first query's documents are read; a missing list raises |
| Chroma.TwoDocs | llmsmith/task/retrieval/vector/chromadb.py:19-27 | (example) two documents give `[0] a`, a blank line, `[1] b` |
| Reranker.PyIndex | llmsmith/reranker/cohere.py:41 | `docs[i]`: negative indices count from the end; others outside raise `IndexError` |
| Reranker.Pick | llmsmith/reranker/cohere.py:39-42 | the documents at the given positions, in order |
| Reranker.Reorder | llmsmith/reranker/cohere.py:39-42 | succeeds exactly when every index is valid in Python; the `i`-th output is `docs[idx[i]]` |
| Reranker.RerankDocs | llmsmith/reranker/cohere.py:28-46 | one rerank request with the fixed model and no documents returned; an SDK error propagates; otherwise reordered |
| Reranker.ReorderInRange | llmsmith/reranker/cohere.py:39-42 | with in-range indices the output is exactly the selected documents, unmodified |
| Reranker.PickMultiset | llmsmith/reranker/cohere.py:39-42 | index lists with the same elements select the same documents with multiplicity |
| Reranker.RerankPermutes | llmsmith/reranker/cohere.py:25-46 | when the indices permute the positions, the output permutes the documents |

## Left out

- **I/O and SDKs.** Network, SDK clients and LLM replies are function parameters (oracles). `asyncio`, `await`
  and logging are not modelled. JSON argument parsing is an opaque `map` supplied by the reply.
- **ConcurrentJob.run.** `asyncio.gather` is modelled as a given schedule, in which each task's
  execution is one atomic step. Real interleavings at `await` points inside a task are not modelled. The
  model claims only properties that hold for every schedule.
- **Retrievers.** `ChromaDBRetriever.execute` and the other retrievers' `execute` bodies are only SDK calls
  around the option builders and the document formatter. Those two parts are modelled; the calls are not.
- **Claude and the LLM wrappers.** The `llm/` wrapper classes and the Claude text task are outside
  the modelled core. Only Claude's option builder is modelled.
- **Missing names.** `TextGenFailedException` is imported by the text tasks and the assistant agent, but
  `errors.py` defines `TextGenFailedError`. The model assumes the defined class: `TextGenFailed`.
- **BaseGeminiChat.** The Gemini agent imports `BaseGeminiChat` from `llmsmith/task/textgen/gemini.py`, which
  defines only `GeminiTextGenTask`. The model takes its `chat` as an oracle. It returns either an exception or
  a response. The response's `function_calls` are keyed by function name and are `None` or empty when the reply
  is text. Its text and raw output are passed through unchanged.
- **Shapes taken from usage.** `llmsmith/task/models.py` defines neither `ChatResponse` nor `FunctionCall`;
  their shapes follow how the code uses them.
- **Non-string system prompt.** A `system_prompt` that is not a string (where `.strip()` would raise) is not modelled.
  The prompt is a string.
- Options.KwargsClash: the `TypeError` message leaves out the callee-name prefix that Python puts in front.
- **Tests that disagree with the code.** The context tests assert a few things the code does not do. One
  OpenAI test expects the system message first, but the code appends it last. The ChromaDB test uses a
  different separator. The reranker test passes options. The model follows the code.
- PyValue.StrRepr: every character above U+00FF is treated as printable. Python's `repr()` writes the
  non-printable ones, such as U+2028 or unassigned code points, as `\uXXXX` or `\UXXXXXXXX`. Deciding that
  needs the Unicode database.
- PyValue.PyStr: a `Dict` value lists its entries as given; that a dict's keys are distinct is not enforced.
  Floats are opaque (see "Numeric option values").
- Reranker.RerankDocs: the document union types are modelled as strings.
- Reranker.Pick: its helper `At` returns "" for an out-of-range index. Reorder never selects that case.
- GeminiText.GeminiBlockReason: the block-reason enum is reduced to three values, namely unspecified, safety
  and other.
- Tasks.NewTask: the task's `name()` accessor is the datatype field `name`. Each task carries an `id`
  that stands for object identity.
- **Numeric option values.** These are opaque: a number keeps its text and whether it is zero, which is all
  the truthiness tests need.
- Jobs.RunConcurrent: the model stops at the first exception. `asyncio.gather` does not cancel the other
  tasks, so in the source they can still run and write memory after the exception; those later writes are
  not modelled.
- Placeholders.UnknownPlaceholderKept: promised only for brace-free names. A stored name with braces, such as
  `b.output}}{{c`, spells a placeholder that overlaps another one and can swallow it.
- Placeholders.AbsentInputPlaceholderKept: promised only for brace-free names, for the same reason.
- Placeholders.ResolveOutputPlaceholder: promised only for brace-free surrounding text, names and contents.
  With braces around, a substituted content can form or break other placeholders.
- Placeholders.ResolveInputPlaceholder: the same brace-free conditions as for an output placeholder.
- Placeholders.ResolveRootPlaceholder: the same brace-free conditions, for the text and the root input.
- Jobs.ScanNamesNoneIff: a non-`Task` entry is modelled as an object without a `name` attribute. A duck-typed
  object whose `name()` returns a string would pass the name scan in the source, and one whose `name` is not
  callable raises `TypeError` rather than `AttributeError`. Neither case is modelled.
- Jobs.ValidateTaskNamesIff: the same modelling of non-`Task` entries as for `Jobs.ScanNamesNoneIff`.
- Jobs.ScanNamesErrorKind: the `TypeError` of a non-callable `name` attribute on a non-`Task` entry is not
  modelled, for the same reason.
- Jobs.AddTask: a non-`Task` entry left in the list by an earlier rejected call is modelled as having no
  `name`. The appended entry stays in the list even when the call raises, as in the source.
- Jobs.OnceRaisedAlwaysRaises: promised for non-`Task` entries without a usable `name()`. A duck-typed entry
  whose `name()` returns a fresh string would let later registrations pass.
- **Callable registry.** A function name missing from the registry raises `KeyError`. Any other
  exception a tool raises is whatever the tool oracle returns.

## Findings

| source | as written | input that shows it | evidently intended | confidence | as-written member | corrected member |
|---|---|---|---|---|---|---|
| llmsmith/agent/function/openai.py:208-215 | the failure branch passes `run.status`, a string, to `__failure_reason`, which reads `.status` of its argument | any run whose status is "cancelled", "failed" or "expired" | raise `TextGenFailedError` with the run's reason code | high, not executed | Assistant.FailedRunAsWritten, Assistant.FailedRunAsWrittenLosesReason | Assistant.FailedRun |
| llmsmith/task/textgen/gemini.py:92,116-117 | `_block_reason_str(llm_reply)` is a classmethod whose only parameter is bound to the class, so the call with the whole reply passes two arguments and raises `TypeError` | a reply whose `block_reason` is SAFETY | raise `PromptBlockedError` with "SAFETY_CHECK_FAILED" or "OTHER" | high, not executed | GeminiText.ClassifyGeminiAsWritten, GeminiText.GeminiBlockedNeverReported | GeminiText.ClassifyGemini |
| llmsmith/task/textgen/openai.py:86-88 | `create(messages=…, tools=tools, **options)`, where the options dict always holds `tools` (as `None` when unset) | any call of `chat`, e.g. default options | pass `tools` once | high, not executed | Completions.OpenAIChatAsWritten, Completions.OpenAIToolsClash | Completions.OpenAIChat |
| llmsmith/task/textgen/cohere.py:74-85 | `chat(conversation_id=…, **options)`, where the options keep a truthy `conversation_id` | options `{"conversation_id": "c1"}` | pass `conversation_id` once | high, not executed | CohereText.CohereChatAsWritten, CohereText.CohereConversationClash | CohereText.CohereChat |

=== FILE: agentloop.dfy ===
/**
 * The tool-calling loop shared by the Gemini, Groq and Cohere function agents:
 * validate the input, seed the conversation, then up to `max_turns` times ask
 * the model; a reply without function calls is the answer, otherwise every
 * requested call is dispatched to its registered callable and the conversation
 * is extended in the provider's shape. When the turns run out,
 * `MaxTurnsReachedException` is raised.
 *
 * The model is an oracle: given the turn number and the conversation as sent,
 * it returns a chat response or raises. Tool callables are an oracle too.
 */
module AgentLoop {
  import opened Wrappers
  import opened PyValue
  import opened Models
  import opened Tasks
  import opened Tools

  /** What a callable does with keyword arguments: its return value or the exception it raises. */
  type Invoke = (Callable, Args) -> Outcome<Value>

  /** A finished tool call: its key in `function_calls`, the call, and the callable's return value. */
  type Done = (string, FunctionCall, Value)

  const NotCallableMsg := "'NoneType' object is not callable"

  /** The registry key a call is looked up under: its dict key (Gemini, Cohere) or its `name` (Groq). */
  function LookupName(key: string, call: FunctionCall, byKey: bool): Option<string> {
    if byKey then Some(key) else call.name
  }

  /** `self._tool_callables[name](**args)`: a missing name is a `KeyError`, a `None` callable a `TypeError`. */
  function CallTool(reg: map<string, Option<Callable>>, name: Option<string>, args: Args, invoke: Invoke): Outcome<Value> {
    if name.None? then Err(KeyError("None"))
    else if name.value !in reg then Err(KeyError(name.value))
    else if reg[name.value].None? then Err(TypeError(NotCallableMsg))
    else invoke(reg[name.value].value, args)
  }

  /** The calls of one turn that completed, and the exception that stopped the rest, if any. */
  datatype Dispatched = Dispatched(done: seq<Done>, raised: Option<Error>)

  /**
   * `for key, func in func_calls.items(): ...`: the calls run one by one in
   * response order; the first exception propagates and the remaining calls
   * never run.
   */
  function Dispatch(items: CallItems, byKey: bool, reg: map<string, Option<Callable>>, invoke: Invoke): (r: Dispatched)
    ensures |r.done| <= |items|
    ensures r.raised.None? <==> |r.done| == |items|
    ensures forall i :: 0 <= i < |r.done| ==>
      && r.done[i].0 == items[i].0 && r.done[i].1 == items[i].1
      && CallTool(reg, LookupName(items[i].0, items[i].1, byKey), items[i].1.args, invoke) == Ok(r.done[i].2)
    ensures r.raised.Some? ==>
      CallTool(reg, LookupName(items[|r.done|].0, items[|r.done|].1, byKey), items[|r.done|].1.args, invoke)
        == Err(r.raised.value)
    decreases |items|
  {
    if |items| == 0 then Dispatched([], None)
    else
      var (key, call) := items[0];
      match CallTool(reg, LookupName(key, call, byKey), call.args, invoke)
      case Err(e) => Dispatched([], Some(e))
      case Ok(v) =>
        var rest := Dispatch(items[1..], byKey, reg, invoke);
        Dispatched([(key, call, v)] + rest.done, rest.raised)
  }

  /**
   * How a provider shapes the conversation: `prepare` is what its chat does to
   * the payload before sending it (Groq appends the system prompt in place),
   * `extend` adds one turn's completed calls, and `byKey` says how calls are
   * looked up in the registry.
   */
  datatype Provider<!S, !R> = Provider(prepare: S -> S, extend: (S, R, seq<Done>) -> S, byKey: bool)

  /** The model: the reply (or exception) for the given turn and conversation. */
  type Chat<!S, R> = (nat, S) -> Outcome<ChatResponse<R>>

  /**
   * The outcome of an agent run, the conversation as sent at each model call
   * (so `|sent|` counts the model calls), the tool calls that completed, in
   * order, and whether the loop ran out of turns.
   */
  datatype AgentRun<S, R> = AgentRun(outcome: Outcome<TaskOutput<R>>, sent: seq<S>, done: seq<Done>, exhausted: bool)

  /** The loop from turn `turn` on. */
  function Loop<S, R>(p: Provider<S, R>, chat: Chat<S, R>, reg: map<string, Option<Callable>>, invoke: Invoke,
                      s: S, turn: nat, maxTurns: nat): (r: AgentRun<S, R>)
    requires turn <= maxTurns
    ensures |r.sent| <= maxTurns - turn
    ensures r.exhausted ==> r.outcome == Err(MaxTurnsReached) && |r.sent| == maxTurns - turn
    ensures turn < maxTurns ==> |r.sent| > 0 && r.sent[0] == p.prepare(s)
    decreases maxTurns - turn
  {
    if turn == maxTurns then AgentRun(Err(MaxTurnsReached), [], [], true)
    else
      var sent := p.prepare(s);
      match chat(turn, sent)
      case Err(e) => AgentRun(Err(e), [sent], [], false)
      case Ok(resp) =>
        if !HasCalls(resp) then AgentRun(Ok(TaskOutput(TextValue(resp.text), resp.raw)), [sent], [], false)
        else
          var d := Dispatch(resp.functionCalls.value, p.byKey, reg, invoke);
          if d.raised.Some? then AgentRun(Err(d.raised.value), [sent], d.done, false)
          else
            var rest := Loop(p, chat, reg, invoke, p.extend(sent, resp.raw, d.done), turn + 1, maxTurns);
            AgentRun(rest.outcome, [sent] + rest.sent, d.done + rest.done, rest.exhausted)
  }

  /** The model reply at a turn asked for calls and every one of them completed: the loop goes on. */
  predicate Continues<S, R>(p: Provider<S, R>, chat: Chat<S, R>, reg: map<string, Option<Callable>>, invoke: Invoke,
                            turn: nat, sent: S)
  {
    && chat(turn, sent).Ok?
    && HasCalls(chat(turn, sent).value)
    && Dispatch(chat(turn, sent).value.functionCalls.value, p.byKey, reg, invoke).raised.None?
  }

  /** The calls the model asked for at a turn that continues, in response order. */
  function TurnCalls<S, R>(p: Provider<S, R>, chat: Chat<S, R>, reg: map<string, Option<Callable>>, invoke: Invoke,
                           turn: nat, sent: S): CallItems
    requires Continues(p, chat, reg, invoke, turn, sent)
  {
    chat(turn, sent).value.functionCalls.value
  }

  /** The completed calls of a turn that continues: one per requested call. */
  function TurnDone<S, R>(p: Provider<S, R>, chat: Chat<S, R>, reg: map<string, Option<Callable>>, invoke: Invoke,
                          turn: nat, sent: S): (d: seq<Done>)
    requires Continues(p, chat, reg, invoke, turn, sent)
    ensures |d| == |TurnCalls(p, chat, reg, invoke, turn, sent)| > 0
  {
    Dispatch(TurnCalls(p, chat, reg, invoke, turn, sent), p.byKey, reg, invoke).done
  }

  /** The conversation after a turn that continues: the prepared conversation extended with that turn's calls. */
  function Next<S, R>(p: Provider<S, R>, chat: Chat<S, R>, reg: map<string, Option<Callable>>, invoke: Invoke,
                      turn: nat, sent: S): S
    requires Continues(p, chat, reg, invoke, turn, sent)
  {
    p.extend(sent, chat(turn, sent).value.raw, TurnDone(p, chat, reg, invoke, turn, sent))
  }

  /** A turn that continues: one model call, that turn's calls, then the loop from the next turn on. */
  lemma LoopContinues<S, R>(p: Provider<S, R>, chat: Chat<S, R>, reg: map<string, Option<Callable>>,
                            invoke: Invoke, s: S, turn: nat, maxTurns: nat)
    requires turn < maxTurns && Continues(p, chat, reg, invoke, turn, p.prepare(s))
    ensures var sent := p.prepare(s);
      var resp := chat(turn, sent).value;
      var d := Dispatch(resp.functionCalls.value, p.byKey, reg, invoke);
      var rest := Loop(p, chat, reg, invoke, Next(p, chat, reg, invoke, turn, sent), turn + 1, maxTurns);
      Loop(p, chat, reg, invoke, s, turn, maxTurns) == AgentRun(rest.outcome, [sent] + rest.sent, d.done + rest.done, rest.exhausted)
  {
  }

  /** A turn that continues sends its conversation, then the loop's later calls; the run is exhausted when the rest is. */
  lemma LoopTail<S, R>(p: Provider<S, R>, chat: Chat<S, R>, reg: map<string, Option<Callable>>,
                       invoke: Invoke, s: S, turn: nat, maxTurns: nat)
    requires turn < maxTurns && Continues(p, chat, reg, invoke, turn, p.prepare(s))
    ensures var rest := Loop(p, chat, reg, invoke, Next(p, chat, reg, invoke, turn, p.prepare(s)), turn + 1, maxTurns);
      var r := Loop(p, chat, reg, invoke, s, turn, maxTurns);
      r.sent == [p.prepare(s)] + rest.sent && r.exhausted == rest.exhausted
  {
    LoopContinues(p, chat, reg, invoke, s, turn, maxTurns);
  }

  /** A turn that does not continue is the last one: one model call, and the turns did not run out. */
  lemma LoopStops<S, R>(p: Provider<S, R>, chat: Chat<S, R>, reg: map<string, Option<Callable>>,
                        invoke: Invoke, s: S, turn: nat, maxTurns: nat)
    requires turn < maxTurns && !Continues(p, chat, reg, invoke, turn, p.prepare(s))
    ensures var r := Loop(p, chat, reg, invoke, s, turn, maxTurns);
      r.sent == [p.prepare(s)] && !r.exhausted
  {
  }

  /** The `i`-th model call continued, and the next one sent its conversation extended and prepared again. */
  ghost predicate ChainStep<S, R>(p: Provider<S, R>, chat: Chat<S, R>, reg: map<string, Option<Callable>>, invoke: Invoke,
                            turn: nat, sent: seq<S>, i: nat)
    requires i + 1 < |sent|
  {
    && Continues(p, chat, reg, invoke, turn + i, sent[i])
    && sent[i + 1] == p.prepare(Next(p, chat, reg, invoke, turn + i, sent[i]))
  }

  /**
   * Every model call but the last was a turn that continued, and each
   * conversation sent is the previous one, extended with that turn's calls and
   * prepared again.
   */
  lemma {:induction false} LoopChain<S, R>(p: Provider<S, R>, chat: Chat<S, R>, reg: map<string, Option<Callable>>,
                                           invoke: Invoke, s: S, turn: nat, maxTurns: nat)
    requires turn <= maxTurns
    ensures var r := Loop(p, chat, reg, invoke, s, turn, maxTurns);
      forall i :: 0 <= i < |r.sent| - 1 ==> ChainStep(p, chat, reg, invoke, turn, r.sent, i)
    decreases maxTurns - turn
  {
    var r := Loop(p, chat, reg, invoke, s, turn, maxTurns);
    if turn < maxTurns {
      var sent := p.prepare(s);
      if Continues(p, chat, reg, invoke, turn, sent) {
        var s1 := Next(p, chat, reg, invoke, turn, sent);
        var rest := Loop(p, chat, reg, invoke, s1, turn + 1, maxTurns);
        LoopTail(p, chat, reg, invoke, s, turn, maxTurns);
        LoopChain(p, chat, reg, invoke, s1, turn + 1, maxTurns);
        assert r.sent == [sent] + rest.sent;
        forall i | 0 <= i < |r.sent| - 1
          ensures ChainStep(p, chat, reg, invoke, turn, r.sent, i)
        {
          if i == 0 {
            assert r.sent[0] == sent;
            assert r.sent[1] == rest.sent[0] == p.prepare(s1);
          } else {
            assert ChainStep(p, chat, reg, invoke, turn + 1, rest.sent, i - 1);
            assert r.sent[i] == rest.sent[i - 1];
            assert r.sent[i + 1] == rest.sent[i];
            assert turn + i == (turn + 1) + (i - 1);
          }
        }
      } else {
        LoopStops(p, chat, reg, invoke, s, turn, maxTurns);
      }
    }
  }

  /** Every turn of a run that ran out of turns continued, and there were `max_turns` of them. */
  lemma {:induction false} ExhaustedAllContinue<S, R>(p: Provider<S, R>, chat: Chat<S, R>, reg: map<string, Option<Callable>>,
                                                      invoke: Invoke, s: S, turn: nat, maxTurns: nat)
    requires turn <= maxTurns
    requires Loop(p, chat, reg, invoke, s, turn, maxTurns).exhausted
    ensures var r := Loop(p, chat, reg, invoke, s, turn, maxTurns);
      forall i :: 0 <= i < |r.sent| ==> Continues(p, chat, reg, invoke, turn + i, r.sent[i])
    decreases maxTurns - turn
  {
    var r := Loop(p, chat, reg, invoke, s, turn, maxTurns);
    if turn < maxTurns {
      var sent := p.prepare(s);
      if Continues(p, chat, reg, invoke, turn, sent) {
        var s1 := Next(p, chat, reg, invoke, turn, sent);
        var rest := Loop(p, chat, reg, invoke, s1, turn + 1, maxTurns);
        LoopTail(p, chat, reg, invoke, s, turn, maxTurns);
        ExhaustedAllContinue(p, chat, reg, invoke, s1, turn + 1, maxTurns);
        ContinuesCons(p, chat, reg, invoke, turn, sent, rest.sent);
      } else {
        LoopStops(p, chat, reg, invoke, s, turn, maxTurns);
      }
    }
  }

  /** A call that continued at `turn`, then calls that all continued from `turn + 1` on: all continued from `turn` on. */
  lemma ContinuesCons<S, R>(p: Provider<S, R>, chat: Chat<S, R>, reg: map<string, Option<Callable>>,
                            invoke: Invoke, turn: nat, x: S, rest: seq<S>)
    requires Continues(p, chat, reg, invoke, turn, x)
    requires forall j :: 0 <= j < |rest| ==> Continues(p, chat, reg, invoke, (turn + 1) + j, rest[j])
    ensures forall i :: 0 <= i < |[x] + rest| ==> Continues(p, chat, reg, invoke, turn + i, ([x] + rest)[i])
  {
    forall i | 0 <= i < |[x] + rest|
      ensures Continues(p, chat, reg, invoke, turn + i, ([x] + rest)[i])
    {
      if i > 0 {
        assert ([x] + rest)[i] == rest[i - 1];
        assert turn + i == (turn + 1) + (i - 1);
      }
    }
  }

  /** Calls that all continued from `turn` on: the calls after the first continued from `turn + 1` on. */
  lemma ContinuesShift<S, R>(p: Provider<S, R>, chat: Chat<S, R>, reg: map<string, Option<Callable>>,
                             invoke: Invoke, turn: nat, x: S, rest: seq<S>)
    requires forall i :: 0 <= i < |[x] + rest| ==> Continues(p, chat, reg, invoke, turn + i, ([x] + rest)[i])
    ensures forall j :: 0 <= j < |rest| ==> Continues(p, chat, reg, invoke, (turn + 1) + j, rest[j])
  {
    forall j | 0 <= j < |rest|
      ensures Continues(p, chat, reg, invoke, (turn + 1) + j, rest[j])
    {
      assert ([x] + rest)[j + 1] == rest[j];
      assert turn + (j + 1) == (turn + 1) + j;
    }
  }

  /** A run of `max_turns` model calls that all continued ran out of turns. */
  lemma {:induction false} AllContinueExhausted<S, R>(p: Provider<S, R>, chat: Chat<S, R>, reg: map<string, Option<Callable>>,
                                                      invoke: Invoke, s: S, turn: nat, maxTurns: nat)
    requires turn <= maxTurns
    requires var r := Loop(p, chat, reg, invoke, s, turn, maxTurns);
      && |r.sent| == maxTurns - turn
      && forall i :: 0 <= i < |r.sent| ==> Continues(p, chat, reg, invoke, turn + i, r.sent[i])
    ensures Loop(p, chat, reg, invoke, s, turn, maxTurns).exhausted
    decreases maxTurns - turn
  {
    var r := Loop(p, chat, reg, invoke, s, turn, maxTurns);
    if turn < maxTurns {
      var sent := p.prepare(s);
      assert r.sent[0] == sent;
      assert Continues(p, chat, reg, invoke, turn + 0, r.sent[0]);
      var s1 := Next(p, chat, reg, invoke, turn, sent);
      var rest := Loop(p, chat, reg, invoke, s1, turn + 1, maxTurns);
      LoopTail(p, chat, reg, invoke, s, turn, maxTurns);
      ContinuesShift(p, chat, reg, invoke, turn, sent, rest.sent);
      AllContinueExhausted(p, chat, reg, invoke, s1, turn + 1, maxTurns);
    }
  }

  /**
   * The loop runs out of turns exactly when the model was called `max_turns`
   * times and every one of those turns continued; the tools of the last turn
   * therefore still ran.
   */
  lemma ExhaustedIff<S, R>(p: Provider<S, R>, chat: Chat<S, R>, reg: map<string, Option<Callable>>,
                           invoke: Invoke, s: S, turn: nat, maxTurns: nat)
    requires turn <= maxTurns
    ensures var r := Loop(p, chat, reg, invoke, s, turn, maxTurns);
      r.exhausted <==>
        && |r.sent| == maxTurns - turn
        && forall i :: 0 <= i < |r.sent| ==> Continues(p, chat, reg, invoke, turn + i, r.sent[i])
  {
    var r := Loop(p, chat, reg, invoke, s, turn, maxTurns);
    if r.exhausted {
      ExhaustedAllContinue(p, chat, reg, invoke, s, turn, maxTurns);
    } else if |r.sent| == maxTurns - turn && forall i :: 0 <= i < |r.sent| ==> Continues(p, chat, reg, invoke, turn + i, r.sent[i]) {
      AllContinueExhausted(p, chat, reg, invoke, s, turn, maxTurns);
    }
  }

  /** The first reply without function calls is the answer: one model call, no tool call. */
  lemma FirstTextAnswers<S, R>(p: Provider<S, R>, chat: Chat<S, R>, reg: map<string, Option<Callable>>,
                               invoke: Invoke, s: S, turn: nat, maxTurns: nat)
    requires turn < maxTurns
    requires chat(turn, p.prepare(s)).Ok? && !HasCalls(chat(turn, p.prepare(s)).value)
    ensures var resp := chat(turn, p.prepare(s)).value;
      Loop(p, chat, reg, invoke, s, turn, maxTurns)
        == AgentRun(Ok(TaskOutput(TextValue(resp.text), resp.raw)), [p.prepare(s)], [], false)
  {
  }

  /** A constructed function agent. */
  datatype Agent = Agent(task: Task, maxTurns: nat, declared: Option<seq<Decl>>, registry: map<string, Option<Callable>>)

  const MaxTurnsMsg := "max_turns should be 1 or above"

  /**
   * The function agents' `__init__`: the task name is checked first, then
   * `max_turns`; the declarations and the registry are built from the tools,
   * and an agent keeping only `function` tools reads every declaration's
   * `type` entry, and the name of each `function` tool, on the way.
   */
  function NewAgent(name: string, id: nat, tools: seq<Tool>, maxTurns: int, onlyFunctions: bool, noneWhenEmpty: bool): (r: Outcome<Agent>)
    ensures r.Err? <==> AllSpace(name) || maxTurns <= 0 || RegistryError(tools, onlyFunctions).Some?
    ensures AllSpace(name) ==> r == Err(ValueError(EmptyNameMsg))
    ensures !AllSpace(name) && maxTurns <= 0 ==> r == Err(ValueError(MaxTurnsMsg))
    ensures !AllSpace(name) && maxTurns > 0 && RegistryError(tools, onlyFunctions).Some? ==>
      r == Err(RegistryError(tools, onlyFunctions).value)
    ensures !AllSpace(name) && maxTurns > 0 && onlyFunctions && Untyped(tools) ==> r.Err? && r.error.KeyError?
    ensures r.Ok? ==>
      && r.value.task == Task(name, id) && r.value.maxTurns == maxTurns > 0
      && r.value.registry == Registry(tools, onlyFunctions)
      && r.value.declared == DeclaredTools(tools, noneWhenEmpty)
  {
    var task :- NewTask(name, id);
    if maxTurns <= 0 then Err(ValueError(MaxTurnsMsg))
    else if RegistryError(tools, onlyFunctions).Some? then
      if onlyFunctions && Untyped(tools) then UntypedRaises(tools); Err(RegistryError(tools, onlyFunctions).value)
      else Err(RegistryError(tools, onlyFunctions).value)
    else Ok(Agent(task, maxTurns, DeclaredTools(tools, noneWhenEmpty), Registry(tools, onlyFunctions)))
  }

  /**
   * The agents' `execute`: a non-string input is rejected before any model
   * call; otherwise the loop runs from the provider's first message.
   */
  function Execute<S, R>(agent: Agent, p: Provider<S, R>, seed: string -> S, chat: Chat<S, R>, invoke: Invoke,
                         input: TaskInput): (r: AgentRun<S, R>)
    ensures !input.content.Str? ==> r == AgentRun(Err(ValueError(InputNotStrMsg)), [], [], false)
    ensures |r.sent| <= agent.maxTurns
    ensures input.content.Str? && agent.maxTurns > 0 ==> |r.sent| > 0 && r.sent[0] == p.prepare(seed(input.content.s))
    ensures r.exhausted ==> r.outcome == Err(MaxTurnsReached) && |r.sent| == agent.maxTurns
  {
    if !input.content.Str? then AgentRun(Err(ValueError(InputNotStrMsg)), [], [], false)
    else Loop(p, chat, agent.registry, invoke, seed(input.content.s), 0, agent.maxTurns)
  }

  /** On a string input, every model call but the last continued, and each sends the previous conversation extended and prepared again. */
  lemma ExecuteChain<S, R>(agent: Agent, p: Provider<S, R>, seed: string -> S, chat: Chat<S, R>, invoke: Invoke, x: string)
    ensures var r := Execute(agent, p, seed, chat, invoke, TaskInput(Str(x)));
      forall i :: 0 <= i < |r.sent| - 1 ==> ChainStep(p, chat, agent.registry, invoke, 0, r.sent, i)
  {
    LoopChain(p, chat, agent.registry, invoke, seed(x), 0, agent.maxTurns);
    assert Execute(agent, p, seed, chat, invoke, TaskInput(Str(x))) == Loop(p, chat, agent.registry, invoke, seed(x), 0, agent.maxTurns);
  }

  /** On a string input, each model call after the first sends the conversation of the call before it, extended and prepared again. */
  lemma ExecuteStep<S, R>(agent: Agent, p: Provider<S, R>, seed: string -> S, chat: Chat<S, R>, invoke: Invoke, x: string, i: nat)
    requires 0 < i < |Execute(agent, p, seed, chat, invoke, TaskInput(Str(x))).sent|
    ensures var sent := Execute(agent, p, seed, chat, invoke, TaskInput(Str(x))).sent;
      && Continues(p, chat, agent.registry, invoke, i - 1, sent[i - 1])
      && sent[i] == p.prepare(Next(p, chat, agent.registry, invoke, i - 1, sent[i - 1]))
  {
    ExecuteChain(agent, p, seed, chat, invoke, x);
    assert ChainStep(p, chat, agent.registry, invoke, 0, Execute(agent, p, seed, chat, invoke, TaskInput(Str(x))).sent, i - 1);
  }
}

=== FILE: agents.dfy ===
/**
 * The Gemini, Groq and Cohere function agents: each is the shared loop of
 * `AgentLoop` with the provider's own conversation shape.
 *
 * - Gemini keeps a message list; every completed call adds a `function_call`
 *   message and a `function_response` message.
 * - Groq keeps a chat-completion message list; a turn adds one assistant
 *   message carrying all of its tool calls, then one tool message per
 *   completed call. Its chat appends the system prompt to the list it is given.
 * - Cohere resends the user's message every turn with the accumulated tool
 *   results and the chat history of the previous reply.
 */
module Agents {
  import opened Wrappers
  import opened PyValue
  import opened Models
  import opened Tools
  import opened Payload
  import opened AgentLoop

  /* ---------------------------------------------------------------- Gemini */

  /** The messages one turn adds: a call message and a response message per completed call, in order. */
  function GeminiTurn(done: seq<Done>): (r: seq<GeminiMsg>)
    ensures |r| == 2 * |done|
    ensures forall i :: 0 <= i < |done| ==>
      && r[2 * i] == FunctionCallMsg(done[i].0, done[i].1.args)
      && r[2 * i + 1] == FunctionResponseMsg(done[i].0, done[i].2)
    decreases |done|
  {
    if |done| == 0 then []
    else
      var rest := GeminiTurn(done[1..]);
      var r := [FunctionCallMsg(done[0].0, done[0].1.args), FunctionResponseMsg(done[0].0, done[0].2)] + rest;
      forall i | 1 <= i < |done|
        ensures r[2 * i] == FunctionCallMsg(done[i].0, done[i].1.args)
        ensures r[2 * i + 1] == FunctionResponseMsg(done[i].0, done[i].2)
      {
        assert done[i] == done[1..][i - 1];
        assert r[2 * i] == rest[2 * (i - 1)];
        assert r[2 * i + 1] == rest[2 * (i - 1) + 1];
      }
      r
  }

  function GeminiSeed(input: string): seq<GeminiMsg> {
    [GeminiUser([input])]
  }

  /** Gemini sends the list as it is and looks calls up by their key in `function_calls`. */
  function GeminiProvider<R>(): Provider<seq<GeminiMsg>, R> {
    Provider(s => s, (s, raw, done) => s + GeminiTurn(done), true)
  }

  /** `GeminiFunctionAgent.__init__`: every tool is registered; no tools means `tools=None`. */
  function NewGeminiAgent(name: string, id: nat, tools: seq<Tool>, maxTurns: int): Outcome<Agent> {
    NewAgent(name, id, tools, maxTurns, false, true)
  }

  function GeminiExecute<R>(agent: Agent, chat: Chat<seq<GeminiMsg>, R>, invoke: Invoke, input: TaskInput): AgentRun<seq<GeminiMsg>, R> {
    Execute(agent, GeminiProvider(), GeminiSeed, chat, invoke, input)
  }

  /**
   * The Gemini conversation starts with the user's text alone, and each
   * model call sees the previous conversation plus two messages per call the
   * previous turn completed.
   */
  lemma GeminiConversation<R>(agent: Agent, chat: Chat<seq<GeminiMsg>, R>, invoke: Invoke, x: string)
    ensures var r := GeminiExecute(agent, chat, invoke, TaskInput(Str(x)));
      && (agent.maxTurns > 0 ==> r.sent[0] == [GeminiUser([x])])
      && forall i :: 0 <= i < |r.sent| - 1 ==>
        && Continues(GeminiProvider(), chat, agent.registry, invoke, i, r.sent[i])
        && var d := TurnDone(GeminiProvider(), chat, agent.registry, invoke, i, r.sent[i]);
        && r.sent[i + 1] == r.sent[i] + GeminiTurn(d)
        && |r.sent[i + 1]| == |r.sent[i]| + 2 * |TurnCalls(GeminiProvider(), chat, agent.registry, invoke, i, r.sent[i])|
  {
    var p := GeminiProvider<R>();
    var r := GeminiExecute(agent, chat, invoke, TaskInput(Str(x)));
    ExecuteChain(agent, p, GeminiSeed, chat, invoke, x);
    forall i | 0 <= i < |r.sent| - 1
      ensures Continues(p, chat, agent.registry, invoke, i, r.sent[i])
      ensures r.sent[i + 1] == r.sent[i] + GeminiTurn(TurnDone(p, chat, agent.registry, invoke, i, r.sent[i]))
    {
      assert ChainStep(p, chat, agent.registry, invoke, 0, r.sent, i);
    }
  }

  /* ------------------------------------------------------------------ Groq */

  /** The assistant message of a turn: one `tool_calls` entry per completed call, keyed by call id. */
  function GroqCallsMsg(done: seq<Done>): (m: Message)
    ensures m.AssistantCalls? && |m.calls| == |done|
    ensures forall i :: 0 <= i < |done| ==> m.calls[i] == ToolCallEntry(done[i].0, done[i].1.name, done[i].1.args)
  {
    AssistantCalls(seq(|done|, i requires 0 <= i < |done| => ToolCallEntry(done[i].0, done[i].1.name, done[i].1.args)))
  }

  /** The tool messages of a turn: the callable's return value rendered with `str()`. */
  function GroqToolMsgs(done: seq<Done>): (r: seq<Message>)
    ensures |r| == |done|
    ensures forall i :: 0 <= i < |done| ==> r[i] == ToolMsg(done[i].0, done[i].1.name, PyStr(done[i].2))
  {
    seq(|done|, i requires 0 <= i < |done| => ToolMsg(done[i].0, done[i].1.name, PyStr(done[i].2)))
  }

  function GroqTurn(done: seq<Done>): seq<Message> {
    [GroqCallsMsg(done)] + GroqToolMsgs(done)
  }

  function GroqSeed(input: string): seq<Message> {
    [UserMsg(input)]
  }

  /** Groq's chat appends the system prompt to the payload; calls are looked up by their `name`. */
  function GroqProvider<R>(systemPrompt: Option<string>): Provider<seq<Message>, R> {
    Provider(s => WithSystemPrompt(s, systemPrompt), (s, raw, done) => s + GroqTurn(done), false)
  }

  /** `GroqFunctionAgent.__init__`: only `function` tools are registered; no tools means `tools=None`. */
  function NewGroqAgent(name: string, id: nat, tools: seq<Tool>, maxTurns: int): Outcome<Agent> {
    NewAgent(name, id, tools, maxTurns, true, true)
  }

  function GroqExecute<R>(agent: Agent, systemPrompt: Option<string>, chat: Chat<seq<Message>, R>, invoke: Invoke,
                          input: TaskInput): AgentRun<seq<Message>, R> {
    Execute(agent, GroqProvider(systemPrompt), GroqSeed, chat, invoke, input)
  }

  /** A payload that holds a system message still holds one after more messages are appended. */
  lemma HasSystemAppend(a: seq<Message>, b: seq<Message>)
    requires HasSystem(a)
    ensures HasSystem(a + b)
  {
    var i :| 0 <= i < |a| && a[i].SystemMsg?;
    assert (a + b)[i] == a[i];
  }

  /** The first Groq request: the user's message, then the stripped system prompt if it is non-empty. */
  lemma GroqFirstRequest<R>(agent: Agent, systemPrompt: Option<string>, chat: Chat<seq<Message>, R>, invoke: Invoke, x: string)
    requires agent.maxTurns > 0
    ensures GroqExecute(agent, systemPrompt, chat, invoke, TaskInput(Str(x))).sent[0]
      == [UserMsg(x)] + (if |SystemPrompt(systemPrompt)| > 0 then [SystemMsg(SystemPrompt(systemPrompt))] else [])
  {
    var r := GroqExecute(agent, systemPrompt, chat, invoke, TaskInput(Str(x)));
    assert r.sent[0] == WithSystemPrompt([UserMsg(x)], systemPrompt);
    assert !HasSystem([UserMsg(x)]);
  }

  /** A Groq request after the first is prepared again, so a non-empty system prompt is present in it. */
  lemma GroqLaterHasSystem<R>(agent: Agent, systemPrompt: Option<string>, chat: Chat<seq<Message>, R>, invoke: Invoke,
                              x: string, i: nat)
    requires 0 < i < |GroqExecute(agent, systemPrompt, chat, invoke, TaskInput(Str(x))).sent|
    requires |SystemPrompt(systemPrompt)| > 0
    ensures HasSystem(GroqExecute(agent, systemPrompt, chat, invoke, TaskInput(Str(x))).sent[i])
  {
    var p := GroqProvider<R>(systemPrompt);
    ExecuteStep(agent, p, GroqSeed, chat, invoke, x, i);
  }

  /** With a non-empty system prompt, every Groq request holds a system message. */
  lemma GroqRequestHasSystem<R>(agent: Agent, systemPrompt: Option<string>, chat: Chat<seq<Message>, R>, invoke: Invoke,
                                x: string, i: nat)
    requires i < |GroqExecute(agent, systemPrompt, chat, invoke, TaskInput(Str(x))).sent|
    requires |SystemPrompt(systemPrompt)| > 0
    ensures HasSystem(GroqExecute(agent, systemPrompt, chat, invoke, TaskInput(Str(x))).sent[i])
  {
    if i > 0 {
      GroqLaterHasSystem(agent, systemPrompt, chat, invoke, x, i);
    } else {
      assert GroqExecute(agent, systemPrompt, chat, invoke, TaskInput(Str(x))).sent[0] == WithSystemPrompt(GroqSeed(x), systemPrompt);
    }
  }

  /**
   * The first Groq request is the user's message, followed by the system
   * prompt when there is one; each later request is the previous one plus an
   * assistant message and one tool message per completed call, with no second
   * system prompt.
   */
  lemma GroqConversation<R>(agent: Agent, systemPrompt: Option<string>, chat: Chat<seq<Message>, R>, invoke: Invoke, x: string)
    ensures var r := GroqExecute(agent, systemPrompt, chat, invoke, TaskInput(Str(x)));
      && (agent.maxTurns > 0 ==>
            r.sent[0] == [UserMsg(x)] + (if |SystemPrompt(systemPrompt)| > 0 then [SystemMsg(SystemPrompt(systemPrompt))] else []))
      && forall i :: 0 <= i < |r.sent| - 1 ==>
        && Continues(GroqProvider(systemPrompt), chat, agent.registry, invoke, i, r.sent[i])
        && var d := TurnDone(GroqProvider(systemPrompt), chat, agent.registry, invoke, i, r.sent[i]);
        && r.sent[i + 1] == r.sent[i] + GroqTurn(d)
        && |r.sent[i + 1]| == |r.sent[i]| + 1 + |TurnCalls(GroqProvider(systemPrompt), chat, agent.registry, invoke, i, r.sent[i])|
  {
    var p := GroqProvider<R>(systemPrompt);
    var r := GroqExecute(agent, systemPrompt, chat, invoke, TaskInput(Str(x)));
    if agent.maxTurns > 0 {
      GroqFirstRequest(agent, systemPrompt, chat, invoke, x);
    }
    ExecuteChain(agent, p, GroqSeed, chat, invoke, x);
    forall i | 0 <= i < |r.sent| - 1
      ensures Continues(p, chat, agent.registry, invoke, i, r.sent[i])
      ensures r.sent[i + 1] == r.sent[i] + GroqTurn(TurnDone(p, chat, agent.registry, invoke, i, r.sent[i]))
    {
      assert ChainStep(p, chat, agent.registry, invoke, 0, r.sent, i);
      var z := r.sent[i] + GroqTurn(TurnDone(p, chat, agent.registry, invoke, i, r.sent[i]));
      assert r.sent[i + 1] == WithSystemPrompt(z, systemPrompt);
      if |SystemPrompt(systemPrompt)| > 0 {
        GroqRequestHasSystem(agent, systemPrompt, chat, invoke, x, i);
        HasSystemAppend(r.sent[i], GroqTurn(TurnDone(p, chat, agent.registry, invoke, i, r.sent[i])));
      }
    }
  }

  /* ---------------------------------------------------------------- Cohere */

  /** One `tool_results` item: the call (name and parameters) and its single output's `answer`. */
  datatype ToolResult = ToolResult(name: string, parameters: Args, answer: Value)

  /** What Cohere's chat is given each turn: the user's message, the tool results so far and the last chat history. */
  datatype CohereConv = CohereConv(message: string, results: seq<ToolResult>, history: seq<Value>)

  /** The tool results one turn adds, in call order. */
  function CohereTurn(done: seq<Done>): (r: seq<ToolResult>)
    ensures |r| == |done|
    ensures forall i :: 0 <= i < |done| ==> r[i] == ToolResult(done[i].0, done[i].1.args, done[i].2)
  {
    seq(|done|, i requires 0 <= i < |done| => ToolResult(done[i].0, done[i].1.args, done[i].2))
  }

  /** `func_results or None`. */
  function ToolResultsArg(c: CohereConv): (a: Option<seq<ToolResult>>)
    ensures a.None? <==> |c.results| == 0
    ensures a.Some? ==> a.value == c.results
  {
    if |c.results| == 0 then None else Some(c.results)
  }

  /** `chat_hist or None`. */
  function HistoryArg(c: CohereConv): (a: Option<seq<Value>>)
    ensures a.None? <==> |c.history| == 0
    ensures a.Some? ==> a.value == c.history
  {
    if |c.history| == 0 then None else Some(c.history)
  }

  function CohereSeed(input: string): CohereConv {
    CohereConv(input, [], [])
  }

  /**
   * Cohere sends its state as it is, keeps the reply's chat history
   * (`historyOf` reads it from the raw reply) and looks calls up by their key.
   */
  function CohereProvider<R>(historyOf: R -> seq<Value>): Provider<CohereConv, R> {
    Provider(s => s, (s: CohereConv, raw, done) => CohereConv(s.message, s.results + CohereTurn(done), historyOf(raw)), true)
  }

  /** `CohereFunctionAgent.__init__`: every tool is registered and the tool list is always passed. */
  function NewCohereAgent(name: string, id: nat, tools: seq<Tool>, maxTurns: int): Outcome<Agent> {
    NewAgent(name, id, tools, maxTurns, false, false)
  }

  function CohereExecute<R>(agent: Agent, historyOf: R -> seq<Value>, chat: Chat<CohereConv, R>, invoke: Invoke,
                            input: TaskInput): AgentRun<CohereConv, R> {
    Execute(agent, CohereProvider(historyOf), CohereSeed, chat, invoke, input)
  }

  /**
   * Every Cohere call carries the user's message unchanged; the first has no
   * tool results and no history, and each later one has the previous results
   * plus the last turn's, and the history of the last reply.
   */
  lemma CohereConversation<R>(agent: Agent, historyOf: R -> seq<Value>, chat: Chat<CohereConv, R>, invoke: Invoke, x: string)
    ensures var r := CohereExecute(agent, historyOf, chat, invoke, TaskInput(Str(x)));
      && (agent.maxTurns > 0 ==> ToolResultsArg(r.sent[0]).None? && HistoryArg(r.sent[0]).None?)
      && (forall i :: 0 <= i < |r.sent| ==> r.sent[i].message == x)
      && forall i :: 0 <= i < |r.sent| - 1 ==>
        && Continues(CohereProvider(historyOf), chat, agent.registry, invoke, i, r.sent[i])
        && var d := TurnDone(CohereProvider(historyOf), chat, agent.registry, invoke, i, r.sent[i]);
        && r.sent[i + 1].results == r.sent[i].results + CohereTurn(d)
        && r.sent[i + 1].history == historyOf(chat(i, r.sent[i]).value.raw)
  {
    var p := CohereProvider<R>(historyOf);
    var r := CohereExecute(agent, historyOf, chat, invoke, TaskInput(Str(x)));
    ExecuteChain(agent, p, CohereSeed, chat, invoke, x);
    forall i | 0 <= i < |r.sent|
      ensures r.sent[i].message == x
    {
      CohereMessageKept(agent, historyOf, chat, invoke, x, i);
    }
    forall i | 0 <= i < |r.sent| - 1
      ensures Continues(p, chat, agent.registry, invoke, i, r.sent[i])
      ensures r.sent[i + 1].results == r.sent[i].results + CohereTurn(TurnDone(p, chat, agent.registry, invoke, i, r.sent[i]))
      ensures r.sent[i + 1].history == historyOf(chat(i, r.sent[i]).value.raw)
    {
      assert ChainStep(p, chat, agent.registry, invoke, 0, r.sent, i);
    }
  }

  lemma {:induction false} CohereMessageKept<R>(agent: Agent, historyOf: R -> seq<Value>, chat: Chat<CohereConv, R>,
                                                invoke: Invoke, x: string, i: nat)
    requires i < |CohereExecute(agent, historyOf, chat, invoke, TaskInput(Str(x))).sent|
    ensures CohereExecute(agent, historyOf, chat, invoke, TaskInput(Str(x))).sent[i].message == x
  {
    var p := CohereProvider<R>(historyOf);
    var r := CohereExecute(agent, historyOf, chat, invoke, TaskInput(Str(x)));
    if i > 0 {
      ExecuteChain(agent, p, CohereSeed, chat, invoke, x);
      CohereMessageKept(agent, historyOf, chat, invoke, x, i - 1);
      assert ChainStep(p, chat, agent.registry, invoke, 0, r.sent, i - 1);
    }
  }
}

=== FILE: assistant.dfy ===
/**
 * The OpenAI function agent, built on the Assistants API: the agent posts the
 * user's message to a new thread, starts a run and then, for up to
 * `max_turns` turns, reacts to the run's status. A completed run yields the
 * latest message's first text part; a run that requires action gets every
 * requested tool called and the outputs submitted, which yields the next run;
 * any other status is a failure.
 *
 * The API is an oracle, and every call to it may raise: `start` is the
 * thread creation, the first message and `create_and_poll` together, `submit`
 * is `submit_tool_outputs_and_poll`, and `latest` is the `messages.list` call
 * made at the top of every turn, giving the content of the newest thread
 * message of a run (`None` when the thread has no message for it).
 */
module Assistant {
  import opened Wrappers
  import opened PyValue
  import opened Models
  import opened Tasks
  import opened Tools
  import opened AgentLoop

  datatype LastError = LastError(code: string)

  /** A polled run: its status, its `last_error`, and the tool calls of its `required_action`. */
  datatype Run = Run(status: string, lastError: Option<LastError>, toolCalls: seq<RequestedCall>)

  /** A part of a thread message. */
  datatype Content = TextContent(value: string) | OtherContent

  /** One entry of `tool_outputs`. */
  datatype ToolOutput = ToolOutput(callId: string, output: string)

  type Start = string -> Outcome<Run>
  type Submit = (Run, seq<ToolOutput>) -> Outcome<Run>
  type Latest = Run -> Outcome<Option<seq<Content>>>

  const Completed := "completed"
  const RequiresAction := "requires_action"
  const NoMessageMsg := "list index out of range"

  /** `next((c.text.value for c in content if c.type == "text"), None)`. */
  function FirstText(contents: seq<Content>): (t: Option<string>)
    ensures t.Some? <==> exists i :: 0 <= i < |contents| && contents[i].TextContent?
    ensures t.Some? ==> exists i :: 0 <= i < |contents| && contents[i] == TextContent(t.value)
                                      && forall j :: 0 <= j < i ==> !contents[j].TextContent?
    decreases |contents|
  {
    if |contents| == 0 then None
    else if contents[0].TextContent? then Some(contents[0].value)
    else
      var t := FirstText(contents[1..]);
      assert forall i :: 1 <= i < |contents| ==> contents[i] == contents[1..][i - 1];
      t
  }

  /** The requested calls as dict-like items keyed by call id, with empty arguments read as `{}`. */
  function AsItems(calls: seq<RequestedCall>): (items: CallItems)
    ensures |items| == |calls|
    ensures forall i :: 0 <= i < |calls| ==>
      items[i] == (calls[i].id, FunctionCall(Some(calls[i].id), Some(calls[i].name), ArgsOf(calls[i])))
  {
    seq(|calls|, i requires 0 <= i < |calls| =>
      (calls[i].id, FunctionCall(Some(calls[i].id), Some(calls[i].name), ArgsOf(calls[i]))))
  }

  /** `{"tool_call_id": tool.id, "output": str(func_output)}` for each completed call. */
  function Outputs(done: seq<Done>): (outs: seq<ToolOutput>)
    ensures |outs| == |done|
    ensures forall i :: 0 <= i < |done| ==> outs[i] == ToolOutput(done[i].0, PyStr(done[i].2))
  {
    seq(|done|, i requires 0 <= i < |done| => ToolOutput(done[i].0, PyStr(done[i].2)))
  }

  /**
   * The tool outputs of a run that requires action: every call in order,
   * looked up by function name; the first exception propagates.
   */
  function CallAll(calls: seq<RequestedCall>, reg: map<string, Option<Callable>>, invoke: Invoke): (r: Outcome<seq<ToolOutput>>)
    ensures r.Ok? ==> |r.value| == |calls|
    ensures r.Ok? ==> forall i :: 0 <= i < |calls| ==>
      && r.value[i].callId == calls[i].id
      && CallTool(reg, Some(calls[i].name), ArgsOf(calls[i]), invoke).Ok?
      && r.value[i].output == PyStr(CallTool(reg, Some(calls[i].name), ArgsOf(calls[i]), invoke).value)
    ensures r.Err? ==>
      (exists k :: 0 <= k < |calls| && CallTool(reg, Some(calls[k].name), ArgsOf(calls[k]), invoke) == Err(r.error))
  {
    var items := AsItems(calls);
    var d := Dispatch(items, false, reg, invoke);
    if d.raised.Some? then
      var k := |d.done|;
      assert CallTool(reg, Some(calls[k].name), ArgsOf(calls[k]), invoke) == Err(d.raised.value);
      Err(d.raised.value)
    else Ok(Outputs(d.done))
  }

  /** The reason code of a failed run (`__failure_reason`, given the run as its signature says). */
  function FailureReason(run: Run): (reason: string)
    ensures run.status == "cancelled" <==> reason == "OPENAI__RUN_CANCELLED"
    ensures run.status == "expired" <==> reason == "OPENAI__RUN_EXPIRED"
    ensures reason in {"INVALID_PROMPT", "RATE_LIMIT_EXCEEDED", "SERVER_ERROR", "OPENAI__RUN_FAILED"} <==> run.status == "failed"
    ensures run.status == "failed" && run.lastError.Some? && run.lastError.value.code == "invalid_prompt" <==> reason == "INVALID_PROMPT"
    ensures run.status == "failed" && run.lastError.Some? && run.lastError.value.code == "rate_limit_exceeded" <==> reason == "RATE_LIMIT_EXCEEDED"
    ensures run.status == "failed" && run.lastError.Some? && run.lastError.value.code == "server_error" <==> reason == "SERVER_ERROR"
    ensures run.status !in {"cancelled", "failed", "expired"} <==> reason == "OPENAI__UNKNOWN_ERR"
  {
    if run.status == "cancelled" then "OPENAI__RUN_CANCELLED"
    else if run.status == "failed" then
      if run.lastError.None? then "OPENAI__RUN_FAILED"
      else if run.lastError.value.code == "invalid_prompt" then "INVALID_PROMPT"
      else if run.lastError.value.code == "rate_limit_exceeded" then "RATE_LIMIT_EXCEEDED"
      else if run.lastError.value.code == "server_error" then "SERVER_ERROR"
      else "OPENAI__RUN_FAILED"
    else if run.status == "expired" then "OPENAI__RUN_EXPIRED"
    else "OPENAI__UNKNOWN_ERR"
  }

  /** The exception a run with a status other than completed or requires_action ends in. */
  function FailedRun(run: Run): (e: Error)
    ensures e.TextGenFailed? && e.msg == TextGenFailedMsg && e.reason == FailureReason(run)
  {
    TextGenFailed(TextGenFailedMsg, FailureReason(run))
  }

  /**
   * As written, the failure branch hands `run.status` (a string) to
   * `__failure_reason`, whose first step reads `.status` of it: every failed,
   * cancelled or expired run ends in an `AttributeError`.
   */
  function FailedRunAsWritten(status: string): (e: Error)
    ensures e.AttributeError?
  {
    AttributeError("'str' object has no attribute 'status'")
  }

  /** The as-written failure branch never raises the intended `TextGenFailedError`, whatever the run. */
  lemma FailedRunAsWrittenLosesReason(run: Run)
    ensures FailedRunAsWritten(run.status) != FailedRun(run)
  {
  }

  /** A cancelled run: the intended reason code is `OPENAI__RUN_CANCELLED`, the code as written raises instead. */
  lemma CancelledRunExample()
    ensures FailedRun(Run("cancelled", None, [])) == TextGenFailed(TextGenFailedMsg, "OPENAI__RUN_CANCELLED")
    ensures FailedRunAsWritten("cancelled").AttributeError?
  {
  }

  /**
   * The outcome of an assistant run, the runs observed at each turn, and the
   * tool outputs whose submission returned the next run.
   */
  datatype AssistantRun = AssistantRun(outcome: Outcome<TaskOutput<Run>>, observed: seq<Run>,
                                       submitted: seq<seq<ToolOutput>>, exhausted: bool)

  /**
   * The agent loop from turn `turn` on, with `run` the current run: the
   * messages are listed first, then the run's status decides.
   */
  function Loop(reg: map<string, Option<Callable>>, invoke: Invoke, submit: Submit, latest: Latest,
                run: Run, turn: nat, maxTurns: nat): (r: AssistantRun)
    requires turn <= maxTurns
    ensures |r.observed| == |r.submitted| + (if r.exhausted then 0 else 1) <= maxTurns - turn
    ensures r.exhausted ==> r.outcome == Err(MaxTurnsReached) && |r.observed| == maxTurns - turn
    ensures turn < maxTurns ==> |r.observed| > 0 && r.observed[0] == run
    decreases maxTurns - turn
  {
    if turn == maxTurns then AssistantRun(Err(MaxTurnsReached), [], [], true)
    else match latest(run)
      case Err(e) => AssistantRun(Err(e), [run], [], false)
      case Ok(message) =>
        if run.status == Completed then
          match message
          case None => AssistantRun(Err(IndexError(NoMessageMsg)), [run], [], false)
          case Some(contents) => AssistantRun(Ok(TaskOutput(TextValue(FirstText(contents)), run)), [run], [], false)
        else if run.status == RequiresAction then
          match CallAll(run.toolCalls, reg, invoke)
          case Err(e) => AssistantRun(Err(e), [run], [], false)
          case Ok(outs) =>
            match submit(run, outs)
            case Err(e) => AssistantRun(Err(e), [run], [], false)
            case Ok(next) =>
              var rest := Loop(reg, invoke, submit, latest, next, turn + 1, maxTurns);
              AssistantRun(rest.outcome, [run] + rest.observed, [outs] + rest.submitted, rest.exhausted)
        else AssistantRun(Err(FailedRun(run)), [run], [], false)
  }

  /**
   * A run proceeds to the next turn: the messages were listed, it requires
   * action, all of its tools returned and the submission returned a run.
   */
  predicate Proceeds(reg: map<string, Option<Callable>>, invoke: Invoke, submit: Submit, latest: Latest, run: Run) {
    && latest(run).Ok?
    && run.status == RequiresAction
    && CallAll(run.toolCalls, reg, invoke).Ok?
    && submit(run, CallAll(run.toolCalls, reg, invoke).value).Ok?
  }

  /** The run the submission of a proceeding run returned. */
  function NextRun(reg: map<string, Option<Callable>>, invoke: Invoke, submit: Submit, latest: Latest, run: Run): Run
    requires Proceeds(reg, invoke, submit, latest, run)
  {
    submit(run, CallAll(run.toolCalls, reg, invoke).value).value
  }

  /** A turn that proceeds: its outputs are submitted and the loop goes on from the returned run. */
  lemma LoopProceeds(reg: map<string, Option<Callable>>, invoke: Invoke, submit: Submit, latest: Latest,
                     run: Run, turn: nat, maxTurns: nat)
    requires turn < maxTurns && Proceeds(reg, invoke, submit, latest, run)
    ensures var outs := CallAll(run.toolCalls, reg, invoke).value;
      var rest := Loop(reg, invoke, submit, latest, NextRun(reg, invoke, submit, latest, run), turn + 1, maxTurns);
      Loop(reg, invoke, submit, latest, run, turn, maxTurns)
        == AssistantRun(rest.outcome, [run] + rest.observed, [outs] + rest.submitted, rest.exhausted)
  {
  }

  /** A turn that does not proceed is the last one, and the turns did not run out. */
  lemma LoopStops(reg: map<string, Option<Callable>>, invoke: Invoke, submit: Submit, latest: Latest,
                  run: Run, turn: nat, maxTurns: nat)
    requires turn < maxTurns && !Proceeds(reg, invoke, submit, latest, run)
    ensures var r := Loop(reg, invoke, submit, latest, run, turn, maxTurns);
      r.observed == [run] && r.submitted == [] && !r.exhausted
  {
  }

  /** Submission `i` came from observed run `i`, which proceeded, and run `i + 1`, if any, is what it returned. */
  ghost predicate SubmissionsHold(reg: map<string, Option<Callable>>, invoke: Invoke, submit: Submit, latest: Latest,
                                  observed: seq<Run>, submitted: seq<seq<ToolOutput>>)
  {
    && |submitted| <= |observed|
    && forall i :: 0 <= i < |submitted| ==>
      && Proceeds(reg, invoke, submit, latest, observed[i])
      && submitted[i] == CallAll(observed[i].toolCalls, reg, invoke).value
      && (i + 1 < |observed| ==> observed[i + 1] == submit(observed[i], submitted[i]).value)
  }

  /** A run that proceeded, followed by the runs its submission led to, keeps the submissions consistent. */
  lemma SubmissionsCons(reg: map<string, Option<Callable>>, invoke: Invoke, submit: Submit, latest: Latest, x: Run,
                        observed: seq<Run>, submitted: seq<seq<ToolOutput>>)
    requires Proceeds(reg, invoke, submit, latest, x)
    requires |observed| > 0 ==> observed[0] == NextRun(reg, invoke, submit, latest, x)
    requires SubmissionsHold(reg, invoke, submit, latest, observed, submitted)
    ensures SubmissionsHold(reg, invoke, submit, latest, [x] + observed, [CallAll(x.toolCalls, reg, invoke).value] + submitted)
  {
    var obs := [x] + observed;
    var subs := [CallAll(x.toolCalls, reg, invoke).value] + submitted;
    forall i | 0 <= i < |subs|
      ensures Proceeds(reg, invoke, submit, latest, obs[i])
      ensures subs[i] == CallAll(obs[i].toolCalls, reg, invoke).value
      ensures i + 1 < |obs| ==> obs[i + 1] == submit(obs[i], subs[i]).value
    {
      if i > 0 {
        assert obs[i] == observed[i - 1] && subs[i] == submitted[i - 1];
        if i + 1 < |obs| {
          assert obs[i + 1] == observed[i];
        }
      } else if 1 < |obs| {
        assert obs[1] == observed[0];
      }
    }
  }

  /**
   * Every submission came from a run that required action and whose tools
   * all returned, it holds exactly those tools' outputs, and the next
   * observed run is what the submission returned.
   */
  lemma {:induction false} LoopSubmissions(reg: map<string, Option<Callable>>, invoke: Invoke, submit: Submit, latest: Latest,
                                           run: Run, turn: nat, maxTurns: nat)
    requires turn <= maxTurns
    ensures var r := Loop(reg, invoke, submit, latest, run, turn, maxTurns);
      SubmissionsHold(reg, invoke, submit, latest, r.observed, r.submitted)
    decreases maxTurns - turn
  {
    var r := Loop(reg, invoke, submit, latest, run, turn, maxTurns);
    if turn < maxTurns {
      if Proceeds(reg, invoke, submit, latest, run) {
        var next := NextRun(reg, invoke, submit, latest, run);
        var rest := Loop(reg, invoke, submit, latest, next, turn + 1, maxTurns);
        LoopProceeds(reg, invoke, submit, latest, run, turn, maxTurns);
        LoopSubmissions(reg, invoke, submit, latest, next, turn + 1, maxTurns);
        SubmissionsCons(reg, invoke, submit, latest, run, rest.observed, rest.submitted);
      } else {
        LoopStops(reg, invoke, submit, latest, run, turn, maxTurns);
      }
    }
  }

  /** Runs that all proceeded, the first dropped: the others all proceeded. */
  lemma ProceedsShift(reg: map<string, Option<Callable>>, invoke: Invoke, submit: Submit, latest: Latest, x: Run, rest: seq<Run>)
    requires forall i :: 0 <= i < |[x] + rest| ==> Proceeds(reg, invoke, submit, latest, ([x] + rest)[i])
    ensures forall j :: 0 <= j < |rest| ==> Proceeds(reg, invoke, submit, latest, rest[j])
  {
    forall j | 0 <= j < |rest| ensures Proceeds(reg, invoke, submit, latest, rest[j]) {
      assert ([x] + rest)[j + 1] == rest[j];
    }
  }

  /** A run that proceeded, then runs that all proceeded: all proceeded. */
  lemma ProceedsCons(reg: map<string, Option<Callable>>, invoke: Invoke, submit: Submit, latest: Latest, x: Run, rest: seq<Run>)
    requires Proceeds(reg, invoke, submit, latest, x)
    requires forall j :: 0 <= j < |rest| ==> Proceeds(reg, invoke, submit, latest, rest[j])
    ensures forall i :: 0 <= i < |[x] + rest| ==> Proceeds(reg, invoke, submit, latest, ([x] + rest)[i])
  {
    forall i | 0 <= i < |[x] + rest| ensures Proceeds(reg, invoke, submit, latest, ([x] + rest)[i]) {
      if i > 0 {
        assert ([x] + rest)[i] == rest[i - 1];
      }
    }
  }

  /** The agent ran out of turns only after `max_turns` runs that all proceeded. */
  lemma {:induction false} ExhaustedAllProceed(reg: map<string, Option<Callable>>, invoke: Invoke, submit: Submit, latest: Latest,
                                               run: Run, turn: nat, maxTurns: nat)
    requires turn <= maxTurns
    requires Loop(reg, invoke, submit, latest, run, turn, maxTurns).exhausted
    ensures var r := Loop(reg, invoke, submit, latest, run, turn, maxTurns);
      |r.observed| == maxTurns - turn && forall i :: 0 <= i < |r.observed| ==> Proceeds(reg, invoke, submit, latest, r.observed[i])
    decreases maxTurns - turn
  {
    var r := Loop(reg, invoke, submit, latest, run, turn, maxTurns);
    if turn < maxTurns {
      if Proceeds(reg, invoke, submit, latest, run) {
        var next := NextRun(reg, invoke, submit, latest, run);
        var rest := Loop(reg, invoke, submit, latest, next, turn + 1, maxTurns);
        LoopProceeds(reg, invoke, submit, latest, run, turn, maxTurns);
        ExhaustedAllProceed(reg, invoke, submit, latest, next, turn + 1, maxTurns);
        ProceedsCons(reg, invoke, submit, latest, run, rest.observed);
      } else {
        LoopStops(reg, invoke, submit, latest, run, turn, maxTurns);
      }
    }
  }

  /** `max_turns` runs that all proceeded leave the agent out of turns. */
  lemma {:induction false} AllProceedExhausted(reg: map<string, Option<Callable>>, invoke: Invoke, submit: Submit, latest: Latest,
                                               run: Run, turn: nat, maxTurns: nat)
    requires turn <= maxTurns
    requires var r := Loop(reg, invoke, submit, latest, run, turn, maxTurns);
      |r.observed| == maxTurns - turn && forall i :: 0 <= i < |r.observed| ==> Proceeds(reg, invoke, submit, latest, r.observed[i])
    ensures Loop(reg, invoke, submit, latest, run, turn, maxTurns).exhausted
    decreases maxTurns - turn
  {
    var r := Loop(reg, invoke, submit, latest, run, turn, maxTurns);
    if turn < maxTurns {
      assert r.observed[0] == run;
      assert Proceeds(reg, invoke, submit, latest, r.observed[0]);
      var next := NextRun(reg, invoke, submit, latest, run);
      var rest := Loop(reg, invoke, submit, latest, next, turn + 1, maxTurns);
      LoopProceeds(reg, invoke, submit, latest, run, turn, maxTurns);
      ProceedsShift(reg, invoke, submit, latest, run, rest.observed);
      AllProceedExhausted(reg, invoke, submit, latest, next, turn + 1, maxTurns);
    }
  }

  /** The agent runs out of turns exactly when it observed `max_turns` runs and every one of them proceeded. */
  lemma ExhaustedIff(reg: map<string, Option<Callable>>, invoke: Invoke, submit: Submit, latest: Latest,
                     run: Run, turn: nat, maxTurns: nat)
    requires turn <= maxTurns
    ensures var r := Loop(reg, invoke, submit, latest, run, turn, maxTurns);
      r.exhausted <==> |r.observed| == maxTurns - turn && forall i :: 0 <= i < |r.observed| ==> Proceeds(reg, invoke, submit, latest, r.observed[i])
  {
    var r := Loop(reg, invoke, submit, latest, run, turn, maxTurns);
    if r.exhausted {
      ExhaustedAllProceed(reg, invoke, submit, latest, run, turn, maxTurns);
    } else if |r.observed| == maxTurns - turn && forall i :: 0 <= i < |r.observed| ==> Proceeds(reg, invoke, submit, latest, r.observed[i]) {
      AllProceedExhausted(reg, invoke, submit, latest, run, turn, maxTurns);
    }
  }

  /** The messages are listed before the status is read: when listing raises, the agent ends with that exception. */
  lemma ListingRaises(reg: map<string, Option<Callable>>, invoke: Invoke, submit: Submit, latest: Latest,
                      run: Run, turn: nat, maxTurns: nat)
    requires turn < maxTurns && latest(run).Err?
    ensures Loop(reg, invoke, submit, latest, run, turn, maxTurns) == AssistantRun(Err(latest(run).error), [run], [], false)
  {
  }

  /** A submission that raises ends the agent with that exception, and nothing counts as submitted. */
  lemma SubmissionRaises(reg: map<string, Option<Callable>>, invoke: Invoke, submit: Submit, latest: Latest,
                         run: Run, turn: nat, maxTurns: nat)
    requires turn < maxTurns && latest(run).Ok? && run.status == RequiresAction
    requires CallAll(run.toolCalls, reg, invoke).Ok? && submit(run, CallAll(run.toolCalls, reg, invoke).value).Err?
    ensures Loop(reg, invoke, submit, latest, run, turn, maxTurns)
      == AssistantRun(Err(submit(run, CallAll(run.toolCalls, reg, invoke).value).error), [run], [], false)
  {
  }

  /** A completed run ends the agent with the first text part of the latest message, or `None` without one. */
  lemma CompletedAnswers(reg: map<string, Option<Callable>>, invoke: Invoke, submit: Submit, latest: Latest,
                         run: Run, turn: nat, maxTurns: nat)
    requires turn < maxTurns && run.status == Completed && latest(run).Ok? && latest(run).value.Some?
    ensures var r := Loop(reg, invoke, submit, latest, run, turn, maxTurns);
      var contents := latest(run).value.value;
      && r.outcome.Ok? && r.outcome.value.raw == run
      && (r.outcome.value.content.Str? <==> exists i :: 0 <= i < |contents| && contents[i].TextContent?)
      && |r.submitted| == 0
  {
  }

  /** A run in any status other than completed or requires_action fails the agent with its reason code. */
  lemma OtherStatusFails(reg: map<string, Option<Callable>>, invoke: Invoke, submit: Submit, latest: Latest,
                         run: Run, turn: nat, maxTurns: nat)
    requires turn < maxTurns && latest(run).Ok? && run.status != Completed && run.status != RequiresAction
    ensures Loop(reg, invoke, submit, latest, run, turn, maxTurns).outcome == Err(TextGenFailed(TextGenFailedMsg, FailureReason(run)))
  {
  }

  /** A constructed assistant agent: its task, turn limit and the callables of its `function` tools. */
  datatype AssistantAgent = AssistantAgent(task: Task, maxTurns: nat, registry: map<string, Option<Callable>>)

  /**
   * `OpenAIFunctionAgent.__init__`: name, then `max_turns`, then the `type`
   * of every declaration and the name of every `function` declaration; only
   * `function` tools are registered.
   */
  function NewAssistantAgent(name: string, id: nat, tools: seq<Tool>, maxTurns: int): (r: Outcome<AssistantAgent>)
    ensures r.Err? <==> AllSpace(name) || maxTurns <= 0 || RegistryError(tools, true).Some?
    ensures AllSpace(name) ==> r == Err(ValueError(EmptyNameMsg))
    ensures !AllSpace(name) && maxTurns <= 0 ==> r == Err(ValueError(MaxTurnsMsg))
    ensures !AllSpace(name) && maxTurns > 0 && RegistryError(tools, true).Some? ==> r == Err(RegistryError(tools, true).value)
    ensures !AllSpace(name) && maxTurns > 0 && Untyped(tools) ==> r.Err? && r.error.KeyError?
    ensures r.Ok? ==> r.value.task == Task(name, id) && r.value.maxTurns == maxTurns
    ensures r.Ok? ==> r.value.registry == Registry(tools, true)
    ensures r.Ok? ==> r.value.registry.Keys == set i | 0 <= i < |tools| && tools[i].decl.kind == Some(FunctionKind) :: tools[i].decl.name
  {
    var agent :- NewAgent(name, id, tools, maxTurns, true, true);
    Ok(AssistantAgent(agent.task, agent.maxTurns, agent.registry))
  }

  /**
   * `execute`: a non-string input is rejected before the thread is created;
   * an exception while creating the thread, posting the message or starting
   * the run ends the agent before any turn; otherwise the loop starts from
   * the run the first poll returns.
   */
  function Execute(agent: AssistantAgent, invoke: Invoke, start: Start, submit: Submit, latest: Latest,
                   input: TaskInput): (r: AssistantRun)
    ensures !input.content.Str? ==> r == AssistantRun(Err(ValueError(InputNotStrMsg)), [], [], false)
    ensures input.content.Str? && start(input.content.s).Err? ==>
      r == AssistantRun(Err(start(input.content.s).error), [], [], false)
    ensures input.content.Str? && start(input.content.s).Ok? && agent.maxTurns > 0 ==>
      |r.observed| > 0 && r.observed[0] == start(input.content.s).value
    ensures |r.observed| <= agent.maxTurns
    ensures r.exhausted ==> r.outcome == Err(MaxTurnsReached) && |r.observed| == agent.maxTurns
  {
    if !input.content.Str? then AssistantRun(Err(ValueError(InputNotStrMsg)), [], [], false)
    else match start(input.content.s)
      case Err(e) => AssistantRun(Err(e), [], [], false)
      case Ok(run) => Loop(agent.registry, invoke, submit, latest, run, 0, agent.maxTurns)
  }
}

=== FILE: chroma.dfy ===
/**
 * `default_doc_processor` of the ChromaDB retriever: the documents of the
 * first query are numbered from 0 and joined with blank lines.
 */
module Chroma {
  import opened Wrappers
  import opened PyValue
  import opened Models

  /** The `QueryResult` entry the formatter reads: one document list per query, or `None`. */
  datatype QueryResult = QueryResult(documents: Option<seq<seq<string>>>)

  const Separator := "\n\n"
  const NotSubscriptableMsg := "'NoneType' object is not subscriptable"
  const ListIndexMsg := "list index out of range"

  /** `f"[{idx}] {doc}"`. */
  function Numbered(idx: nat, doc: string): (r: string)
    ensures |r| == |NatToStr(idx)| + 3 + |doc|
    ensures r[..|NatToStr(idx)| + 3] == "[" + NatToStr(idx) + "] "
    ensures r[|NatToStr(idx)| + 3..] == doc
  {
    "[" + NatToStr(idx) + "] " + doc
  }

  /** Every document numbered by its position. */
  function NumberAll(docs: seq<string>): (r: seq<string>)
    ensures |r| == |docs|
    ensures forall i :: 0 <= i < |docs| ==> r[i] == Numbered(i, docs[i])
  {
    seq(|docs|, i requires 0 <= i < |docs| => Numbered(i, docs[i]))
  }

  /** The formatted text of one query's documents. */
  function FormatDocs(docs: seq<string>): (r: string)
    ensures |docs| == 0 <==> r == ""
    ensures |docs| > 0 ==> |r| >= |Numbered(0, docs[0])| && r[..|Numbered(0, docs[0])|] == Numbered(0, docs[0])
  {
    var items := NumberAll(docs);
    if |items| == 0 then ""
    else
      JoinEnds(items, Separator);
      Join(items, Separator)
  }

  /**
   * A further document adds exactly one blank line and its numbered text at
   * the end: the earlier documents keep their order and numbers.
   */
  lemma FormatDocsSnoc(docs: seq<string>, d: string)
    requires |docs| > 0
    ensures FormatDocs(docs + [d]) == FormatDocs(docs) + Separator + Numbered(|docs|, d)
  {
    assert NumberAll(docs + [d]) == NumberAll(docs) + [Numbered(|docs|, d)];
    JoinSnoc(NumberAll(docs), Numbered(|docs|, d), Separator);
  }

  /** `default_doc_processor(res)`: only the first query's documents are read; a missing list raises. */
  function DocProcessor(res: QueryResult): (r: Outcome<string>)
    ensures res.documents.None? ==> r == Err(TypeError(NotSubscriptableMsg))
    ensures res.documents.Some? && |res.documents.value| == 0 ==> r == Err(IndexError(ListIndexMsg))
    ensures res.documents.Some? && |res.documents.value| > 0 ==> r == Ok(FormatDocs(res.documents.value[0]))
  {
    match res.documents
    case None => Err(TypeError(NotSubscriptableMsg))
    case Some(lists) => if |lists| == 0 then Err(IndexError(ListIndexMsg)) else Ok(FormatDocs(lists[0]))
  }

  /** Two documents are numbered from zero with one blank line between; the second query's documents are not read. */
  lemma TwoDocs(a: string, b: string)
    ensures DocProcessor(QueryResult(Some([[a, b], ["ignored"]]))) == Ok("[0] " + a + "\n\n[1] " + b)
  {
    FormatDocsSnoc([a], b);
    assert [a] + [b] == [a, b];
    assert NatToStr(0) == "0" && NatToStr(1) == "1";
    assert FormatDocs([a]) == Numbered(0, a) == "[0] " + a;
    assert Numbered(1, b) == "[1] " + b;
    assert FormatDocs([a, b]) == "[0] " + a + "\n\n" + ("[1] " + b);
    var x := "[0] " + a;
    assert x + "\n\n" + ("[1] " + b) == x + "\n\n[1] " + b;
  }
}

=== FILE: coheretext.dfy ===
/**
 * `BaseCohereChat` and `CohereTextGenTask`: the Cohere chat request, the
 * classification of its reply by finish reason, the reason codes of a
 * failure, and the `function_calls` dict built from the reply's tool calls.
 */
module CohereText {
  import opened Wrappers
  import opened PyValue
  import opened PyDict
  import opened Models
  import opened Tasks
  import opened Tools
  import opened Options
  import opened Completions

  /** A tool call in a Cohere reply: the tool name and its parameters (`None` when the SDK gives none). */
  datatype CohereCall = CohereCall(name: string, parameters: Option<Args>)

  /** The `NonStreamedChatResponse`: finish reason, text and tool calls. */
  datatype CohereReply = CohereReply(finishReason: string, text: string, toolCalls: Option<seq<CohereCall>>)

  /**
   * The arguments of the SDK's `chat`: the message, chat history, conversation
   * id, tools and tool results passed by name (each `None` when not given),
   * and the option keywords.
   */
  datatype CohereRequest = CohereRequest(
    message: string, history: Option<seq<Value>>, conversationId: Value,
    tools: Option<seq<Decl>>, toolResults: Option<seq<Value>>, options: Opts)

  /** The SDK call; it may raise. */
  type CohereSdk = CohereRequest -> Outcome<CohereReply>

  /** One `chat` call: its outcome and the requests sent (at most one). */
  datatype CohereChatCall = CohereChatCall(outcome: Outcome<ChatResponse<CohereReply>>, sent: seq<CohereRequest>)

  const CompleteReason := "COMPLETE"

  /** The finish reasons with a reason code of their own. */
  const KnownFinishes := ["ERROR_TOXIC", "ERROR_LIMIT", "MAX_TOKENS", "USER_CANCEL"]

  /** Their reason codes, position for position. */
  const FinishCodes := ["SAFETY_CHECK_FAILED", "LIMIT_EXCEEDED", "MAX_TOKENS_REACHED", "CANCELLED"]

  const OtherCode := "OTHER"

  /** The names the SDK's `chat` is called with besides the options. */
  const CohereNamedArgs := ["message", "chat_history", "conversation_id", "tools", "tool_results"]

  /** `_block_reason_str`: each known finish reason has its own code, every other reason is "OTHER". */
  function CohereReason(finish: string): (r: string)
    ensures forall i :: 0 <= i < |KnownFinishes| && finish == KnownFinishes[i] ==> r == FinishCodes[i]
    ensures finish !in KnownFinishes <==> r == OtherCode
  {
    if finish == "ERROR_TOXIC" then "SAFETY_CHECK_FAILED"
    else if finish == "ERROR_LIMIT" then "LIMIT_EXCEEDED"
    else if finish == "MAX_TOKENS" then "MAX_TOKENS_REACHED"
    else if finish == "USER_CANCEL" then "CANCELLED"
    else OtherCode
  }

  /** Distinct known finish reasons never share a code, so a code names its reason. */
  lemma CohereReasonInjective(a: string, b: string)
    requires a in KnownFinishes && b in KnownFinishes && CohereReason(a) == CohereReason(b)
    ensures a == b
  {
  }

  /** The `function_calls` entry of one tool call: keyed by tool name, with no id and `parameters or {}`. */
  function CohereEntry(c: CohereCall): (string, FunctionCall) {
    (c.name, FunctionCall(None, None, c.parameters.GetOr(map[])))
  }

  function CoherePairs(calls: seq<CohereCall>): (r: seq<(string, FunctionCall)>)
    ensures |r| == |calls|
    ensures forall i :: 0 <= i < |calls| ==> r[i] == CohereEntry(calls[i])
  {
    seq(|calls|, i requires 0 <= i < |calls| => CohereEntry(calls[i]))
  }

  /** The `function_calls` of a reply: `None` for absent or empty tool calls, else the dict keyed by tool name. */
  function CohereCalls(toolCalls: Option<seq<CohereCall>>): (r: Option<CallItems>)
    ensures r.None? <==> toolCalls.None? || |toolCalls.value| == 0
    ensures r.Some? ==> 0 < |r.value| <= |toolCalls.value|
    ensures r.Some? ==> forall i :: 0 <= i < |r.value| ==>
      exists j :: 0 <= j < |toolCalls.value| && r.value[i] == CohereEntry(toolCalls.value[j])
  {
    if toolCalls.None? || |toolCalls.value| == 0 then None
    else
      var pairs := CoherePairs(toolCalls.value);
      ItemsOfLastWins(pairs, |pairs| - 1);
      Some(ItemsOf(pairs))
  }

  /** A tool called several times in one reply keeps its last parameters. */
  lemma CohereCallsLastWins(calls: seq<CohereCall>, i: nat)
    requires i < |calls|
    requires forall j :: i < j < |calls| ==> calls[j].name != calls[i].name
    ensures CohereCalls(Some(calls)).Some? && CohereEntry(calls[i]) in CohereCalls(Some(calls)).value
  {
    ItemsOfLastWins(CoherePairs(calls), i);
  }

  /** Distinct tool names keep every call, in reply order. */
  lemma CohereCallsDistinct(calls: seq<CohereCall>)
    requires 0 < |calls|
    requires forall i, j :: 0 <= i < j < |calls| ==> calls[i].name != calls[j].name
    ensures CohereCalls(Some(calls)) == Some(CoherePairs(calls))
  {
    ItemsOfDistinct(CoherePairs(calls));
  }

  /**
   * The reply classified: any finish reason but "COMPLETE" fails with its
   * reason code before the tool calls are looked at; a complete reply gives
   * its text unchanged, itself as raw output and its calls keyed by tool name.
   */
  function ClassifyCohere(reply: CohereReply): (r: Outcome<ChatResponse<CohereReply>>)
    ensures r.Err? <==> reply.finishReason != CompleteReason
    ensures r.Err? ==> r.error == TextGenFailed(TextGenFailedMsg, CohereReason(reply.finishReason))
    ensures r.Ok? ==> r.value.text == Some(reply.text) && r.value.raw == reply
    ensures r.Ok? ==> (HasCalls(r.value) <==> reply.toolCalls.Some? && |reply.toolCalls.value| > 0)
    ensures r.Ok? ==> r.value.functionCalls == CohereCalls(reply.toolCalls)
  {
    if reply.finishReason != CompleteReason then Err(TextGenFailed(TextGenFailedMsg, CohereReason(reply.finishReason)))
    else Ok(ChatResponse(Some(reply.text), reply, CohereCalls(reply.toolCalls)))
  }

  /** A reply stopped by the toxicity check fails with "SAFETY_CHECK_FAILED", whatever tool calls it carries. */
  lemma ToxicReplyFails(text: string, calls: Option<seq<CohereCall>>)
    ensures ClassifyCohere(CohereReply("ERROR_TOXIC", text, calls)) == Err(TextGenFailed(TextGenFailedMsg, "SAFETY_CHECK_FAILED"))
  {
  }

  /** What `chat` makes of the SDK's result: its exception, or the classified reply. */
  function CohereAnswer(result: Outcome<CohereReply>): Outcome<ChatResponse<CohereReply>> {
    match result
    case Err(e) => Err(e)
    case Ok(reply) => ClassifyCohere(reply)
  }

  /**
   * `chat(...)` given the option keywords: the SDK is called with the five
   * named arguments and the keywords, which Python refuses when the keywords
   * repeat one of the names.
   */
  function CohereChatWith(sdkOptions: Opts, message: string, history: Option<seq<Value>>, conversationId: Value,
                          tools: Option<seq<Decl>>, toolResults: Option<seq<Value>>, sdk: CohereSdk): (r: CohereChatCall)
    requires Valid(sdkOptions)
    ensures |r.sent| <= 1
    ensures |r.sent| == 0 <==> KwargsClash(CohereNamedArgs, sdkOptions).Some?
    ensures |r.sent| == 0 ==> r.outcome == Err(TypeError(DuplicateKwargMsg(KwargsClash(CohereNamedArgs, sdkOptions).value)))
    ensures |r.sent| == 1 ==> r.sent[0] == CohereRequest(message, history, conversationId, tools, toolResults, sdkOptions)
    ensures |r.sent| == 1 ==> r.outcome == CohereAnswer(sdk(r.sent[0]))
  {
    match KwargsClash(CohereNamedArgs, sdkOptions)
    case Some(k) => CohereChatCall(Err(TypeError(DuplicateKwargMsg(k))), [])
    case None =>
      var req := CohereRequest(message, history, conversationId, tools, toolResults, sdkOptions);
      CohereChatCall(CohereAnswer(sdk(req)), [req])
  }

  /** `BaseCohereChat.chat` as written: the option dict is splatted after `conversation_id=` is passed by name. */
  function CohereChatAsWritten(options: Opts, message: string, history: Option<seq<Value>>, conversationId: Value,
                               tools: Option<seq<Decl>>, toolResults: Option<seq<Value>>, sdk: CohereSdk): CohereChatCall {
    CohereChatWith(CohereTextGen(options), message, history, conversationId, tools, toolResults, sdk)
  }

  /**
   * A truthy `conversation_id` option makes every call of the written `chat`
   * raise `TypeError` before the SDK is reached; without one the request goes
   * out with the option keywords unchanged.
   */
  lemma CohereConversationClash(options: Opts, message: string, history: Option<seq<Value>>, conversationId: Value,
                                tools: Option<seq<Decl>>, toolResults: Option<seq<Value>>, sdk: CohereSdk)
    ensures var r := CohereChatAsWritten(options, message, history, conversationId, tools, toolResults, sdk);
      && (r.sent == [] <==> Truthy(Lookup(options, "conversation_id")))
      && (r.sent == [] ==> r.outcome == Err(TypeError(DuplicateKwargMsg("conversation_id"))))
  {
    CohereClashIsConversation(options);
  }

  /** Of the names passed explicitly, only `conversation_id` can also be an option keyword, and it is one exactly when truthy. */
  lemma CohereClashIsConversation(options: Opts)
    ensures KwargsClash(CohereNamedArgs, CohereTextGen(options)).Some? <==> Truthy(Lookup(options, "conversation_id"))
    ensures KwargsClash(CohereNamedArgs, CohereTextGen(options)).Some? ==>
      KwargsClash(CohereNamedArgs, CohereTextGen(options)).value == "conversation_id"
  {
    CohereClashWhen(CohereTextGen(options));
  }

  /** Keywords holding none of the other four names clash exactly when they hold `conversation_id`. */
  lemma CohereClashWhen(opts: Opts)
    requires Valid(opts)
    requires "message" !in opts.values && "chat_history" !in opts.values && "tools" !in opts.values && "tool_results" !in opts.values
    ensures KwargsClash(CohereNamedArgs, opts).Some? <==> "conversation_id" in opts.values
    ensures KwargsClash(CohereNamedArgs, opts).Some? ==> KwargsClash(CohereNamedArgs, opts).value == "conversation_id"
  {
    ClashAt(CohereNamedArgs, opts, 2);
  }

  /** The option keywords of the corrected `chat`: the Cohere options without `conversation_id`. */
  function CohereRequestOptions(options: Opts): (r: Opts)
    ensures Valid(r)
    ensures forall k :: k in r.values <==> k in CohereTextGen(options).values && k != "conversation_id"
    ensures forall k :: k in r.values ==> Lookup(r, k) == Lookup(CohereTextGen(options), k)
    ensures "conversation_id" !in r.values
    ensures "message" !in r.values && "chat_history" !in r.values && "tools" !in r.values && "tool_results" !in r.values
  {
    Delete(CohereTextGen(options), {"conversation_id"})
  }

  /** The conversation id of the corrected `chat`: the argument when given, else a truthy option, else `None`. */
  function ConversationOf(options: Opts, conversationId: Value): (r: Value)
    ensures conversationId != Null ==> r == conversationId
    ensures conversationId == Null ==> r == if Truthy(Lookup(options, "conversation_id")) then Lookup(options, "conversation_id") else Null
  {
    if conversationId != Null then conversationId else Lookup(CohereTextGen(options), "conversation_id")
  }

  /** `BaseCohereChat.chat` with `conversation_id` passed once: the request always reaches the SDK. */
  function CohereChat(options: Opts, message: string, history: Option<seq<Value>>, conversationId: Value,
                      tools: Option<seq<Decl>>, toolResults: Option<seq<Value>>, sdk: CohereSdk): (r: CohereChatCall)
    ensures |r.sent| == 1
    ensures r.sent[0] == CohereRequest(message, history, ConversationOf(options, conversationId), tools, toolResults,
                                       CohereRequestOptions(options))
    ensures r.outcome == CohereAnswer(sdk(r.sent[0]))
  {
    var opts := CohereRequestOptions(options);
    CohereClashWhen(opts);
    CohereChatWith(opts, message, history, ConversationOf(options, conversationId), tools, toolResults, sdk)
  }

  /** `model="command-r-plus", temperature=0.3`. */
  const CohereDefaults: Opts := FromPairs([("model", Str("command-r-plus")), ("temperature", Num("0.3", false))])

  lemma CohereDefaultsHold()
    ensures Lookup(CohereDefaults, "model") == Str("command-r-plus")
    ensures Lookup(CohereDefaults, "temperature") == Num("0.3", false)
    ensures forall k :: k in CohereDefaults.values ==> k == "model" || k == "temperature"
  {
    var pairs := [("model", Str("command-r-plus")), ("temperature", Num("0.3", false))];
    FromPairsLastWins(pairs, 0);
    FromPairsLastWins(pairs, 1);
  }

  /** Options holding a truthy model and temperature and nothing else reduce to exactly those two. */
  lemma CohereModelTemperatureOptions(o: Opts)
    requires forall k :: k in o.values ==> k == "model" || k == "temperature"
    requires Truthy(Lookup(o, "model")) && Lookup(o, "model") != Omit && Truthy(Lookup(o, "temperature"))
    ensures forall k :: k in CohereTextGen(o).values <==> k == "model" || k == "temperature"
    ensures Lookup(CohereTextGen(o), "model") == Lookup(o, "model")
    ensures Lookup(CohereTextGen(o), "temperature") == Lookup(o, "temperature")
  {
    CohereKeyFacts();
    var r := CohereTextGen(o);
    forall k | k in r.values
      ensures k == "model" || k == "temperature"
    {
      if k != "model" && k != "preamble" {
        assert Truthy(Lookup(o, k));
      }
    }
  }

  /** The default options reduce to exactly `model` and `temperature`. */
  lemma CohereDefaultRequest()
    ensures forall k :: k in CohereTextGen(CohereDefaults).values <==> k == "model" || k == "temperature"
    ensures Lookup(CohereTextGen(CohereDefaults), "model") == Str("command-r-plus")
    ensures Lookup(CohereTextGen(CohereDefaults), "temperature") == Num("0.3", false)
  {
    CohereDefaultsHold();
    CohereModelTemperatureOptions(CohereDefaults);
  }

  /** A Cohere text task run: its outcome and the requests sent. */
  datatype CohereRun = CohereRun(outcome: Outcome<TaskOutput<CohereReply>>, sent: seq<CohereRequest>)

  /**
   * `CohereTextGenTask.execute` with the corrected chat: non-string input is
   * refused before any request; otherwise only the message is passed, and the
   * reply's text and the raw reply are returned.
   */
  function CohereExecute(t: TextGenTask, sdk: CohereSdk, input: TaskInput): (r: CohereRun)
    ensures !input.content.Str? ==> r == CohereRun(Err(ValueError(InputNotStrMsg)), [])
    ensures input.content.Str? ==>
      r.sent == [CohereRequest(input.content.s, None, ConversationOf(t.options, Null), None, None, CohereRequestOptions(t.options))]
    ensures r.outcome.Ok? <==> input.content.Str? && sdk(r.sent[0]).Ok? && sdk(r.sent[0]).value.finishReason == CompleteReason
    ensures r.outcome.Ok? ==> r.outcome.value == TaskOutput(Str(sdk(r.sent[0]).value.text), sdk(r.sent[0]).value)
  {
    if !input.content.Str? then CohereRun(Err(ValueError(InputNotStrMsg)), [])
    else
      var c := CohereChat(t.options, input.content.s, None, Null, None, None, sdk);
      match c.outcome
      case Err(e) => CohereRun(Err(e), c.sent)
      case Ok(resp) => CohereRun(Ok(TaskOutput(TextValue(resp.text), resp.raw)), c.sent)
  }
}

=== FILE: completions.dfy ===
/**
 * `BaseOpenAIChat` and `BaseGroqChat`, which share their code: the system
 * prompt insertion, the chat-completion request, and the classification of
 * the reply into function calls, a final text or a failure; and the text
 * generation tasks built on them.
 */
module Completions {
  import opened Wrappers
  import opened PyValue
  import opened PyDict
  import opened Models
  import opened Tasks
  import opened Tools
  import opened Payload
  import opened Options

  /** One choice of a chat completion: why it finished, its message text and its tool calls. */
  datatype Choice = Choice(finishReason: string, content: Option<string>, toolCalls: Option<seq<RequestedCall>>)

  /** The `ChatCompletion` returned by the SDK. */
  datatype Completion = Completion(choices: seq<Choice>)

  /** The arguments of `chat.completions.create`: messages, tools and the option keywords. */
  datatype CompletionRequest = CompletionRequest(messages: seq<Message>, tools: Option<seq<Decl>>, options: Opts)

  /** The SDK call; it may raise. */
  type CreateCompletion = CompletionRequest -> Outcome<Completion>

  const ToolCallsReason := "tool_calls"
  const StopReason := "stop"
  const NotIterableMsg := "'NoneType' object is not iterable"

  /** The names `create` is called with besides the options. */
  const NamedArgs := ["messages", "tools"]

  /** Choice `i` is the first one that finished for `reason`. */
  predicate IsFirst(choices: seq<Choice>, reason: string, i: int) {
    && 0 <= i < |choices|
    && choices[i].finishReason == reason
    && forall j :: 0 <= j < i ==> choices[j].finishReason != reason
  }

  /** No choice finished for `reason`. */
  predicate NoneFor(choices: seq<Choice>, reason: string) {
    forall i :: 0 <= i < |choices| ==> choices[i].finishReason != reason
  }

  /** `next((c for c in choices if c.finish_reason == reason), None)`, as an index. */
  function FirstFor(choices: seq<Choice>, reason: string): (r: Option<nat>)
    ensures r.None? <==> NoneFor(choices, reason)
    ensures r.Some? ==> IsFirst(choices, reason, r.value)
  {
    First(choices, (c: Choice) => c.finishReason == reason)
  }

  /** The first choice for a reason is unique. */
  lemma FirstIsUnique(choices: seq<Choice>, reason: string, i: int, j: int)
    requires IsFirst(choices, reason, i) && IsFirst(choices, reason, j)
    ensures i == j
  {
  }

  /** How a reply's calls are keyed: OpenAI by function name, Groq by call id (with the name kept in the call). */
  datatype CallKey = ByName | ById

  /** The `function_calls` entry for one tool call. */
  function CallEntry(c: RequestedCall, key: CallKey): (string, FunctionCall) {
    match key
    case ByName => (c.name, FunctionCall(Some(c.id), None, ArgsOf(c)))
    case ById => (c.id, FunctionCall(Some(c.id), Some(c.name), ArgsOf(c)))
  }

  /** The entries of a reply's calls, in reply order. */
  function CallPairs(calls: seq<RequestedCall>, key: CallKey): (r: seq<(string, FunctionCall)>)
    ensures |r| == |calls|
    ensures forall i :: 0 <= i < |calls| ==> r[i] == CallEntry(calls[i], key)
  {
    seq(|calls|, i requires 0 <= i < |calls| => CallEntry(calls[i], key))
  }

  /** The `function_calls` dict comprehension over the tool calls, as items in dict order. */
  function CallDict(calls: seq<RequestedCall>, key: CallKey): (r: CallItems)
    ensures |r| <= |calls|
    ensures forall i :: 0 <= i < |r| ==> exists j :: 0 <= j < |calls| && r[i] == CallEntry(calls[j], key)
  {
    ItemsOf(CallPairs(calls, key))
  }

  /** Keys repeated in a reply collapse: the dict holds the LAST call with each key. */
  lemma CallDictLastWins(calls: seq<RequestedCall>, key: CallKey, i: nat)
    requires i < |calls|
    requires forall j :: i < j < |calls| ==> CallEntry(calls[j], key).0 != CallEntry(calls[i], key).0
    ensures CallEntry(calls[i], key) in CallDict(calls, key)
  {
    ItemsOfLastWins(CallPairs(calls, key), i);
  }

  /** With distinct keys every call is kept, in reply order. */
  lemma CallDictDistinct(calls: seq<RequestedCall>, key: CallKey)
    requires forall i, j :: 0 <= i < j < |calls| ==> CallEntry(calls[i], key).0 != CallEntry(calls[j], key).0
    ensures CallDict(calls, key) == CallPairs(calls, key)
  {
    ItemsOfDistinct(CallPairs(calls, key));
  }

  /**
   * The classification of a reply: the first choice that finished with
   * "tool_calls" gives its text and calls; failing that, the first "stop"
   * choice gives its text alone; failing that, generation failed.
   */
  function Classify(reply: Completion, key: CallKey): (r: Outcome<ChatResponse<Completion>>)
    ensures r.Ok? ==> r.value.raw == reply
    ensures r.Ok? && r.value.functionCalls.Some? <==> exists i :: IsFirst(reply.choices, ToolCallsReason, i) && reply.choices[i].toolCalls.Some?
    ensures r.Err? <==>
      (exists i :: IsFirst(reply.choices, ToolCallsReason, i) && reply.choices[i].toolCalls.None?)
      || (NoneFor(reply.choices, ToolCallsReason) && NoneFor(reply.choices, StopReason))
  {
    match FirstFor(reply.choices, ToolCallsReason)
    case Some(i) =>
      var c := reply.choices[i];
      if c.toolCalls.None? then Err(TypeError(NotIterableMsg))
      else Ok(ChatResponse(c.content, reply, Some(CallDict(c.toolCalls.value, key))))
    case None =>
      match FirstFor(reply.choices, StopReason)
      case Some(i) => Ok(ChatResponse(reply.choices[i].content, reply, None))
      case None => Err(TextGenFailed(TextGenFailedMsg, NoStopPoint))
  }

  /** A "tool_calls" choice wins over every "stop" choice, earlier ones included. */
  lemma ToolCallsChoiceAnswers(reply: Completion, key: CallKey, i: int)
    requires IsFirst(reply.choices, ToolCallsReason, i) && reply.choices[i].toolCalls.Some?
    ensures Classify(reply, key)
      == Ok(ChatResponse(reply.choices[i].content, reply, Some(CallDict(reply.choices[i].toolCalls.value, key))))
  {
    var f := FirstFor(reply.choices, ToolCallsReason);
    FirstIsUnique(reply.choices, ToolCallsReason, f.value, i);
  }

  /** Without a "tool_calls" choice, the first "stop" choice's content is the text and there are no calls. */
  lemma StopChoiceAnswers(reply: Completion, key: CallKey, i: int)
    requires NoneFor(reply.choices, ToolCallsReason) && IsFirst(reply.choices, StopReason, i)
    ensures Classify(reply, key) == Ok(ChatResponse(reply.choices[i].content, reply, None))
  {
    var f := FirstFor(reply.choices, StopReason);
    FirstIsUnique(reply.choices, StopReason, f.value, i);
  }

  /** With neither kind of choice (a "length" finish, say, or no choice at all) generation fails. */
  lemma NoStopPointFails(reply: Completion, key: CallKey)
    requires NoneFor(reply.choices, ToolCallsReason) && NoneFor(reply.choices, StopReason)
    ensures Classify(reply, key) == Err(TextGenFailed(TextGenFailedMsg, NoStopPoint))
  {
  }

  /** `llm_options.get("system_prompt")`, for a string-valued option. */
  function SystemPromptOf(options: Opts): Option<string> {
    var v := Lookup(options, SystemPromptKey);
    if v.Str? then Some(v.s) else None
  }

  /** What `chat` makes of the SDK's result: its exception, or the classified reply. */
  function Answer(result: Outcome<Completion>, key: CallKey): Outcome<ChatResponse<Completion>> {
    match result
    case Err(e) => Err(e)
    case Ok(reply) => Classify(reply, key)
  }

  /** One `chat` call: the outcome, the payload list as `chat` leaves it, and the requests sent (at most one). */
  datatype ChatCall = ChatCall(outcome: Outcome<ChatResponse<Completion>>, payload: seq<Message>, sent: seq<CompletionRequest>)

  /**
   * `chat(messages_payload, tools)` given the SDK options computed from the
   * chat options: the system prompt is appended to the caller's payload, then
   * `create(messages=…, tools=…, **sdkOptions)` is called, which Python
   * refuses when `sdkOptions` holds `messages` or `tools` as well.
   */
  function Chat(options: Opts, sdkOptions: Opts, key: CallKey, payload: seq<Message>, tools: Option<seq<Decl>>,
                create: CreateCompletion): (r: ChatCall)
    requires Valid(sdkOptions)
    ensures r.payload == WithSystemPrompt(payload, SystemPromptOf(options))
    ensures |r.sent| <= 1
    ensures |r.sent| == 0 <==> KwargsClash(NamedArgs, sdkOptions).Some?
    ensures |r.sent| == 0 ==> r.outcome == Err(TypeError(DuplicateKwargMsg(KwargsClash(NamedArgs, sdkOptions).value)))
    ensures |r.sent| == 1 ==> r.sent[0] == CompletionRequest(r.payload, tools, sdkOptions)
    ensures |r.sent| == 1 ==> r.outcome == Answer(create(r.sent[0]), key)
  {
    var p := WithSystemPrompt(payload, SystemPromptOf(options));
    match KwargsClash(NamedArgs, sdkOptions)
    case Some(k) => ChatCall(Err(TypeError(DuplicateKwargMsg(k))), p, [])
    case None =>
      var req := CompletionRequest(p, tools, sdkOptions);
      ChatCall(Answer(create(req), key), p, [req])
  }

  /* ---------------------------------------------------------------- OpenAI */

  /** `BaseOpenAIChat.chat` as written: the options always carry `tools`, which is also passed by name. */
  function OpenAIChatAsWritten(options: Opts, payload: seq<Message>, tools: Option<seq<Decl>>, create: CreateCompletion): ChatCall {
    Chat(options, OpenAITextGen(options), ByName, payload, tools, create)
  }

  /** Every call of the written `chat` raises `TypeError` before the SDK is reached, whatever the options. */
  lemma OpenAIToolsClash(options: Opts, payload: seq<Message>, tools: Option<seq<Decl>>, create: CreateCompletion)
    ensures OpenAIChatAsWritten(options, payload, tools, create).sent == []
    ensures OpenAIChatAsWritten(options, payload, tools, create).outcome == Err(TypeError(DuplicateKwargMsg("tools")))
  {
    var opts := OpenAITextGen(options);
    var k := KwargsClash(NamedArgs, opts);
    assert k.Some?;
    assert k.value == "tools";
  }

  /** The SDK options of the corrected `chat`: the option dict without `tools`, which goes by name only. */
  function OpenAIRequestOptions(options: Opts): (r: Opts)
    ensures Valid(r)
    ensures forall k :: k in r.values <==> k in OpenAITextGenKeys && k != SystemPromptKey && k != "tools"
    ensures forall k :: k in r.values ==> Lookup(r, k) == Lookup(options, k)
    ensures "tools" !in r.values && "messages" !in r.values
  {
    Delete(OpenAITextGen(options), {"tools"})
  }

  /** `BaseOpenAIChat.chat` with `tools` passed once: the request reaches the SDK and its reply is classified by function name. */
  function OpenAIChat(options: Opts, payload: seq<Message>, tools: Option<seq<Decl>>, create: CreateCompletion): (r: ChatCall)
    ensures |r.sent| == 1
    ensures r.sent[0] == CompletionRequest(WithSystemPrompt(payload, SystemPromptOf(options)), tools, OpenAIRequestOptions(options))
    ensures r.payload == WithSystemPrompt(payload, SystemPromptOf(options))
    ensures r.outcome == Answer(create(r.sent[0]), ByName)
  {
    var opts := OpenAIRequestOptions(options);
    assert KwargsClash(NamedArgs, opts).None?;
    Chat(options, opts, ByName, payload, tools, create)
  }

  /** `model="gpt-3.5-turbo", temperature=0.3`. */
  const OpenAIDefaults: Opts := FromPairs([("model", Str("gpt-3.5-turbo")), ("temperature", Num("0.3", false))])

  /** The default dict holds the model and the temperature and nothing else. */
  lemma OpenAIDefaultsHold()
    ensures Lookup(OpenAIDefaults, "model") == Str("gpt-3.5-turbo")
    ensures Lookup(OpenAIDefaults, "temperature") == Num("0.3", false)
    ensures forall k :: k in OpenAIDefaults.values ==> k == "model" || k == "temperature"
  {
    var pairs := [("model", Str("gpt-3.5-turbo")), ("temperature", Num("0.3", false))];
    FromPairsLastWins(pairs, 0);
    FromPairsLastWins(pairs, 1);
  }

  /** Options holding only a model and a temperature send those two and every other declared option as `None`. */
  lemma OpenAIModelTemperatureRequest(o: Opts)
    requires forall k :: k in o.values ==> k == "model" || k == "temperature"
    ensures "model" in OpenAIRequestOptions(o).values && "temperature" in OpenAIRequestOptions(o).values
    ensures Lookup(OpenAIRequestOptions(o), "model") == Lookup(o, "model")
    ensures Lookup(OpenAIRequestOptions(o), "temperature") == Lookup(o, "temperature")
    ensures forall k :: k in OpenAIRequestOptions(o).values && k != "model" && k != "temperature" ==>
      Lookup(OpenAIRequestOptions(o), k) == Null
  {
    assert "model" in OpenAITextGenKeys && "temperature" in OpenAITextGenKeys;
  }

  /** The default options send the model and temperature and every other declared option as `None`. */
  lemma OpenAIDefaultRequest()
    ensures Lookup(OpenAIRequestOptions(OpenAIDefaults), "model") == Str("gpt-3.5-turbo")
    ensures Lookup(OpenAIRequestOptions(OpenAIDefaults), "temperature") == Num("0.3", false)
    ensures forall k :: k in OpenAIRequestOptions(OpenAIDefaults).values && k != "model" && k != "temperature" ==>
      Lookup(OpenAIRequestOptions(OpenAIDefaults), k) == Null
  {
    OpenAIDefaultsHold();
    OpenAIModelTemperatureRequest(OpenAIDefaults);
  }

  /** A text task run: its outcome and the requests sent. */
  datatype TextGenRun = TextGenRun(outcome: Outcome<TaskOutput<Completion>>, sent: seq<CompletionRequest>)

  /** A text generation task: the base task and its options, defaulted when falsy. */
  datatype TextGenTask = TextGenTask(task: Task, options: Opts)

  /** `OpenAITextGenTask.__init__` (and Groq's, with its defaults): the name is checked, `None` or `{}` options become the defaults. */
  function NewTextGenTask(name: string, id: nat, options: Option<Opts>, defaults: Opts): (r: Outcome<TextGenTask>)
    ensures r.Err? <==> NewTask(name, id).Err?
    ensures r.Ok? ==> r.value.task == NewTask(name, id).value && r.value.options == OrDefault(options, defaults)
  {
    match NewTask(name, id)
    case Err(e) => Err(e)
    case Ok(t) => Ok(TextGenTask(t, OrDefault(options, defaults)))
  }

  /** The task's `execute` given its chat: non-string input is refused before any request; otherwise one user message is sent. */
  function Execute(chat: (seq<Message>, Option<seq<Decl>>) -> ChatCall, input: TaskInput): (r: TextGenRun)
    ensures !input.content.Str? ==> r == TextGenRun(Err(ValueError(InputNotStrMsg)), [])
    ensures input.content.Str? ==> r.sent == chat([UserMsg(input.content.s)], None).sent
    ensures r.outcome.Ok? ==> input.content.Str? && chat([UserMsg(input.content.s)], None).outcome.Ok?
    ensures r.outcome.Ok? ==>
      var resp := chat([UserMsg(input.content.s)], None).outcome.value;
      r.outcome.value == TaskOutput(TextValue(resp.text), resp.raw)
  {
    if !input.content.Str? then TextGenRun(Err(ValueError(InputNotStrMsg)), [])
    else
      var c := chat([UserMsg(input.content.s)], None);
      match c.outcome
      case Err(e) => TextGenRun(Err(e), c.sent)
      case Ok(resp) => TextGenRun(Ok(TaskOutput(TextValue(resp.text), resp.raw)), c.sent)
  }

  /** `OpenAITextGenTask.execute` with the corrected chat. */
  function OpenAIExecute(t: TextGenTask, create: CreateCompletion, input: TaskInput): TextGenRun {
    Execute((payload, tools) => OpenAIChat(t.options, payload, tools, create), input)
  }

  /**
   * The OpenAI text task sends exactly one request for string input: the
   * user message, followed by the system prompt when one is set, with no
   * tools; the answer's text and the raw completion are returned.
   */
  lemma OpenAIExecuteSendsOnce(t: TextGenTask, create: CreateCompletion, x: string)
    ensures var r := OpenAIExecute(t, create, TaskInput(Str(x)));
      && |r.sent| == 1
      && r.sent[0].messages == WithSystemPrompt([UserMsg(x)], SystemPromptOf(t.options))
      && r.sent[0].tools.None?
      && r.sent[0].options == OpenAIRequestOptions(t.options)
  {
  }

  /* ------------------------------------------------------------------ Groq */

  /** `BaseGroqChat.chat`: Groq's options never hold `messages` or `tools`, so the request always reaches the SDK. */
  function GroqChat(options: Opts, payload: seq<Message>, tools: Option<seq<Decl>>, create: CreateCompletion): (r: ChatCall)
    ensures |r.sent| == 1
    ensures r.sent[0] == CompletionRequest(WithSystemPrompt(payload, SystemPromptOf(options)), tools, GroqTextGen(options))
    ensures r.payload == r.sent[0].messages
    ensures r.outcome == Answer(create(r.sent[0]), ById)
  {
    var opts := GroqTextGen(options);
    assert KwargsClash(NamedArgs, opts).None?;
    Chat(options, opts, ById, payload, tools, create)
  }

  /** `model="llama3-70b-8192", temperature=0.3`. */
  const GroqDefaults: Opts := FromPairs([("model", Str("llama3-70b-8192")), ("temperature", Num("0.3", false))])

  /** `GroqTextGenTask.execute`. */
  function GroqExecute(t: TextGenTask, create: CreateCompletion, input: TaskInput): TextGenRun {
    Execute((payload, tools) => GroqChat(t.options, payload, tools, create), input)
  }

  /** Groq calls are keyed by call id and dispatched by the name they carry; a reply's text and raw output come back unchanged. */
  lemma GroqCallsById(reply: Completion, i: int)
    requires IsFirst(reply.choices, ToolCallsReason, i) && reply.choices[i].toolCalls.Some?
    ensures var calls := reply.choices[i].toolCalls.value;
      var r := Classify(reply, ById);
      && r.Ok? && r.value.functionCalls.Some?
      && forall n :: 0 <= n < |r.value.functionCalls.value| ==>
        var item := r.value.functionCalls.value[n];
        item.1.id == Some(item.0) && item.1.name.Some?
  {
    ToolCallsChoiceAnswers(reply, ById, i);
  }
}

=== FILE: geminitext.dfy ===
/**
 * `GeminiTextGenTask`: the content-generation request, the blocked-prompt
 * check, the choice of the first candidate that stopped naturally and of its
 * first non-empty text part, and the block-reason codes.
 */
module GeminiText {
  import opened Wrappers
  import opened PyValue
  import opened PyDict
  import opened Models
  import opened Tasks
  import opened Payload
  import opened Options

  /** `prompt_feedback.block_reason`; `Unspecified` is the enum's zero value, and so falsy. */
  datatype BlockReason = Unspecified | Safety | OtherBlock

  /** A candidate: its finish reason and the texts of its content parts ("" for a part without text). */
  datatype Candidate = Candidate(finishReason: string, parts: seq<string>)

  /** The `GenerateContentResponse`: the prompt's block reason and the candidates. */
  datatype GeminiReply = GeminiReply(blockReason: BlockReason, candidates: seq<Candidate>)

  /** The arguments of `generate_content_async`: the contents and the option keywords. */
  datatype GeminiRequest = GeminiRequest(contents: seq<GeminiMsg>, options: Opts)

  /** The SDK call; it may raise. */
  type GenerateContent = GeminiRequest -> Outcome<GeminiReply>

  const StopFinish := "STOP"
  const BlockedMsg := "Prompt blocked by the AI"
  const NoTextData := "NO_TEXT_DATA"
  const SafetyCode := "SAFETY_CHECK_FAILED"
  const OtherCode := "OTHER"

  /** What reading `.get` on `None` options raises. */
  const NoneGetMsg := "'NoneType' object has no attribute 'get'"

  /** What calling the one-parameter classmethod `_block_reason_str` with an argument raises. */
  const BlockReasonArityMsg := "GeminiTextGenTask._block_reason_str() takes 1 positional argument but 2 were given"

  /** `block_reason and block_reason != BLOCK_REASON_UNSPECIFIED`. */
  predicate Blocked(b: BlockReason) {
    b != Unspecified
  }

  /** The intended `_block_reason_str`: "SAFETY_CHECK_FAILED" for a safety block, "OTHER" for anything else. */
  function GeminiBlockReason(b: BlockReason): (r: string)
    ensures r == SafetyCode <==> b == Safety
    ensures r != SafetyCode ==> r == OtherCode
  {
    if b == Safety then SafetyCode else OtherCode
  }

  predicate IsStop(c: Candidate) {
    c.finishReason == StopFinish
  }

  /** Candidate `i` is the first one that stopped naturally. */
  predicate FirstStopAt(cands: seq<Candidate>, i: int) {
    && 0 <= i < |cands|
    && IsStop(cands[i])
    && forall j :: 0 <= j < i ==> !IsStop(cands[j])
  }

  /** Part `j` is the first one with non-empty text. */
  predicate FirstTextAt(parts: seq<string>, j: int) {
    && 0 <= j < |parts|
    && parts[j] != ""
    && forall k :: 0 <= k < j ==> parts[k] == ""
  }

  /**
   * The reply classified, with the intended block-reason codes: a blocked
   * prompt is reported before any candidate is looked at; then the first
   * candidate that stopped naturally must exist and have a part with text.
   */
  function ClassifyGemini(reply: GeminiReply): (r: Outcome<TaskOutput<GeminiReply>>)
    ensures Blocked(reply.blockReason) ==> r == Err(PromptBlocked(BlockedMsg, GeminiBlockReason(reply.blockReason)))
    ensures !Blocked(reply.blockReason) && (forall i :: 0 <= i < |reply.candidates| ==> !IsStop(reply.candidates[i])) ==>
      r == Err(TextGenFailed(TextGenFailedMsg, NoStopPoint))
    ensures r.Err? && r.error.PromptBlocked? <==> Blocked(reply.blockReason)
    ensures r.Ok? ==> r.value.raw == reply && r.value.content.Str? && r.value.content.s != ""
  {
    if Blocked(reply.blockReason) then Err(PromptBlocked(BlockedMsg, GeminiBlockReason(reply.blockReason)))
    else
      match First(reply.candidates, IsStop)
      case None => Err(TextGenFailed(TextGenFailedMsg, NoStopPoint))
      case Some(i) =>
        var parts := reply.candidates[i].parts;
        match First(parts, (p: string) => p != "")
        case None => Err(TextGenFailed(TextGenFailedMsg, NoTextData))
        case Some(j) => Ok(TaskOutput(Str(parts[j]), reply))
  }

  /** An unblocked reply whose first stopped candidate has a text part answers with the first such text. */
  lemma GeminiAnswerText(reply: GeminiReply, i: int, j: int)
    requires !Blocked(reply.blockReason)
    requires FirstStopAt(reply.candidates, i) && FirstTextAt(reply.candidates[i].parts, j)
    ensures ClassifyGemini(reply) == Ok(TaskOutput(Str(reply.candidates[i].parts[j]), reply))
  {
    var f := First(reply.candidates, IsStop);
    assert f == Some(i);
    var parts := reply.candidates[i].parts;
    var g := First(parts, (p: string) => p != "");
    assert g == Some(j);
  }

  /** An unblocked reply whose first stopped candidate has no text fails with "NO_TEXT_DATA", whatever later candidates hold. */
  lemma GeminiNoTextData(reply: GeminiReply, i: int)
    requires !Blocked(reply.blockReason) && FirstStopAt(reply.candidates, i)
    requires forall k :: 0 <= k < |reply.candidates[i].parts| ==> reply.candidates[i].parts[k] == ""
    ensures ClassifyGemini(reply) == Err(TextGenFailed(TextGenFailedMsg, NoTextData))
  {
    var f := First(reply.candidates, IsStop);
    assert f == Some(i);
  }

  /** `execute` as written: a blocked prompt reaches the bad classmethod call, which raises `TypeError`. */
  function ClassifyGeminiAsWritten(reply: GeminiReply): Outcome<TaskOutput<GeminiReply>> {
    if Blocked(reply.blockReason) then Err(TypeError(BlockReasonArityMsg))
    else ClassifyGemini(reply)
  }

  /**
   * The written code never raises `PromptBlockedError`: it agrees with the
   * intended classification exactly on the replies whose prompt was not
   * blocked, and raises `TypeError` on the others.
   */
  lemma GeminiBlockedNeverReported(reply: GeminiReply)
    ensures var r := ClassifyGeminiAsWritten(reply); !(r.Err? && r.error.PromptBlocked?)
    ensures ClassifyGeminiAsWritten(reply) == ClassifyGemini(reply) <==> !Blocked(reply.blockReason)
    ensures Blocked(reply.blockReason) ==> ClassifyGeminiAsWritten(reply) == Err(TypeError(BlockReasonArityMsg))
  {
  }

  /** A Gemini text task: the base task and its options, kept as given (`None` included). */
  datatype GeminiTask = GeminiTask(task: Task, options: Option<Opts>)

  /** `GeminiTextGenTask.__init__`: the name is checked; the options are not defaulted or coalesced. */
  function NewGeminiTask(name: string, id: nat, options: Option<Opts>): (r: Outcome<GeminiTask>)
    ensures r.Err? <==> NewTask(name, id).Err?
    ensures r.Ok? ==> r.value == GeminiTask(NewTask(name, id).value, options)
  {
    match NewTask(name, id)
    case Err(e) => Err(e)
    case Ok(t) => Ok(GeminiTask(t, options))
  }

  /** The default options: an empty dict. */
  function GeminiDefaults(): (d: Opts)
    ensures Valid(d) && d.values == map[]
  {
    Empty()
  }

  /** The default options send all three keywords, each as `None`. */
  lemma GeminiNoDefaults()
    ensures forall k :: k in GeminiTextGen(GeminiDefaults()).values <==> k in GeminiTextGenKeys
    ensures forall k :: Lookup(GeminiTextGen(GeminiDefaults()), k) == Null
  {
  }

  /** A Gemini task run: its outcome and the requests sent. */
  datatype GeminiRun = GeminiRun(outcome: Outcome<TaskOutput<GeminiReply>>, sent: seq<GeminiRequest>)

  /**
   * `GeminiTextGenTask.execute` with a given classification: non-string input
   * and `None` options both fail before any request; otherwise one user
   * message holding the input is sent with the option keywords.
   */
  function RunGemini(options: Option<Opts>, generate: GenerateContent, input: TaskInput,
                     classify: GeminiReply -> Outcome<TaskOutput<GeminiReply>>): (r: GeminiRun)
    ensures !input.content.Str? ==> r == GeminiRun(Err(ValueError(InputNotStrMsg)), [])
    ensures input.content.Str? && options.None? ==> r == GeminiRun(Err(AttributeError(NoneGetMsg)), [])
    ensures input.content.Str? && options.Some? ==>
      r.sent == [GeminiRequest([GeminiUser([input.content.s])], GeminiTextGen(options.value))]
    ensures |r.sent| == 1 ==> r.outcome == match generate(r.sent[0]) case Err(e) => Err(e) case Ok(reply) => classify(reply)
  {
    if !input.content.Str? then GeminiRun(Err(ValueError(InputNotStrMsg)), [])
    else if options.None? then GeminiRun(Err(AttributeError(NoneGetMsg)), [])
    else
      var req := GeminiRequest([GeminiUser([input.content.s])], GeminiTextGen(options.value));
      match generate(req)
      case Err(e) => GeminiRun(Err(e), [req])
      case Ok(reply) => GeminiRun(classify(reply), [req])
  }

  /** `execute` with the intended block-reason codes. */
  function GeminiExecute(t: GeminiTask, generate: GenerateContent, input: TaskInput): GeminiRun {
    RunGemini(t.options, generate, input, ClassifyGemini)
  }

  /** `execute` as written. */
  function GeminiExecuteAsWritten(t: GeminiTask, generate: GenerateContent, input: TaskInput): GeminiRun {
    RunGemini(t.options, generate, input, ClassifyGeminiAsWritten)
  }

  /** A string input with options present sends exactly one request, whose contents are one user message with the input. */
  lemma GeminiSendsOnce(t: GeminiTask, generate: GenerateContent, x: string)
    requires t.options.Some?
    ensures var r := GeminiExecute(t, generate, TaskInput(Str(x)));
      && |r.sent| == 1
      && r.sent[0].contents == [GeminiUser([x])]
      && (forall k :: k in r.sent[0].options.values <==> k in GeminiTextGenKeys)
  {
  }
}

=== FILE: jobs.dfy ===
/**
 * `SequentialJob` and `ConcurrentJob`: registration of tasks with their input
 * templates, the duplicate-name scan, and the execution of the registered
 * tasks against the job's memory.
 */
module Jobs {
  import opened Wrappers
  import opened PyValue
  import opened PyDict
  import opened Models
  import opened Tasks
  import opened Memory
  import opened Placeholders

  /** What was passed to `add_task`: a `Task`, or some other object, known by its Python type name. */
  datatype Candidate = IsTask(task: Task) | Foreign(typeName: string)

  /** `_JobTask`: the registered object and its input template (the signature admits `None`). */
  datatype JobTask = JobTask(cand: Candidate, template: Option<string>)

  datatype Job<R> = Job(tasks: seq<JobTask>, memory: JobMemory<R>)

  function NewJob<R>(): (j: Job<R>)
    ensures |j.tasks| == 0 && Memory.Valid(j.memory)
  {
    Job([], EmptyMemory())
  }

  const NotATaskError := TypeError("Only subclasses of `llmsmith.task.base.Task` are allowed as tasks")

  /** Reading `task.name()` from an object that is not a `Task`. */
  function NoNameError(typeName: string): Error {
    AttributeError("'" + typeName + "' object has no attribute 'name'")
  }

  function DuplicateNameError(name: string): Error {
    ValueError("Duplicate task name '" + name + "' present in the job")
  }

  /** Calling `.replace` on a `None` template. */
  const NoneTemplateError := AttributeError("'NoneType' object has no attribute 'replace'")

  predicate AllTasks(tasks: seq<JobTask>) {
    forall i :: 0 <= i < |tasks| ==> tasks[i].cand.IsTask?
  }

  /** Every entry is a `Task` and no two entries share a name. */
  predicate Registrable(tasks: seq<JobTask>) {
    && AllTasks(tasks)
    && (forall i, j :: 0 <= i < j < |tasks| ==> tasks[i].cand.task.name != tasks[j].cand.task.name)
  }

  /** No entry is a `Task` whose name is in `seen`. */
  predicate NamesAvoid(tasks: seq<JobTask>, seen: set<string>) {
    forall i :: 0 <= i < |tasks| && tasks[i].cand.IsTask? ==> tasks[i].cand.task.name !in seen
  }

  /** `_validate_task_names` from the point where the names in `seen` have been counted once. */
  function ScanNames(tasks: seq<JobTask>, seen: set<string>): Option<Error>
    decreases |tasks|
  {
    if |tasks| == 0 then None
    else match tasks[0].cand
      case Foreign(t) => Some(NoNameError(t))
      case IsTask(t) =>
        if t.name in seen then Some(DuplicateNameError(t.name))
        else ScanNames(tasks[1..], seen + {t.name})
  }

  /** `_validate_task_names`: the first problem met when scanning the list, if any. */
  function ValidateTaskNames(tasks: seq<JobTask>): Option<Error> {
    ScanNames(tasks, {})
  }

  lemma {:induction false} ScanNamesNoneIff(tasks: seq<JobTask>, seen: set<string>)
    ensures ScanNames(tasks, seen).None? <==> Registrable(tasks) && NamesAvoid(tasks, seen)
    decreases |tasks|
  {
    if |tasks| > 0 && tasks[0].cand.IsTask? && tasks[0].cand.task.name !in seen {
      var t := tasks[0].cand.task;
      var tl := tasks[1..];
      ScanNamesNoneIff(tl, seen + {t.name});
      if Registrable(tl) && NamesAvoid(tl, seen + {t.name}) {
        forall i | 0 <= i < |tasks|
          ensures tasks[i].cand.IsTask?
        {
          if i > 0 { assert tasks[i] == tl[i - 1]; }
        }
        forall i, j | 0 <= i < j < |tasks|
          ensures tasks[i].cand.task.name != tasks[j].cand.task.name
        {
          assert tasks[j] == tl[j - 1];
          if i > 0 { assert tasks[i] == tl[i - 1]; }
        }
        forall i | 0 <= i < |tasks| && tasks[i].cand.IsTask?
          ensures tasks[i].cand.task.name !in seen
        {
          if i > 0 { assert tasks[i] == tl[i - 1]; }
        }
      }
      if Registrable(tasks) && NamesAvoid(tasks, seen) {
        forall i | 0 <= i < |tl| && tl[i].cand.IsTask?
          ensures tl[i].cand.task.name !in seen + {t.name}
        {
          assert tl[i] == tasks[i + 1];
        }
        assert AllTasks(tl) by {
          forall i | 0 <= i < |tl|
            ensures tl[i].cand.IsTask?
          {
            assert tl[i] == tasks[i + 1];
          }
        }
        forall i, j | 0 <= i < j < |tl|
          ensures tl[i].cand.task.name != tl[j].cand.task.name
        {
          assert tl[i] == tasks[i + 1] && tl[j] == tasks[j + 1];
        }
      }
    } else if |tasks| > 0 && tasks[0].cand.IsTask? {
      assert !NamesAvoid(tasks, seen);
    } else if |tasks| > 0 {
      assert !AllTasks(tasks);
    }
  }

  /** The scan raises exactly when some entry is not a `Task` or some name occurs more than once. */
  lemma ValidateTaskNamesIff(tasks: seq<JobTask>)
    ensures ValidateTaskNames(tasks).None? <==> Registrable(tasks)
  {
    ScanNamesNoneIff(tasks, {});
  }

  /**
   * `SequentialJob.add_task`: the entry is appended first, then checked, so a
   * rejected registration stays in the job. The result is the job itself
   * (which callers chain on) together with the exception raised, if any.
   */
  datatype Added<R> = Added(job: Job<R>, raised: Option<Error>)

  function AddTask<R>(job: Job<R>, cand: Candidate, template: Option<string>): (r: Added<R>)
    ensures r.job.tasks == job.tasks + [JobTask(cand, template)]
    ensures r.job.memory == job.memory
    ensures r.raised.None? <==> Registrable(job.tasks + [JobTask(cand, template)])
    ensures cand.Foreign? ==> r.raised == Some(NotATaskError)
    ensures r.raised.Some? && cand.IsTask? ==> r.raised.value.ValueError? || r.raised.value.AttributeError?
  {
    var tasks := job.tasks + [JobTask(cand, template)];
    assert tasks[|tasks| - 1].cand == cand;
    ValidateTaskNamesIff(tasks);
    ScanNamesErrorKind(tasks, {});
    var j := job.(tasks := tasks);
    if cand.Foreign? then Added(j, Some(NotATaskError))
    else Added(j, ValidateTaskNames(tasks))
  }

  lemma {:induction false} ScanNamesErrorKind(tasks: seq<JobTask>, seen: set<string>)
    ensures ScanNames(tasks, seen).Some? ==> ScanNames(tasks, seen).value.ValueError? || ScanNames(tasks, seen).value.AttributeError?
    decreases |tasks|
  {
    if |tasks| > 0 && tasks[0].cand.IsTask? && tasks[0].cand.task.name !in seen {
      ScanNamesErrorKind(tasks[1..], seen + {tasks[0].cand.task.name});
    }
  }

  /** `add_task(task)` with the default template. */
  function AddTaskDefault<R>(job: Job<R>, cand: Candidate): (r: Added<R>)
    ensures r.job.tasks == job.tasks + [JobTask(cand, Some("{{root}}"))]
    ensures r.raised.None? <==> Registrable(r.job.tasks)
  {
    assert RootPlaceholder == "{{root}}";
    AddTask(job, cand, Some(RootPlaceholder))
  }

  /**
   * `ConcurrentJob.add_task`: the template is always the root placeholder, so
   * a job built only by it keeps every template the root placeholder, which is
   * what its concurrent run relies on.
   */
  function AddConcurrentTask<R>(job: Job<R>, cand: Candidate): (r: Added<R>)
    ensures |r.job.tasks| == |job.tasks| + 1 && r.job.tasks[..|job.tasks|] == job.tasks
    ensures r.job.tasks[|job.tasks|].cand == cand
    ensures r.job.tasks[|job.tasks|].template == Some(RootPlaceholder) && r.job.memory == job.memory
    ensures RootTemplates(job.tasks) <==> RootTemplates(r.job.tasks)
    ensures r.raised.None? <==> Registrable(r.job.tasks)
  {
    var r := AddTask(job, cand, Some(RootPlaceholder));
    assert r.job.tasks[..|job.tasks|] == job.tasks;
    r
  }

  /** Once a registration has raised, every later registration on that job raises too. */
  lemma OnceRaisedAlwaysRaises<R>(job: Job<R>, c1: Candidate, t1: Option<string>, c2: Candidate, t2: Option<string>)
    requires AddTask(job, c1, t1).raised.Some?
    ensures AddTask(AddTask(job, c1, t1).job, c2, t2).raised.Some?
  {
    var xs := job.tasks + [JobTask(c1, t1)];
    RegistrablePrefix(xs + [JobTask(c2, t2)], |xs|);
    assert (xs + [JobTask(c2, t2)])[..|xs|] == xs;
  }

  /** Dropping entries from the end keeps a list registrable. */
  lemma RegistrablePrefix(tasks: seq<JobTask>, n: nat)
    requires n <= |tasks|
    ensures Registrable(tasks) ==> Registrable(tasks[..n])
  {
  }

  /** Registering a sequence of `(candidate, template)` pairs, stopping at the first exception. */
  function RegisterAll<R>(job: Job<R>, regs: seq<(Candidate, Option<string>)>): Added<R>
    decreases |regs|
  {
    if |regs| == 0 then Added(job, None)
    else
      var a := AddTask(job, regs[0].0, regs[0].1);
      if a.raised.Some? then a else RegisterAll(a.job, regs[1..])
  }

  function Entries(regs: seq<(Candidate, Option<string>)>): (r: seq<JobTask>)
    ensures |r| == |regs|
    ensures forall i :: 0 <= i < |regs| ==> r[i] == JobTask(regs[i].0, regs[i].1)
  {
    seq(|regs|, i requires 0 <= i < |regs| => JobTask(regs[i].0, regs[i].1))
  }

  /**
   * Registering tasks with pairwise distinct names never raises, and the job's
   * task list is then exactly the registrations, in order.
   */
  lemma {:induction false} DistinctRegistrationsSucceed<R>(job: Job<R>, regs: seq<(Candidate, Option<string>)>)
    requires Registrable(job.tasks + Entries(regs))
    ensures RegisterAll(job, regs).raised.None?
    ensures RegisterAll(job, regs).job.tasks == job.tasks + Entries(regs)
    ensures RegisterAll(job, regs).job.memory == job.memory
    decreases |regs|
  {
    if |regs| > 0 {
      var all := job.tasks + Entries(regs);
      var first := job.tasks + [JobTask(regs[0].0, regs[0].1)];
      assert first == all[..|first|];
      assert Registrable(first) by {
        forall i | 0 <= i < |first|
          ensures first[i] == all[i]
        {
        }
      }
      var a := AddTask(job, regs[0].0, regs[0].1);
      assert a.job.tasks + Entries(regs[1..]) == all;
      DistinctRegistrationsSucceed(a.job, regs[1..]);
    }
  }

  /** The outcome of executing one registered task (`_JobTask.execute`). */
  datatype Step<R> = Step(memory: JobMemory<R>, ran: Option<(Task, TaskInput)>, raised: Option<Error>)

  /** A task's behaviour: given the task and its input, its output or the exception it raises. */
  type Executor<R> = (Task, TaskInput) -> Outcome<TaskOutput<R>>

  /**
   * `_JobTask.execute`: resolve the template against the memory as it stands,
   * store the input, run the task, and store the output only if it returned.
   */
  function ExecuteJobTask<R>(jt: JobTask, root: Value, m: JobMemory<R>, exec: Executor<R>): (r: Step<R>)
    requires Memory.Valid(m)
    ensures Memory.Valid(r.memory)
    ensures r.ran.None? ==> r.memory == m && r.raised.Some?
    ensures r.ran.Some? ==> jt.cand.IsTask? && r.ran.value.0 == jt.cand.task
  {
    if jt.template.None? then Step(m, None, Some(NoneTemplateError))
    else match Resolve(jt.template.value, root, m)
      case Err(e) => Step(m, None, Some(e))
      case Ok(s) =>
        match jt.cand
        case Foreign(tn) => Step(m, None, Some(NoNameError(tn)))
        case IsTask(t) =>
          var input := TaskInput(Str(s));
          var m1 := AddTaskInput(m, t.name, input);
          match exec(t, input)
          case Err(e) => Step(m1, Some((t, input)), Some(e))
          case Ok(out) => Step(AddTaskOutput(m1, t.name, out), Some((t, input)), None)
  }

  /**
   * What one execution does: a task starts exactly when it is a `Task` with a
   * template that resolves against the memory as it stands; its resolved input
   * is stored before it runs, and its output only if it returns. No other
   * task's entries change.
   */
  lemma ExecuteJobTaskEffects<R>(jt: JobTask, root: Value, m: JobMemory<R>, exec: Executor<R>)
    requires Memory.Valid(m)
    ensures var r := ExecuteJobTask(jt, root, m, exec);
      && (r.ran.Some? <==> jt.cand.IsTask? && jt.template.Some? && Resolve(jt.template.value, root, m).Ok?)
      && (r.ran.Some? ==> r.ran.value == (jt.cand.task, TaskInput(Str(Resolve(jt.template.value, root, m).value))))
    ensures var r := ExecuteJobTask(jt, root, m, exec);
      r.ran.Some? ==>
        var (t, input) := r.ran.value;
        && GetTaskInput(r.memory, t.name) == Some(input)
        && (forall k :: k != t.name ==> GetTaskInput(r.memory, k) == GetTaskInput(m, k))
        && (forall k :: k != t.name ==> GetTaskOutput(r.memory, k) == GetTaskOutput(m, k))
        && (exec(t, input).Err? ==> r.raised == Some(exec(t, input).error) && r.memory.outputs == m.outputs)
        && (exec(t, input).Ok? ==> r.raised.None? && GetTaskOutput(r.memory, t.name) == Some(exec(t, input).value))
  {
  }

  /** What a run leaves behind: the memory, the tasks that were started with their inputs, and the exception, if any. */
  datatype RunResult<R> = RunResult(memory: JobMemory<R>, executed: seq<(Task, TaskInput)>, raised: Option<Error>)

  /** One execution step, as the run loop sees it: a task and the memory as it stands. */
  type StepFn<!R> = (JobTask, JobMemory<R>) --> Step<R>

  /** A step that is defined on every valid memory, keeps it valid and only ever starts the task it is given. */
  ghost predicate GoodStep<R(!new)>(step: StepFn<R>) {
    forall jt, mem :: Memory.Valid(mem) ==>
      && step.requires(jt, mem)
      && Memory.Valid(step(jt, mem).memory)
      && (step(jt, mem).ran.Some? ==> jt.cand.IsTask? && step(jt, mem).ran.value.0 == jt.cand.task)
      && (step(jt, mem).ran.None? ==> step(jt, mem).raised.Some?)
  }

  /** The loop of `SequentialJob.run` over any step: one task after another, stopping at the first exception. */
  function RunWith<R(!new)>(tasks: seq<JobTask>, m: JobMemory<R>, step: StepFn<R>): (r: RunResult<R>)
    requires Memory.Valid(m) && GoodStep(step)
    ensures Memory.Valid(r.memory)
    ensures |r.executed| <= |tasks|
    ensures r.raised.None? ==> |r.executed| == |tasks|
    decreases |tasks|
  {
    if |tasks| == 0 then RunResult(m, [], None)
    else
      var st := step(tasks[0], m);
      var ran := if st.ran.Some? then [st.ran.value] else [];
      if st.raised.Some? then RunResult(st.memory, ran, st.raised)
      else
        var rest := RunWith(tasks[1..], st.memory, step);
        RunResult(rest.memory, ran + rest.executed, rest.raised)
  }

  /** What the loop does after a step: stop on an exception, otherwise go on with the rest. */
  function StepThen<R(!new)>(st: Step<R>, rest: seq<JobTask>, step: StepFn<R>): RunResult<R>
    requires Memory.Valid(st.memory) && GoodStep(step)
    requires st.raised.None? ==> st.ran.Some?
  {
    var ran := if st.ran.Some? then [st.ran.value] else [];
    if st.raised.Some? then RunResult(st.memory, ran, st.raised)
    else
      var r := RunWith(rest, st.memory, step);
      RunResult(r.memory, ran + r.executed, r.raised)
  }

  lemma RunWithCons<R(!new)>(tasks: seq<JobTask>, m: JobMemory<R>, step: StepFn<R>)
    requires Memory.Valid(m) && GoodStep(step) && |tasks| > 0
    ensures RunWith(tasks, m, step) == StepThen(step(tasks[0], m), tasks[1..], step)
  {
  }

  /** `_JobTask.execute` with the root input and the tasks' behaviour fixed. */
  function Executing<R(!new)>(root: Value, exec: Executor<R>): (step: StepFn<R>)
    ensures GoodStep(step)
    ensures forall jt, mem :: Memory.Valid(mem) ==> step(jt, mem) == ExecuteJobTask(jt, root, mem, exec)
  {
    (jt: JobTask, mem: JobMemory<R>) requires Memory.Valid(mem) => ExecuteJobTask(jt, root, mem, exec)
  }

  /** `SequentialJob.run`: the registered tasks one after another, stopping at the first exception. */
  function RunTasks<R(!new)>(tasks: seq<JobTask>, root: Value, m: JobMemory<R>, exec: Executor<R>): (r: RunResult<R>)
    requires Memory.Valid(m)
    ensures Memory.Valid(r.memory)
    ensures |r.executed| <= |tasks|
    ensures r.raised.None? ==> |r.executed| == |tasks|
  {
    RunWith(tasks, m, Executing(root, exec))
  }

  /** The first task's step, then the rest of the run on the memory it left. */
  lemma RunTasksCons<R(!new)>(tasks: seq<JobTask>, root: Value, m: JobMemory<R>, exec: Executor<R>)
    requires Memory.Valid(m) && |tasks| > 0
    ensures var st := ExecuteJobTask(tasks[0], root, m, exec);
      var r := RunTasks(tasks, root, m, exec);
      && (st.raised.Some? ==> r == RunResult(st.memory, if st.ran.Some? then [st.ran.value] else [], st.raised))
      && (st.raised.None? ==>
            var rest := RunTasks(tasks[1..], root, st.memory, exec);
            r == RunResult(rest.memory, [st.ran.value] + rest.executed, rest.raised))
  {
  }

  /** `SequentialJob.run` on a job: its memory keeps what the run wrote, including entries of earlier runs. */
  function Run<R(!new)>(job: Job<R>, root: Value, exec: Executor<R>): (r: (Job<R>, RunResult<R>))
    requires Memory.Valid(job.memory)
    ensures r.0.tasks == job.tasks && r.0.memory == r.1.memory
    ensures |r.1.executed| <= |job.tasks|
  {
    var res := RunTasks(job.tasks, root, job.memory, exec);
    (job.(memory := res.memory), res)
  }

  /** `Job.task_input`: the input stored under the key, `None` when there is none. */
  function JobTaskInput<R>(job: Job<R>, key: string): (r: Option<TaskInput>)
    ensures r.None? <==> key !in job.memory.inputs.values
    ensures r.Some? ==> r.value == job.memory.inputs.values[key]
  {
    GetTaskInput(job.memory, key)
  }

  /** `Job.task_output`: the output stored under the key, `None` when there is none. */
  function JobTaskOutput<R>(job: Job<R>, key: string): (r: Option<TaskOutput<R>>)
    ensures r.None? <==> key !in job.memory.outputs.values
    ensures r.Some? ==> r.value == job.memory.outputs.values[key]
  {
    GetTaskOutput(job.memory, key)
  }

  /** The tasks a run starts are the registered ones, in registration order, each of them a `Task`. */
  lemma {:induction false} RunWithStartsInOrder<R(!new)>(tasks: seq<JobTask>, m: JobMemory<R>, step: StepFn<R>)
    requires Memory.Valid(m) && GoodStep(step)
    ensures var r := RunWith(tasks, m, step);
      forall i :: 0 <= i < |r.executed| ==> tasks[i].cand.IsTask? && r.executed[i].0 == tasks[i].cand.task
    decreases |tasks|
  {
    if |tasks| > 0 {
      var st := step(tasks[0], m);
      RunWithCons(tasks, m, step);
      if st.raised.None? {
        RunWithStartsInOrder(tasks[1..], st.memory, step);
      }
    }
  }

  lemma RunStartsInOrder<R(!new)>(tasks: seq<JobTask>, root: Value, m: JobMemory<R>, exec: Executor<R>)
    requires Memory.Valid(m)
    ensures var r := RunTasks(tasks, root, m, exec);
      forall i :: 0 <= i < |r.executed| ==> tasks[i].cand.IsTask? && r.executed[i].0 == tasks[i].cand.task
  {
    RunWithStartsInOrder(tasks, m, Executing(root, exec));
  }

  /** A list is its first `k` entries followed by the rest. */
  lemma TakeDrop<T>(s: seq<T>, k: nat)
    requires k <= |s|
    ensures s[..k] + s[k..] == s
  {
  }

  /** Running `a + b` is running `a`, then (if nothing was raised) running `b` on the memory `a` left. */
  ghost predicate SplitHolds<R(!new)>(a: seq<JobTask>, b: seq<JobTask>, m: JobMemory<R>, step: StepFn<R>)
    requires Memory.Valid(m) && GoodStep(step)
  {
    var ra := RunWith(a, m, step);
    RunWith(a + b, m, step) ==
      if ra.raised.Some? then ra
      else
        var rb := RunWith(b, ra.memory, step);
        RunResult(rb.memory, ra.executed + rb.executed, rb.raised)
  }

  lemma {:induction false} RunWithSplit<R(!new)>(a: seq<JobTask>, b: seq<JobTask>, m: JobMemory<R>, step: StepFn<R>)
    requires Memory.Valid(m) && GoodStep(step)
    ensures SplitHolds(a, b, m, step)
    decreases |a|
  {
    if |a| == 0 {
      assert a + b == b;
    } else {
      var st := step(a[0], m);
      if st.raised.None? {
        RunWithSplit(a[1..], b, st.memory, step);
      }
      SplitStep(a, b, m, step);
    }
  }

  /** The inductive step of `RunWithSplit`: the split for `a` follows from the split for its tail. */
  lemma SplitStep<R(!new)>(a: seq<JobTask>, b: seq<JobTask>, m: JobMemory<R>, step: StepFn<R>)
    requires Memory.Valid(m) && GoodStep(step) && |a| > 0
    requires step(a[0], m).raised.None? ==> SplitHolds(a[1..], b, step(a[0], m).memory, step)
    ensures SplitHolds(a, b, m, step)
  {
    var st := step(a[0], m);
    var ran := if st.ran.Some? then [st.ran.value] else [];
    assert RunWith(a, m, step) == StepThen(st, a[1..], step) by {
      RunWithCons(a, m, step);
    }
    assert RunWith(a + b, m, step) == StepThen(st, a[1..] + b, step) by {
      assert (a + b)[0] == a[0];
      assert (a + b)[1..] == a[1..] + b;
      RunWithCons(a + b, m, step);
    }
    if st.raised.None? {
      var ta := RunWith(a[1..], st.memory, step);
      if ta.raised.None? {
        var rb := RunWith(b, ta.memory, step);
        assert ran + (ta.executed + rb.executed) == (ran + ta.executed) + rb.executed;
      }
    }
  }

  /** `RunWithSplit` for the job's own step. */
  lemma RunSplit<R(!new)>(a: seq<JobTask>, b: seq<JobTask>, root: Value, m: JobMemory<R>, exec: Executor<R>)
    requires Memory.Valid(m)
    ensures var ra := RunTasks(a, root, m, exec);
      RunTasks(a + b, root, m, exec) ==
        if ra.raised.Some? then ra
        else
          var rb := RunTasks(b, root, ra.memory, exec);
          RunResult(rb.memory, ra.executed + rb.executed, rb.raised)
  {
    RunWithSplit(a, b, m, Executing(root, exec));
    assert SplitHolds(a, b, m, Executing(root, exec));
  }

  /** The first task of a run that started any task was resolved against the memory the run began with. */
  lemma FirstStartedInput<R(!new)>(tasks: seq<JobTask>, root: Value, m: JobMemory<R>, exec: Executor<R>)
    requires Memory.Valid(m)
    requires |RunTasks(tasks, root, m, exec).executed| > 0
    ensures tasks[0].template.Some? && Resolve(tasks[0].template.value, root, m).Ok?
    ensures RunTasks(tasks, root, m, exec).executed[0].1 == TaskInput(Str(Resolve(tasks[0].template.value, root, m).value))
  {
    RunTasksCons(tasks, root, m, exec);
  }

  /** A prefix that raises ends the whole run with at most its own starts. */
  lemma PrefixRaisesWhole<R(!new)>(tasks: seq<JobTask>, root: Value, m: JobMemory<R>, exec: Executor<R>, i: nat)
    requires Memory.Valid(m) && i <= |tasks|
    ensures RunTasks(tasks[..i], root, m, exec).raised.Some? ==> |RunTasks(tasks, root, m, exec).executed| <= i
  {
    TakeDrop(tasks, i);
    RunSplit(tasks[..i], tasks[i..], root, m, exec);
  }

  /**
   * Task `i` is resolved against the memory exactly as the first `i` tasks of
   * this run left it (plus whatever earlier runs stored).
   */
  lemma TaskSeesEarlierTasks<R(!new)>(tasks: seq<JobTask>, root: Value, m: JobMemory<R>, exec: Executor<R>, i: nat)
    requires Memory.Valid(m)
    requires i < |RunTasks(tasks, root, m, exec).executed|
    ensures var before := RunTasks(tasks[..i], root, m, exec);
      && before.raised.None?
      && tasks[i].template.Some?
      && Resolve(tasks[i].template.value, root, before.memory).Ok?
      && RunTasks(tasks, root, m, exec).executed[i].1
         == TaskInput(Str(Resolve(tasks[i].template.value, root, before.memory).value))
  {
    var before := RunTasks(tasks[..i], root, m, exec);
    var rest := tasks[i..];
    var whole := RunTasks(tasks, root, m, exec);
    assert before.raised.None? by {
      PrefixRaisesWhole(tasks, root, m, exec, i);
    }
    var after := RunTasks(rest, root, before.memory, exec);
    assert whole.executed == before.executed + after.executed by {
      TakeDrop(tasks, i);
      SplitAfterSuccess(tasks[..i], rest, root, m, exec);
    }
    assert whole.executed[i] == after.executed[0];
    assert rest[0] == tasks[i];
    FirstStartedInput(rest, root, before.memory, exec);
  }

  /**
   * When task `k` raises, the tasks after it never start, its input stays
   * stored (if it got as far as starting), and no output is stored for it.
   */
  lemma FailureStopsRun<R(!new)>(tasks: seq<JobTask>, root: Value, m: JobMemory<R>, exec: Executor<R>, k: nat)
    requires Memory.Valid(m) && k < |tasks|
    requires RunTasks(tasks[..k], root, m, exec).raised.None?
    requires ExecuteJobTask(tasks[k], root, RunTasks(tasks[..k], root, m, exec).memory, exec).raised.Some?
    ensures var r := RunTasks(tasks, root, m, exec);
      && r == RunTasks(tasks[..k + 1], root, m, exec)
      && r.raised.Some?
      && |r.executed| <= k + 1
    ensures var before := RunTasks(tasks[..k], root, m, exec);
      var r := RunTasks(tasks, root, m, exec);
      && r.memory.outputs == before.memory.outputs
      && (|r.executed| == k + 1 ==> GetTaskInput(r.memory, r.executed[k].0.name) == Some(r.executed[k].1))
  {
    var before := RunTasks(tasks[..k], root, m, exec);
    FailureRun(tasks, root, m, exec, k);
    FailedStep(tasks[k], root, before.memory, exec);
  }

  /** The run of the whole list, and of its first `k + 1` tasks, when task `k` raises: the first `k` runs, then the failed step. */
  lemma FailureRun<R(!new)>(tasks: seq<JobTask>, root: Value, m: JobMemory<R>, exec: Executor<R>, k: nat)
    requires Memory.Valid(m) && k < |tasks|
    requires RunTasks(tasks[..k], root, m, exec).raised.None?
    requires ExecuteJobTask(tasks[k], root, RunTasks(tasks[..k], root, m, exec).memory, exec).raised.Some?
    ensures var before := RunTasks(tasks[..k], root, m, exec);
      var st := ExecuteJobTask(tasks[k], root, before.memory, exec);
      var ran := if st.ran.Some? then [st.ran.value] else [];
      && |before.executed| == k
      && RunTasks(tasks, root, m, exec) == RunResult(st.memory, before.executed + ran, st.raised)
      && RunTasks(tasks[..k + 1], root, m, exec) == RunResult(st.memory, before.executed + ran, st.raised)
  {
    FailureAt(tasks, root, m, exec, k);
    var prefix := tasks[..k + 1];
    assert prefix[..k] == tasks[..k] && prefix[k] == tasks[k];
    FailureAt(prefix, root, m, exec, k);
  }

  /** Running a list whose first `k` tasks raise nothing and whose task `k` raises: those `k` runs, then the failed step. */
  lemma FailureAt<R(!new)>(tasks: seq<JobTask>, root: Value, m: JobMemory<R>, exec: Executor<R>, k: nat)
    requires Memory.Valid(m) && k < |tasks|
    requires RunTasks(tasks[..k], root, m, exec).raised.None?
    requires ExecuteJobTask(tasks[k], root, RunTasks(tasks[..k], root, m, exec).memory, exec).raised.Some?
    ensures var before := RunTasks(tasks[..k], root, m, exec);
      var st := ExecuteJobTask(tasks[k], root, before.memory, exec);
      var ran := if st.ran.Some? then [st.ran.value] else [];
      RunTasks(tasks, root, m, exec) == RunResult(st.memory, before.executed + ran, st.raised)
  {
    var before := RunTasks(tasks[..k], root, m, exec);
    var st := ExecuteJobTask(tasks[k], root, before.memory, exec);
    var ran := if st.ran.Some? then [st.ran.value] else [];
    var rest := tasks[k..];
    var rb := RunTasks(rest, root, before.memory, exec);
    assert rb == RunResult(st.memory, ran, st.raised) by {
      assert rest[0] == tasks[k];
      FirstFails(rest, root, before.memory, exec);
    }
    assert RunTasks(tasks, root, m, exec) == RunResult(rb.memory, before.executed + rb.executed, rb.raised) by {
      TakeDrop(tasks, k);
      SplitAfterSuccess(tasks[..k], rest, root, m, exec);
    }
  }

  /** A run whose first task raises is that one step. */
  lemma FirstFails<R(!new)>(tasks: seq<JobTask>, root: Value, m: JobMemory<R>, exec: Executor<R>)
    requires Memory.Valid(m) && |tasks| > 0
    requires ExecuteJobTask(tasks[0], root, m, exec).raised.Some?
    ensures var st := ExecuteJobTask(tasks[0], root, m, exec);
      RunTasks(tasks, root, m, exec) == RunResult(st.memory, if st.ran.Some? then [st.ran.value] else [], st.raised)
  {
    RunTasksCons(tasks, root, m, exec);
  }

  /** Running `a + b` when `a` raises nothing: `a`'s starts, then `b`'s run on the memory `a` left. */
  lemma SplitAfterSuccess<R(!new)>(a: seq<JobTask>, b: seq<JobTask>, root: Value, m: JobMemory<R>, exec: Executor<R>)
    requires Memory.Valid(m)
    requires RunTasks(a, root, m, exec).raised.None?
    ensures var ra := RunTasks(a, root, m, exec);
      var rb := RunTasks(b, root, ra.memory, exec);
      RunTasks(a + b, root, m, exec) == RunResult(rb.memory, ra.executed + rb.executed, rb.raised)
  {
    RunSplit(a, b, root, m, exec);
  }

  /** A step that raises stores no output, and keeps the input of a task it started. */
  lemma FailedStep<R(!new)>(jt: JobTask, root: Value, m: JobMemory<R>, exec: Executor<R>)
    requires Memory.Valid(m)
    ensures var st := ExecuteJobTask(jt, root, m, exec);
      st.raised.Some? ==>
        && st.memory.outputs == m.outputs
        && (st.ran.Some? ==> GetTaskInput(st.memory, st.ran.value.0.name) == Some(st.ran.value.1))
  {
    ExecuteJobTaskEffects(jt, root, m, exec);
  }

  /**
   * After a run that raised nothing, over tasks with distinct names, each
   * task's stored output is what it returned for the input it was given.
   */
  lemma {:induction false} OutputsRetrievable<R(!new)>(tasks: seq<JobTask>, root: Value, m: JobMemory<R>, exec: Executor<R>, i: nat)
    requires Memory.Valid(m) && Registrable(tasks) && i < |tasks|
    requires RunTasks(tasks, root, m, exec).raised.None?
    ensures var r := RunTasks(tasks, root, m, exec);
      exec(r.executed[i].0, r.executed[i].1).Ok?
      && GetTaskOutput(r.memory, tasks[i].cand.task.name) == Some(exec(r.executed[i].0, r.executed[i].1).value)
    decreases |tasks|
  {
    var st := ExecuteJobTask(tasks[0], root, m, exec);
    ExecuteJobTaskEffects(tasks[0], root, m, exec);
    var tl := tasks[1..];
    assert forall a :: 0 <= a < |tl| ==> tl[a] == tasks[a + 1];
    var rest := RunTasks(tl, root, st.memory, exec);
    if i == 0 {
      EntriesUntouched(tl, root, st.memory, exec, tasks[0].cand.task.name);
    } else {
      OutputsRetrievable(tl, root, st.memory, exec, i - 1);
    }
  }

  /**
   * After a sequential run of a job whose tasks have distinct names and that
   * raised nothing, `task_output(name)` of each task is what it returned.
   */
  lemma SequentialOutputByName<R(!new)>(job: Job<R>, root: Value, exec: Executor<R>, i: nat)
    requires Memory.Valid(job.memory) && Registrable(job.tasks) && i < |job.tasks|
    requires Run(job, root, exec).1.raised.None?
    ensures var r := Run(job, root, exec);
      && exec(r.1.executed[i].0, r.1.executed[i].1).Ok?
      && JobTaskOutput(r.0, job.tasks[i].cand.task.name) == Some(exec(r.1.executed[i].0, r.1.executed[i].1).value)
  {
    OutputsRetrievable(job.tasks, root, job.memory, exec, i);
  }

  /** A run never writes the input or the output of a name that none of its tasks carries. */
  lemma {:induction false} EntriesUntouched<R(!new)>(tasks: seq<JobTask>, root: Value, m: JobMemory<R>, exec: Executor<R>, name: string)
    requires Memory.Valid(m)
    requires forall a :: 0 <= a < |tasks| && tasks[a].cand.IsTask? ==> tasks[a].cand.task.name != name
    ensures GetTaskOutput(RunTasks(tasks, root, m, exec).memory, name) == GetTaskOutput(m, name)
    ensures GetTaskInput(RunTasks(tasks, root, m, exec).memory, name) == GetTaskInput(m, name)
    decreases |tasks|
  {
    if |tasks| > 0 {
      var st := ExecuteJobTask(tasks[0], root, m, exec);
      ExecuteJobTaskEffects(tasks[0], root, m, exec);
      if st.raised.None? {
        var tl := tasks[1..];
        assert forall a :: 0 <= a < |tl| ==> tl[a] == tasks[a + 1];
        EntriesUntouched(tl, root, st.memory, exec, name);
      }
    }
  }

  /**
   * `Job.run` keeps the memory of earlier runs: whatever is stored under a
   * name that none of the job's tasks carries is still there afterwards.
   */
  lemma RunKeepsOtherEntries<R(!new)>(job: Job<R>, root: Value, exec: Executor<R>, name: string)
    requires Memory.Valid(job.memory)
    requires forall a :: 0 <= a < |job.tasks| && job.tasks[a].cand.IsTask? ==> job.tasks[a].cand.task.name != name
    ensures var j := Run(job, root, exec).0;
      JobTaskInput(j, name) == JobTaskInput(job, name) && JobTaskOutput(j, name) == JobTaskOutput(job, name)
  {
    EntriesUntouched(job.tasks, root, job.memory, exec, name);
  }

  /** Every stored input and output content is a string. */
  predicate StrMemory<R>(m: JobMemory<R>) {
    && (forall k :: k in m.inputs.values ==> m.inputs.values[k].content.Str?)
    && (forall k :: k in m.outputs.values ==> m.outputs.values[k].content.Str?)
  }

  lemma StrMemoryPairs<R>(m: JobMemory<R>)
    requires Memory.Valid(m) && StrMemory(m)
    ensures AllStr(InputPairs(m)) && AllStr(OutputPairs(m))
  {
    forall i | 0 <= i < |InputPairs(m)|
      ensures InputPairs(m)[i].1.Str?
    {
      assert m.inputs.keys[i] in m.inputs.values;
    }
    forall i | 0 <= i < |OutputPairs(m)|
      ensures OutputPairs(m)[i].1.Str?
    {
      assert m.outputs.keys[i] in m.outputs.values;
    }
  }

  /** Tasks whose outputs are always strings. */
  ghost predicate StrOutputs<R>(exec: Executor<R>) {
    forall t, input :: exec(t, input).Ok? ==> exec(t, input).value.content.Str?
  }

  /** One execution keeps every stored content a string when the task's output is one. */
  lemma StepKeepsStrMemory<R>(jt: JobTask, root: Value, m: JobMemory<R>, exec: Executor<R>)
    requires Memory.Valid(m) && StrMemory(m) && StrOutputs(exec)
    ensures StrMemory(ExecuteJobTask(jt, root, m, exec).memory)
  {
    var r := ExecuteJobTask(jt, root, m, exec);
    ExecuteJobTaskEffects(jt, root, m, exec);
    if r.ran.Some? {
      var (t, input) := r.ran.value;
      forall k | k in r.memory.inputs.values
        ensures r.memory.inputs.values[k].content.Str?
      {
        if k != t.name {
          assert GetTaskInput(r.memory, k) == GetTaskInput(m, k);
        }
      }
      forall k | k in r.memory.outputs.values
        ensures r.memory.outputs.values[k].content.Str?
      {
        if k != t.name {
          assert GetTaskOutput(r.memory, k) == GetTaskOutput(m, k);
        } else if exec(t, input).Err? {
          assert r.memory.outputs == m.outputs;
        }
      }
    }
  }

  predicate RootTemplates(tasks: seq<JobTask>) {
    forall i :: 0 <= i < |tasks| ==> tasks[i].template == Some(RootPlaceholder)
  }

  /**
   * With every template the root placeholder and a root input without `{{`,
   * every task that starts receives exactly the root input, whatever the
   * memory holds and in whatever order the tasks run.
   */
  lemma {:induction false} RootOnlyInputs<R(!new)>(tasks: seq<JobTask>, root: string, m: JobMemory<R>, exec: Executor<R>)
    requires Memory.Valid(m)
    requires RootTemplates(tasks)
    requires !Contains(root, "{{")
    ensures var r := RunTasks(tasks, Str(root), m, exec);
      forall i :: 0 <= i < |r.executed| ==> r.executed[i].1 == TaskInput(Str(root))
    decreases |tasks|
  {
    if |tasks| > 0 {
      var st := ExecuteJobTask(tasks[0], Str(root), m, exec);
      RootStep(tasks[0], root, m, exec);
      RunTasksCons(tasks, Str(root), m, exec);
      if st.raised.None? {
        var tl := tasks[1..];
        assert RootTemplates(tl) by {
          assert forall a :: 0 <= a < |tl| ==> tl[a] == tasks[a + 1];
        }
        RootOnlyInputs(tl, root, st.memory, exec);
        InputsCons(st.ran.value, RunTasks(tl, Str(root), st.memory, exec).executed, TaskInput(Str(root)));
      }
    }
  }

  /** A task with the root placeholder as its template, started with a root input without `{{`, receives the root input. */
  lemma RootStep<R(!new)>(jt: JobTask, root: string, m: JobMemory<R>, exec: Executor<R>)
    requires Memory.Valid(m)
    requires jt.template == Some(RootPlaceholder)
    requires !Contains(root, "{{")
    ensures var st := ExecuteJobTask(jt, Str(root), m, exec);
      st.ran.Some? ==> st.ran.value.1 == TaskInput(Str(root))
  {
    ResolveOkIff(RootPlaceholder, Str(root), m);
    if AllStr(InputPairs(m)) && AllStr(OutputPairs(m)) {
      RootOnly(root);
      SubstAllNoBraces(root, InputPairs(m), ".input");
      SubstAllNoBraces(root, OutputPairs(m), ".output");
    }
    ExecuteJobTaskEffects(jt, Str(root), m, exec);
  }

  /** Prepending a start with input `v` to starts that all had input `v`. */
  lemma InputsCons(x: (Task, TaskInput), xs: seq<(Task, TaskInput)>, v: TaskInput)
    requires x.1 == v
    requires forall j :: 0 <= j < |xs| ==> xs[j].1 == v
    ensures forall i :: 0 <= i < |[x] + xs| ==> ([x] + xs)[i].1 == v
  {
    forall i | 0 <= i < |[x] + xs|
      ensures ([x] + xs)[i].1 == v
    {
      if i > 0 {
        assert ([x] + xs)[i] == xs[i - 1];
      }
    }
  }

  /**
   * The order in which a `ConcurrentJob`'s tasks happen to run: a permutation
   * of their positions (every position exactly once).
   */
  predicate IsSchedule(order: seq<nat>, n: nat) {
    && |order| == n
    && (forall j :: 0 <= j < |order| ==> order[j] < n)
    && (forall j, k :: 0 <= j < k < |order| ==> order[j] != order[k])
    && (forall i :: 0 <= i < n ==> i in order)
  }

  /** Where task `i` sits in the schedule. */
  lemma PositionOf(order: seq<nat>, n: nat, i: nat) returns (j: nat)
    requires IsSchedule(order, n) && i < n
    ensures j < |order| && order[j] == i
  {
    assert i in order;
    j :| 0 <= j < |order| && order[j] == i;
  }

  function Scheduled(tasks: seq<JobTask>, order: seq<nat>): (r: seq<JobTask>)
    requires IsSchedule(order, |tasks|)
    ensures |r| == |tasks|
    ensures forall j :: 0 <= j < |order| ==> r[j] == tasks[order[j]]
  {
    seq(|order|, j requires 0 <= j < |order| => tasks[order[j]])
  }

  /**
   * `ConcurrentJob.run`, with each task's execution taken as one atomic step
   * and the interleaving given as `order`.
   */
  function RunConcurrent<R(!new)>(job: Job<R>, root: Value, exec: Executor<R>, order: seq<nat>): (r: (Job<R>, RunResult<R>))
    requires Memory.Valid(job.memory) && IsSchedule(order, |job.tasks|)
    ensures r.0.tasks == job.tasks && r.0.memory == r.1.memory
    ensures |r.1.executed| <= |job.tasks|
  {
    var res := RunTasks(Scheduled(job.tasks, order), root, job.memory, exec);
    (job.(memory := res.memory), res)
  }

  /**
   * In a `ConcurrentJob` (every template the root placeholder, names
   * distinct) whose root input has no `{{`, every task that starts receives
   * exactly the root input; after a run that raised nothing, each task's
   * output is found under its name, whatever order the tasks ran in.
   */
  lemma ConcurrentRunByName<R(!new)>(job: Job<R>, root: string, exec: Executor<R>, order: seq<nat>)
    requires Memory.Valid(job.memory)
    requires IsSchedule(order, |job.tasks|)
    requires RootTemplates(job.tasks) && Registrable(job.tasks)
    requires !Contains(root, "{{")
    ensures var r := RunConcurrent(job, Str(root), exec, order).1;
      forall j :: 0 <= j < |r.executed| ==> r.executed[j].1 == TaskInput(Str(root))
    ensures var r := RunConcurrent(job, Str(root), exec, order).1;
      r.raised.None? ==>
        forall i :: 0 <= i < |job.tasks| ==>
          var t := job.tasks[i].cand.task;
          exec(t, TaskInput(Str(root))).Ok?
          && GetTaskOutput(r.memory, t.name) == Some(exec(t, TaskInput(Str(root))).value)
  {
    var ts := Scheduled(job.tasks, order);
    var r := RunTasks(ts, Str(root), job.memory, exec);
    assert RunConcurrent(job, Str(root), exec, order).1 == r;
    assert RootTemplates(ts) && AllTasks(ts);
    RootOnlyInputs(ts, root, job.memory, exec);
    if r.raised.None? {
      forall i | 0 <= i < |job.tasks|
        ensures var t := job.tasks[i].cand.task;
          exec(t, TaskInput(Str(root))).Ok?
          && GetTaskOutput(r.memory, t.name) == Some(exec(t, TaskInput(Str(root))).value)
      {
        ScheduledOutput(job, root, exec, order, i);
      }
    }
  }

  /** One task of `ConcurrentRunByName`: found through its position in the schedule. */
  lemma ScheduledOutput<R(!new)>(job: Job<R>, root: string, exec: Executor<R>, order: seq<nat>, i: nat)
    requires Memory.Valid(job.memory)
    requires IsSchedule(order, |job.tasks|) && i < |job.tasks|
    requires RootTemplates(job.tasks) && Registrable(job.tasks)
    requires !Contains(root, "{{")
    requires RunTasks(Scheduled(job.tasks, order), Str(root), job.memory, exec).raised.None?
    ensures var r := RunTasks(Scheduled(job.tasks, order), Str(root), job.memory, exec);
      var t := job.tasks[i].cand.task;
      exec(t, TaskInput(Str(root))).Ok?
      && GetTaskOutput(r.memory, t.name) == Some(exec(t, TaskInput(Str(root))).value)
  {
    var ts := Scheduled(job.tasks, order);
    var r := RunTasks(ts, Str(root), job.memory, exec);
    var j := PositionOf(order, |job.tasks|, i);
    assert ts[j] == job.tasks[i];
    assert RootTemplates(ts) && AllTasks(ts) && Registrable(ts);
    RootOnlyInputs(ts, root, job.memory, exec);
    RunStartsInOrder(ts, Str(root), job.memory, exec);
    assert r.executed[j] == (job.tasks[i].cand.task, TaskInput(Str(root)));
    OutputsRetrievable(ts, Str(root), job.memory, exec, j);
  }
}

=== FILE: memory.dfy ===
/** `JobMemory`: the inputs and outputs of a job's tasks, keyed by task name, in insertion order. */
module Memory {
  import opened Wrappers
  import opened PyDict
  import opened Models

  datatype JobMemory<R> = JobMemory(inputs: Dict<string, TaskInput>, outputs: Dict<string, TaskOutput<R>>)

  predicate Valid<R>(m: JobMemory<R>) {
    PyDict.Valid(m.inputs) && PyDict.Valid(m.outputs)
  }

  function EmptyMemory<R>(): (m: JobMemory<R>)
    ensures Valid(m) && |m.inputs.keys| == 0 && |m.outputs.keys| == 0
  {
    JobMemory(Empty(), Empty())
  }

  /** `add_task_input`: an upsert into the inputs; the outputs are not touched. */
  function AddTaskInput<R>(m: JobMemory<R>, key: string, input: TaskInput): (r: JobMemory<R>)
    requires Valid(m)
    ensures Valid(r)
    ensures GetTaskInput(r, key) == Some(input)
    ensures forall k :: k != key ==> GetTaskInput(r, k) == GetTaskInput(m, k)
    ensures r.outputs == m.outputs
    ensures key in m.inputs.values ==> r.inputs.keys == m.inputs.keys
    ensures key !in m.inputs.values ==> r.inputs.keys == m.inputs.keys + [key]
  {
    m.(inputs := Put(m.inputs, key, input))
  }

  /** `add_task_output`: an upsert into the outputs; the inputs are not touched. */
  function AddTaskOutput<R>(m: JobMemory<R>, key: string, output: TaskOutput<R>): (r: JobMemory<R>)
    requires Valid(m)
    ensures Valid(r)
    ensures GetTaskOutput(r, key) == Some(output)
    ensures forall k :: k != key ==> GetTaskOutput(r, k) == GetTaskOutput(m, k)
    ensures r.inputs == m.inputs
    ensures key in m.outputs.values ==> r.outputs.keys == m.outputs.keys
    ensures key !in m.outputs.values ==> r.outputs.keys == m.outputs.keys + [key]
  {
    m.(outputs := Put(m.outputs, key, output))
  }

  /** `get_task_input`: `None` for a key never stored; it never raises. */
  function GetTaskInput<R>(m: JobMemory<R>, key: string): (r: Option<TaskInput>)
    ensures r.None? <==> key !in m.inputs.values
    ensures r.Some? ==> r.value == m.inputs.values[key]
  {
    Get(m.inputs, key)
  }

  /** `get_task_output`: `None` for a key never stored; it never raises. */
  function GetTaskOutput<R>(m: JobMemory<R>, key: string): (r: Option<TaskOutput<R>>)
    ensures r.None? <==> key !in m.outputs.values
    ensures r.Some? ==> r.value == m.outputs.values[key]
  {
    Get(m.outputs, key)
  }
}

=== FILE: models.dfy ===
/**
 * The records shared by tasks, jobs and agents: task input and output, the
 * provider-neutral chat response with its function calls, and the exceptions
 * the library raises.
 */
module Models {
  import opened Wrappers
  import opened PyValue
  import opened PyDict

  /** The exceptions raised by the library, and by code it calls, as values. */
  datatype Error =
    | ValueError(msg: string)
    | TypeError(msg: string)
    | AttributeError(msg: string)
    | KeyError(key: string)
    | IndexError(msg: string)
    /** `MaxTurnsReachedException`, whose message is always "Reached maximum number of turns" */
    | MaxTurnsReached
    /** `TextGenFailedError`, carrying its reason code */
    | TextGenFailed(msg: string, reason: string)
    /** `PromptBlockedError`, carrying its reason code */
    | PromptBlocked(msg: string, reason: string)
    /** whatever a task body, a tool callable or a provider SDK raises */
    | Raised(code: nat)

  type Outcome<T> = Result<T, Error>

  /** The `ValueError` message of every task and agent given non-string input. */
  const InputNotStrMsg := "task_input.content should be of type 'str'"

  /** The message of every `TextGenFailedError` the library raises. */
  const TextGenFailedMsg := "Failed to generate text"

  /** The failure reason when no candidate reply finished naturally. */
  const NoStopPoint := "NO_NATURAL_STOP_POINT"

  /** Keyword arguments of a tool call, already decoded from JSON. */
  type Args = map<string, Value>

  datatype TaskInput = TaskInput(content: Value)

  datatype TaskOutput<R> = TaskOutput(content: Value, raw: R)

  /** A function call requested by a model: its call id (if the provider has one), function name and arguments. */
  datatype FunctionCall = FunctionCall(id: Option<string>, name: Option<string>, args: Args)

  /**
   * A tool call as a provider reply lists it: call id, function name and the
   * arguments decoded from JSON (`None` when the argument string is empty).
   */
  datatype RequestedCall = RequestedCall(id: string, name: string, arguments: Option<Args>)

  /** `json.loads(arguments) if arguments else {}`. */
  function ArgsOf(c: RequestedCall): Args {
    c.arguments.GetOr(map[])
  }

  /** The items of a `function_calls` dict, in insertion order: each key with its call. */
  type CallItems = seq<(string, FunctionCall)>

  /** What a provider chat returns: text, the raw SDK response, and the requested calls (possibly `None`). */
  datatype ChatResponse<R> = ChatResponse(text: Option<string>, raw: R, functionCalls: Option<CallItems>)

  /** `if not response.function_calls`: absent or empty means a final answer. */
  predicate HasCalls<R>(r: ChatResponse<R>) {
    r.functionCalls.Some? && |r.functionCalls.value| > 0
  }

  /** The content of a `TaskOutput` built from an optional text: the string, or `None`. */
  function TextValue(t: Option<string>): (v: Value)
    ensures v.Str? <==> t.Some?
    ensures t.Some? ==> v == Str(t.value)
  {
    if t.Some? then Str(t.value) else Null
  }
}

=== FILE: options.dfy ===
/**
 * The option dictionaries handed to the provider SDKs. Each provider declares
 * its option names; the library copies the declared names out of the user's
 * options (absent ones as `None`), renames or drops `system_prompt`, injects
 * defaults for falsy values and, for Claude and Cohere, drops falsy entries.
 */
module Options {
  import opened Wrappers
  import opened PyValue
  import opened PyDict

  /** A keyword-option dictionary. */
  type Opts = Dict<string, Value>

  /** `options.get(attr)`: `None` for an absent key. */
  function Lookup(o: Opts, k: string): Value {
    Get(o, k).GetOr(Null)
  }

  /** `{attr: options.get(attr) for attr in declared}`. */
  function Project(declared: seq<string>, o: Opts): (r: Opts)
    ensures Valid(r)
    ensures forall k :: k in r.values <==> k in declared
    ensures forall k :: Lookup(r, k) == if k in declared then Lookup(o, k) else Null
  {
    var pairs := seq(|declared|, i requires 0 <= i < |declared| => (declared[i], Lookup(o, declared[i])));
    var r := FromPairs(pairs);
    forall k | k in declared
      ensures k in r.values && Lookup(r, k) == Lookup(o, k)
    {
      var i :| 0 <= i < |declared| && declared[i] == k;
      assert pairs[i].0 == k;
      FromPairsAgree(pairs, k, Lookup(o, k));
    }
    r
  }

  /** Every stored value is truthy. */
  predicate AllTruthy(d: Opts) {
    forall k :: k in d.values ==> Truthy(Lookup(d, k))
  }

  /** `if not opt.get(k): opt[k] = v`. */
  function DefaultIfFalsy(d: Opts, k: string, v: Value): (r: Opts)
    requires Valid(d)
    ensures Valid(r)
    ensures forall j :: j in r.values <==> j in d.values || j == k
    ensures Lookup(r, k) == (if Truthy(Lookup(d, k)) then Lookup(d, k) else v)
    ensures forall j :: j != k ==> Lookup(r, j) == Lookup(d, j)
    ensures AllTruthy(d) && Truthy(v) ==> AllTruthy(r)
  {
    if Truthy(Lookup(d, k)) then d else Put(d, k, v)
  }

  /** Two `if not opt.get(k): opt[k] = v` defaults in a row, for distinct names. */
  function DefaultsIfFalsy(d: Opts, k1: string, v1: Value, k2: string, v2: Value): (r: Opts)
    requires Valid(d) && k1 != k2
    ensures Valid(r)
    ensures forall j :: j in r.values <==> j in d.values || j == k1 || j == k2
    ensures Lookup(r, k1) == (if Truthy(Lookup(d, k1)) then Lookup(d, k1) else v1)
    ensures Lookup(r, k2) == (if Truthy(Lookup(d, k2)) then Lookup(d, k2) else v2)
    ensures forall j :: j != k1 && j != k2 ==> Lookup(r, j) == Lookup(d, j)
    ensures forall j :: Truthy(Lookup(d, j)) ==> Lookup(r, j) == Lookup(d, j)
    ensures AllTruthy(d) && Truthy(v1) && Truthy(v2) ==> AllTruthy(r)
  {
    DefaultIfFalsy(DefaultIfFalsy(d, k1, v1), k2, v2)
  }

  /** `if options.get("system_prompt"): opt[name] = options.get("system_prompt")`. */
  function RenameSystemPrompt(d: Opts, o: Opts, name: string): (r: Opts)
    requires Valid(d)
    ensures Valid(r)
    ensures forall j :: j in r.values <==> j in d.values || (j == name && Truthy(Lookup(o, SystemPromptKey)))
    ensures Truthy(Lookup(o, SystemPromptKey)) ==> Lookup(r, name) == Lookup(o, SystemPromptKey)
    ensures forall j :: j != name ==> Lookup(r, j) == Lookup(d, j)
  {
    if Truthy(Lookup(o, SystemPromptKey)) then Put(d, name, Lookup(o, SystemPromptKey)) else d
  }

  /** The library's own option that never reaches an SDK under its own name. */
  const SystemPromptKey := "system_prompt"

  /** The names of `declared` a falsy value is stored for in `d`. */
  function FalsyKeys(d: Opts, declared: seq<string>): set<string> {
    set k | k in declared && !Truthy(Lookup(d, k))
  }

  /** The declared names but `system_prompt`, copied from `o`. */
  function ProjectWithout(declared: seq<string>, o: Opts): (r: Opts)
    ensures Valid(r)
    ensures forall k :: k in r.values <==> k in declared && k != SystemPromptKey
    ensures forall k :: k in r.values ==> Lookup(r, k) == Lookup(o, k)
  {
    Project(Keep(declared, {SystemPromptKey}), o)
  }

  /** `for attr in declared: if not d.get(attr) and attr in d: del d[attr]`. */
  function DropFalsy(d: Opts, declared: seq<string>): (r: Opts)
    requires Valid(d)
    ensures Valid(r)
    ensures forall k :: k in r.values <==> k in d.values && (k !in declared || Truthy(Lookup(d, k)))
    ensures forall k :: Lookup(r, k) == if k in r.values then Lookup(d, k) else Null
  {
    Delete(d, FalsyKeys(d, declared))
  }

  /** `{attr: o.get(attr) for attr in declared if o.get(attr)}`. */
  function KeepTruthy(declared: seq<string>, o: Opts): (r: Opts)
    ensures Valid(r)
    ensures forall k :: k in r.values <==> k in declared && Truthy(Lookup(o, k))
    ensures forall k :: Lookup(r, k) == if k in r.values then Lookup(o, k) else Null
    ensures AllTruthy(r)
  {
    DropFalsy(Project(declared, o), declared)
  }

  /** `llm_options or default_options`: `None` and `{}` are falsy. */
  function OrDefault(o: Option<Opts>, default: Opts): (r: Opts)
    ensures o.Some? && o.value.values != map[] ==> r == o.value
    ensures o.None? || o.value.values == map[] ==> r == default
  {
    if o.None? || o.value.values == map[] then default else o.value
  }

  /**
   * The key of `opts` that a call `f(name=…, **opts)` also passes by name,
   * if any: Python rejects such a call with a `TypeError` before `f` runs.
   * With several, the first in `opts` order is reported.
   */
  function KwargsClash(named: seq<string>, opts: Opts): (r: Option<string>)
    requires Valid(opts)
    ensures r.None? <==> forall k :: k in named ==> k !in opts.values
    ensures r.Some? ==> r.value in named && r.value in opts.values
  {
    FirstNamed(opts.keys, named)
  }

  /** When at most the `i`-th name can be an option, the call clashes exactly when it is one, and on that name. */
  lemma ClashAt(named: seq<string>, opts: Opts, i: nat)
    requires Valid(opts) && i < |named|
    requires forall j :: 0 <= j < |named| && j != i ==> named[j] !in opts.values
    ensures KwargsClash(named, opts).Some? <==> named[i] in opts.values
    ensures KwargsClash(named, opts).Some? ==> KwargsClash(named, opts).value == named[i]
  {
    var r := KwargsClash(named, opts);
    if r.Some? {
      var j :| 0 <= j < |named| && named[j] == r.value;
    }
  }

  /** The first element of `keys` that occurs in `named`. */
  function FirstNamed(keys: seq<string>, named: seq<string>): (r: Option<string>)
    ensures r.None? <==> forall i :: 0 <= i < |keys| ==> keys[i] !in named
    ensures r.Some? ==> r.value in keys && r.value in named
  {
    if |keys| == 0 then None
    else if keys[0] in named then Some(keys[0])
    else
      var r := FirstNamed(keys[1..], named);
      assert forall i :: 1 <= i < |keys| ==> keys[i] == keys[1..][i - 1];
      r
  }

  /** The `TypeError` message for a keyword passed twice (the callee's name prefix left out). */
  function DuplicateKwargMsg(k: string): string {
    "got multiple values for keyword argument '" + k + "'"
  }

  // ---------------------------------------------------------------------------
  // Text generation

  const OpenAITextGenKeys := [
    "model", "system_prompt", "frequency_penalty", "function_call", "functions",
    "logit_bias", "logprobs", "max_tokens", "presence_penalty", "response_format",
    "seed", "stop", "temperature", "tool_choice", "tools", "top_logprobs", "top_p",
    "user", "timeout"]

  /** OpenAI chat completion: every declared name but `system_prompt`, copied as given; no defaults. */
  function OpenAITextGen(o: Opts): (r: Opts)
    ensures Valid(r)
    ensures forall k :: k in r.values <==> k in OpenAITextGenKeys && k != SystemPromptKey
    ensures forall k :: k in r.values ==> Lookup(r, k) == Lookup(o, k)
    ensures "tools" in r.values && "messages" !in r.values
  {
    assert "tools" in OpenAITextGenKeys && "messages" !in OpenAITextGenKeys;
    ProjectWithout(OpenAITextGenKeys, o)
  }

  const GroqTextGenKeys := [
    "model", "system_prompt", "frequency_penalty", "logit_bias", "logprobs",
    "max_tokens", "presence_penalty", "response_format", "seed", "stop",
    "temperature", "tool_choice", "top_logprobs", "top_p", "user", "timeout"]

  const GroqDefaultModel := Str("llama3-70b-8192")
  const GroqDefaultToolChoice := Str("auto")

  /**
   * Groq chat completion: every declared name but `system_prompt`; `model`
   * and `tool_choice` get defaults when falsy, the rest are copied as given.
   */
  function GroqTextGen(o: Opts): (r: Opts)
    ensures Valid(r)
    ensures forall k :: k in r.values <==> k in GroqTextGenKeys && k != SystemPromptKey
    ensures forall k :: k in r.values && k != "model" && k != "tool_choice" ==> Lookup(r, k) == Lookup(o, k)
    ensures Lookup(r, "model") == if Truthy(Lookup(o, "model")) then Lookup(o, "model") else GroqDefaultModel
    ensures Lookup(r, "tool_choice") == if Truthy(Lookup(o, "tool_choice")) then Lookup(o, "tool_choice") else GroqDefaultToolChoice
    ensures "tools" !in r.values && "messages" !in r.values
  {
    GroqKeyFacts();
    var p := ProjectWithout(GroqTextGenKeys, o);
    DefaultsIfFalsy(p, "model", GroqDefaultModel, "tool_choice", GroqDefaultToolChoice)
  }

  lemma GroqKeyFacts()
    ensures "tools" !in GroqTextGenKeys && "messages" !in GroqTextGenKeys
    ensures "model" in GroqTextGenKeys && "tool_choice" in GroqTextGenKeys && SystemPromptKey in GroqTextGenKeys
  {
  }

  const ClaudeTextGenKeys := [
    "model", "system", "max_tokens", "metadata", "stop_sequences", "temperature",
    "top_k", "top_p", "extra_headers", "extra_query", "extra_body", "timeout"]

  const ClaudeDefaultModel := Str("claude-3-opus-20240229")
  const ClaudeDefaultMaxTokens := Int(1024)

  /**
   * Claude messages: only the declared names with a truthy value, then
   * `model` and `max_tokens` added with their defaults when missing.
   */
  function ClaudeTextGen(o: Opts): (r: Opts)
    ensures Valid(r)
    ensures forall k :: k in r.values <==> (k in ClaudeTextGenKeys && Truthy(Lookup(o, k))) || k == "model" || k == "max_tokens"
    ensures AllTruthy(r)
    ensures forall k :: k in ClaudeTextGenKeys && Truthy(Lookup(o, k)) ==> Lookup(r, k) == Lookup(o, k)
  {
    var kept := KeepTruthy(ClaudeTextGenKeys, o);
    assert Truthy(ClaudeDefaultModel) && Truthy(ClaudeDefaultMaxTokens);
    DefaultsIfFalsy(kept, "model", ClaudeDefaultModel, "max_tokens", ClaudeDefaultMaxTokens)
  }

  /** A falsy or missing `model` or `max_tokens` is replaced by its default. */
  lemma ClaudeDefaults(o: Opts)
    ensures !Truthy(Lookup(o, "model")) ==> Lookup(ClaudeTextGen(o), "model") == ClaudeDefaultModel
    ensures !Truthy(Lookup(o, "max_tokens")) ==> Lookup(ClaudeTextGen(o), "max_tokens") == ClaudeDefaultMaxTokens
  {
  }

  /** The Cohere names in declaration order; `model`, declared twice, counts once. */
  const CohereTextGenKeys := [
    "model", "system_prompt", "conversation_id", "prompt_truncation", "connectors",
    "search_queries_only", "documents", "temperature", "max_tokens",
    "max_input_tokens", "k", "p", "seed", "stop_sequences", "frequency_penalty",
    "presence_penalty", "raw_prompting", "request_options"]

  const CohereDefaultModel := Str("command-r-plus")

  /** The model Cohere is asked for: the given one unless it is falsy or the SDK's `OMIT`. */
  function CohereModel(o: Opts): Value {
    var m := Lookup(o, "model");
    if !Truthy(m) || m == Omit then CohereDefaultModel else m
  }

  /**
   * The shape of the Cohere merge for any declared names: `system_prompt`
   * dropped, `model` set, `system_prompt` renamed when truthy, and then every
   * declared name with a falsy value deleted.
   */
  function RenamedAndSparse(declared: seq<string>, o: Opts, modelKey: string, model: Value, renameTo: string): (r: Opts)
    requires Truthy(model) && renameTo !in declared && renameTo != modelKey
    requires modelKey != SystemPromptKey && renameTo != SystemPromptKey
    ensures Valid(r)
    ensures SystemPromptKey !in r.values
    ensures Lookup(r, modelKey) == model
    ensures renameTo in r.values <==> Truthy(Lookup(o, SystemPromptKey))
    ensures renameTo in r.values ==> Lookup(r, renameTo) == Lookup(o, SystemPromptKey)
    ensures forall k :: k in declared && k != modelKey && k != SystemPromptKey ==> (k in r.values <==> Truthy(Lookup(o, k)))
    ensures forall k :: k in r.values && k != modelKey && k != renameTo ==> Lookup(r, k) == Lookup(o, k)
    ensures forall k :: k in r.values ==> k in declared || k == modelKey || k == renameTo
  {
    DropFalsy(ModelAndRename(declared, o, modelKey, model, renameTo), declared)
  }

  /** The first two steps of `RenamedAndSparse`: `system_prompt` dropped, `model` set, `system_prompt` renamed. */
  function ModelAndRename(declared: seq<string>, o: Opts, modelKey: string, model: Value, renameTo: string): (r: Opts)
    requires renameTo != modelKey
    ensures Valid(r)
    ensures forall k :: k in r.values <==>
      (k in declared && k != SystemPromptKey) || k == modelKey || (k == renameTo && Truthy(Lookup(o, SystemPromptKey)))
    ensures Lookup(r, modelKey) == model
    ensures Truthy(Lookup(o, SystemPromptKey)) ==> Lookup(r, renameTo) == Lookup(o, SystemPromptKey)
    ensures forall k :: k != modelKey && k != renameTo && k in r.values ==> Lookup(r, k) == Lookup(o, k)
  {
    var p := ProjectWithout(declared, o);
    RenameSystemPrompt(Put(p, modelKey, model), o, renameTo)
  }

  /**
   * Cohere chat: the declared names but `system_prompt`, `model` defaulted,
   * `preamble` taken from a truthy `system_prompt`, and then every declared
   * name with a falsy value deleted.
   */
  function CohereTextGen(o: Opts): (r: Opts)
    ensures Valid(r)
    ensures SystemPromptKey !in r.values
    ensures Lookup(r, "model") == CohereModel(o)
    ensures "preamble" in r.values <==> Truthy(Lookup(o, SystemPromptKey))
    ensures "preamble" in r.values ==> Lookup(r, "preamble") == Lookup(o, SystemPromptKey)
    ensures forall k :: k in CohereTextGenKeys && k != "model" && k != SystemPromptKey ==>
      (k in r.values <==> Truthy(Lookup(o, k)))
    ensures forall k :: k in r.values && k != "model" && k != "preamble" ==> Lookup(r, k) == Lookup(o, k)
    ensures forall k :: k in r.values ==> k in CohereTextGenKeys || k == "model" || k == "preamble"
    ensures "conversation_id" in r.values <==> Truthy(Lookup(o, "conversation_id"))
    ensures "message" !in r.values && "chat_history" !in r.values && "tools" !in r.values && "tool_results" !in r.values
  {
    CohereKeyFacts();
    CohereNamedAbsent();
    CohereToolsAbsent();
    RenamedAndSparse(CohereTextGenKeys, o, "model", CohereModel(o), "preamble")
  }

  lemma CohereKeyFacts()
    ensures "preamble" !in CohereTextGenKeys && Truthy(CohereDefaultModel)
    ensures "conversation_id" in CohereTextGenKeys && "temperature" in CohereTextGenKeys
  {
  }

  /** None of the names Cohere's `chat` passes explicitly besides `conversation_id` is a declared option. */
  lemma CohereNamedAbsent()
    ensures "message" !in CohereTextGenKeys && "chat_history" !in CohereTextGenKeys
  {
  }

  lemma CohereToolsAbsent()
    ensures "tools" !in CohereTextGenKeys && "tool_results" !in CohereTextGenKeys
  {
  }

  const GeminiTextGenKeys := ["generation_config", "safety_settings", "request_options"]

  /** Gemini: exactly the three declared names, copied as given; no defaults. */
  function GeminiTextGen(o: Opts): (r: Opts)
    ensures Valid(r)
    ensures forall k :: k in r.values <==> k in GeminiTextGenKeys
    ensures forall k :: k in r.values ==> Lookup(r, k) == Lookup(o, k)
  {
    Project(GeminiTextGenKeys, o)
  }

  // ---------------------------------------------------------------------------
  // OpenAI assistant

  const AssistantKeys := [
    "model", "description", "system_prompt", "metadata", "name", "response_format",
    "temperature", "tool_resources", "top_p", "extra_headers", "extra_query",
    "extra_body", "timeout"]

  const AssistantDefaultModel := Str("gpt-4-turbo")

  /** `if not options: options = {}`: only `None` changes, since an empty dict is already `{}`. */
  function OrEmpty(o: Option<Opts>): (r: Opts)
    ensures forall k :: Lookup(r, k) == if o.Some? then Lookup(o.value, k) else Null
  {
    if o.None? then Empty() else o.value
  }

  /**
   * Assistant creation: the declared names but `system_prompt`, which becomes
   * `instructions` when truthy; `model` defaults when falsy.
   */
  function AssistantCreate(o: Option<Opts>): (r: Opts)
    ensures Valid(r)
    ensures forall k :: k in r.values <==>
      (k in AssistantKeys && k != SystemPromptKey) || (k == "instructions" && Truthy(Lookup(OrEmpty(o), SystemPromptKey)))
    ensures forall k :: k in r.values && k != "model" && k != "instructions" ==> Lookup(r, k) == Lookup(OrEmpty(o), k)
    ensures "instructions" in r.values ==> Lookup(r, "instructions") == Lookup(OrEmpty(o), SystemPromptKey)
    ensures Lookup(r, "model") == if Truthy(Lookup(OrEmpty(o), "model")) then Lookup(OrEmpty(o), "model") else AssistantDefaultModel
  {
    AssistantKeyFacts();
    var options := OrEmpty(o);
    var p := ProjectWithout(AssistantKeys, options);
    var named := RenameSystemPrompt(p, options, "instructions");
    assert Lookup(named, "model") == Lookup(options, "model");
    DefaultIfFalsy(named, "model", AssistantDefaultModel)
  }

  lemma AssistantKeyFacts()
    ensures "model" in AssistantKeys && "instructions" !in AssistantKeys
  {
  }

  // ---------------------------------------------------------------------------
  // Vector-store queries

  const QdrantKeys := [
    "query_filter", "search_params", "limit", "offset", "with_vectors",
    "score_threshold", "consistency", "shard_key_selector", "timeout"]

  const DefaultLimit := Int(10)

  /** Qdrant search: the declared names, `with_payload` always true, `limit` 10 when falsy. */
  function QdrantQuery(o: Opts): (r: Opts)
    ensures Valid(r)
    ensures forall k :: k in r.values <==> k in QdrantKeys || k == "with_payload"
    ensures Lookup(r, "with_payload") == Bool(true)
    ensures Lookup(r, "limit") == if Truthy(Lookup(o, "limit")) then Lookup(o, "limit") else DefaultLimit
    ensures forall k :: k in r.values && k != "limit" && k != "with_payload" ==> Lookup(r, k) == Lookup(o, k)
  {
    assert "limit" in QdrantKeys;
    var p := Project(QdrantKeys, o);
    DefaultIfFalsy(Put(p, "with_payload", Bool(true)), "limit", DefaultLimit)
  }

  const PineconeKeys := ["top_k", "namespace", "filter", "include_values", "sparse_vector"]

  /** Pinecone query: the five declared names; `top_k` 10 and `include_values` false when falsy. */
  function PineconeQuery(o: Opts): (r: Opts)
    ensures Valid(r)
    ensures forall k :: k in r.values <==> k in PineconeKeys
    ensures Lookup(r, "top_k") == if Truthy(Lookup(o, "top_k")) then Lookup(o, "top_k") else DefaultLimit
    ensures Lookup(r, "include_values") == if Truthy(Lookup(o, "include_values")) then Lookup(o, "include_values") else Bool(false)
    ensures forall k :: k in r.values && k != "top_k" && k != "include_values" ==> Lookup(r, k) == Lookup(o, k)
  {
    var p := Project(PineconeKeys, o);
    DefaultsIfFalsy(p, "top_k", DefaultLimit, "include_values", Bool(false))
  }

  const PgVectorKeys := ["limit", "where", "distance_function"]

  /** PgVector query: `limit` 10 and `distance_function` "cosine" when falsy; `where` copied. */
  function PgVectorQuery(o: Opts): (r: Opts)
    ensures Valid(r)
    ensures forall k :: k in r.values <==> k in PgVectorKeys
    ensures Lookup(r, "limit") == if Truthy(Lookup(o, "limit")) then Lookup(o, "limit") else DefaultLimit
    ensures Lookup(r, "distance_function") ==
      if Truthy(Lookup(o, "distance_function")) then Lookup(o, "distance_function") else Str("cosine")
    ensures forall k :: k in r.values && k != "limit" && k != "distance_function" ==> Lookup(r, k) == Lookup(o, k)
  {
    var p := Project(PgVectorKeys, o);
    DefaultsIfFalsy(p, "limit", DefaultLimit, "distance_function", Str("cosine"))
  }

  const ChromaKeys := ["n_results", "where", "where_document"]

  /** ChromaDB query: `n_results` 10 when falsy (0 included); `where` and `where_document` copied. */
  function ChromaQuery(o: Opts): (r: Opts)
    ensures Valid(r)
    ensures forall k :: k in r.values <==> k in ChromaKeys
    ensures Lookup(r, "n_results") == if Truthy(Lookup(o, "n_results")) then Lookup(o, "n_results") else DefaultLimit
    ensures forall k :: k in r.values && k != "n_results" ==> Lookup(r, k) == Lookup(o, k)
  {
    DefaultIfFalsy(Project(ChromaKeys, o), "n_results", DefaultLimit)
  }

  // ---------------------------------------------------------------------------
  // Reranker

  const RerankerKeys := ["model", "top_n", "rank_fields", "return_documents", "max_chunks_per_doc", "request_options"]

  const RerankerDefaultModel := Str("rerank-english-v2.0")

  /** Cohere rerank: `None` options read as `{}`; the declared names, `model` defaulted when falsy. */
  function RerankerOptions(o: Option<Opts>): (r: Opts)
    ensures Valid(r)
    ensures forall k :: k in r.values <==> k in RerankerKeys
    ensures Lookup(r, "model") == if Truthy(Lookup(OrEmpty(o), "model")) then Lookup(OrEmpty(o), "model") else RerankerDefaultModel
    ensures forall k :: k in r.values && k != "model" ==> Lookup(r, k) == Lookup(OrEmpty(o), k)
  {
    DefaultIfFalsy(Project(RerankerKeys, OrEmpty(o)), "model", RerankerDefaultModel)
  }
}

=== FILE: payload.dfy ===
/**
 * The message lists sent to the chat APIs (OpenAI and Groq chat completion,
 * Gemini content generation), and the system-prompt insertion the OpenAI and
 * Groq `chat` performs.
 */
module Payload {
  import opened Wrappers
  import opened PyValue
  import opened Models

  /** One entry of an assistant message's `tool_calls`: call id, function name and arguments. */
  datatype ToolCallEntry = ToolCallEntry(id: string, name: Option<string>, args: Args)

  /** A chat message, by role. */
  datatype Message =
    | UserMsg(content: string)
    | SystemMsg(content: string)
    | AssistantCalls(calls: seq<ToolCallEntry>)
    | ToolMsg(callId: string, name: Option<string>, content: string)

  /** A Gemini conversation entry. */
  datatype GeminiMsg =
    | GeminiUser(parts: seq<string>)
    | FunctionCallMsg(name: string, args: Args)
    | FunctionResponseMsg(name: string, result: Value)

  /** `next((msg for msg in payload if msg.get("role") == "system"), None)` is not `None`. */
  predicate HasSystem(payload: seq<Message>) {
    exists i :: 0 <= i < |payload| && payload[i].SystemMsg?
  }

  /** `(llm_options.get("system_prompt") or "").strip()`. */
  function SystemPrompt(option: Option<string>): string {
    Strip(option.GetOr(""))
  }

  /**
   * The payload as `chat` sends it: the stripped system prompt is appended at
   * the END, and only when it is non-empty and no system message is present.
   */
  function WithSystemPrompt(payload: seq<Message>, option: Option<string>): (r: seq<Message>)
    ensures |payload| <= |r| <= |payload| + 1 && r[..|payload|] == payload
    ensures |r| == |payload| + 1 <==> |SystemPrompt(option)| > 0 && !HasSystem(payload)
    ensures |r| == |payload| + 1 ==> r[|payload|] == SystemMsg(SystemPrompt(option))
    ensures |SystemPrompt(option)| > 0 ==> HasSystem(r)
  {
    var sp := SystemPrompt(option);
    if |sp| > 0 && !HasSystem(payload) then
      var r := payload + [SystemMsg(sp)];
      assert r[|payload|].SystemMsg?;
      r
    else payload
  }

  /** Once a system message is present, appending messages and preparing again adds nothing. */
  lemma {:induction false} SystemPromptOnce(payload: seq<Message>, more: seq<Message>, option: Option<string>)
    ensures var p := WithSystemPrompt(payload, option);
      WithSystemPrompt(p + more, option) == p + more
  {
    var p := WithSystemPrompt(payload, option);
    if |SystemPrompt(option)| > 0 {
      var i :| 0 <= i < |p| && p[i].SystemMsg?;
      assert (p + more)[i] == p[i];
    }
  }

  /** Preparing a payload twice is preparing it once: repeated `chat` calls add the prompt at most once. */
  lemma SystemPromptIdempotent(payload: seq<Message>, option: Option<string>)
    ensures WithSystemPrompt(WithSystemPrompt(payload, option), option) == WithSystemPrompt(payload, option)
  {
    SystemPromptOnce(payload, [], option);
    assert WithSystemPrompt(payload, option) + [] == WithSystemPrompt(payload, option);
  }
}

=== FILE: placeholders.dfy ===
/**
 * Resolution of a job task's input template: `{{root}}` becomes the job's
 * input, then `{{<key>.input}}` for every stored input and `{{<key>.output}}`
 * for every stored output, in the memory's insertion order, each replacement
 * applied to the previous step's result.
 */
module Placeholders {
  import opened Wrappers
  import opened PyValue
  import opened PyDict
  import opened Models
  import opened Memory

  /** `p` occurs in `s` starting at index `i`. */
  predicate OccursAt(s: string, p: string, i: int) {
    0 <= i && i + |p| <= |s| && s[i..i + |p|] == p
  }

  predicate Contains(s: string, p: string) {
    exists i :: 0 <= i <= |s| && OccursAt(s, p, i)
  }

  /**
   * Python's `s.replace(pat, rep)`: scanning left to right, every
   * non-overlapping occurrence of `pat` is replaced by `rep`; the text that
   * `rep` inserts is not scanned again. (Every pattern the resolver uses is at
   * least eight characters long, so the empty-pattern case of Python is not needed.)
   */
  function Replace(s: string, pat: string, rep: string): (r: string)
    requires |pat| > 0
    ensures rep == pat ==> r == s
    ensures |s| < |pat| ==> r == s
    decreases |s|
  {
    if |s| < |pat| then s
    else if s[..|pat|] == pat then rep + Replace(s[|pat|..], pat, rep)
    else [s[0]] + Replace(s[1..], pat, rep)
  }

  /** Where the pattern does not occur, the string comes back unchanged. */
  lemma {:induction false} ReplaceAbsent(s: string, pat: string, rep: string)
    requires |pat| > 0 && !Contains(s, pat)
    ensures Replace(s, pat, rep) == s
    decreases |s|
  {
    if |s| >= |pat| {
      assert !OccursAt(s, pat, 0);
      assert !Contains(s[1..], pat) by {
        forall i | OccursAt(s[1..], pat, i)
          ensures OccursAt(s, pat, i + 1)
        {
          assert s[1..][i..i + |pat|] == s[i + 1..i + 1 + |pat|];
        }
      }
      ReplaceAbsent(s[1..], pat, rep);
    }
  }

  /** Characters before the first place the pattern could match are copied as they are. */
  lemma {:induction false} ReplaceCopies(s: string, pat: string, rep: string, n: nat)
    requires |pat| > 0 && n <= |s|
    requires forall j :: 0 <= j < n ==> !OccursAt(s, pat, j)
    ensures Replace(s, pat, rep) == s[..n] + Replace(s[n..], pat, rep)
    decreases n
  {
    if n > 0 && |s| >= |pat| {
      assert !OccursAt(s, pat, 0);
      forall j | 0 <= j < n - 1
        ensures !OccursAt(s[1..], pat, j)
      {
        if OccursAt(s[1..], pat, j) {
          assert s[1..][j..j + |pat|] == s[j + 1..j + 1 + |pat|];
          assert OccursAt(s, pat, j + 1);
        }
      }
      ReplaceCopies(s[1..], pat, rep, n - 1);
      assert s[1..][n - 1..] == s[n..];
      assert [s[0]] + s[1..][..n - 1] == s[..n];
    }
  }

  /**
   * An occurrence of the pattern with no match starting before it is
   * replaced: the text before it is copied, `rep` takes its place, and the
   * scan goes on after it.
   */
  lemma ReplaceSplit(a: string, pat: string, b: string, rep: string)
    requires |pat| > 0
    requires forall j :: 0 <= j < |a| ==> !OccursAt(a + pat + b, pat, j)
    ensures Replace(a + pat + b, pat, rep) == a + rep + Replace(b, pat, rep)
  {
    var s := a + pat + b;
    ReplaceCopies(s, pat, rep, |a|);
    assert s[..|a|] == a;
    var t := s[|a|..];
    assert t == pat + b;
    assert t[..|pat|] == pat;
    assert t[|pat|..] == b;
  }

  /** A placeholder `{{x}}`. */
  function Token(x: string): string {
    "{{" + x + "}}"
  }

  const RootPlaceholder := Token("root")

  function InputPlaceholder(key: string): string {
    Token(key + ".input")
  }

  function OutputPlaceholder(key: string): string {
    Token(key + ".output")
  }

  /** Contains neither `{` nor `}`. */
  predicate BraceFree(x: string) {
    forall i :: 0 <= i < |x| ==> x[i] != '{' && x[i] != '}'
  }

  /** In a placeholder of a brace-free name, `{` appears only in the first two places and `}` only in the last two. */
  lemma TokenBraces(x: string)
    requires BraceFree(x)
    ensures var t := Token(x);
      && |t| == |x| + 4
      && (forall k :: 0 <= k < |t| && t[k] == '{' ==> k < 2)
      && (forall k :: 0 <= k < |t| && t[k] == '}' ==> k >= |t| - 2)
  {
    var t := Token(x);
    forall k | 2 <= k < |t| - 2
      ensures t[k] == x[k - 2]
    {
    }
  }

  /** Two placeholders of brace-free names that start at the same place are the same placeholder. */
  lemma SameStartSameToken(s: string, x: string, y: string)
    ensures BraceFree(x) && BraceFree(y) && OccursAt(s, Token(x), 0) && OccursAt(s, Token(y), 0) ==> x == y
  {
    if BraceFree(x) && BraceFree(y) && OccursAt(s, Token(x), 0) && OccursAt(s, Token(y), 0) {
      var p, q := Token(y), Token(x);
      TokenBraces(x);
      TokenBraces(y);
      var n := if |q| <= |p| then |q| else |p|;
      assert s[n - 2] == q[n - 2] == p[n - 2];
      assert |p| == |q|;
      assert p == s[..|p|] == q;
      assert x == q[2..|q| - 2];
    }
  }

  /** Inside an occurrence of one placeholder no other brace-free placeholder can start. */
  lemma TokenInterior(s: string, x: string, y: string, j: int)
    ensures BraceFree(x) && BraceFree(y) && OccursAt(s, Token(x), 0) && 1 <= j < |Token(x)| ==> !OccursAt(s, Token(y), j)
  {
    if BraceFree(x) && BraceFree(y) && OccursAt(s, Token(x), 0) && 1 <= j < |Token(x)| {
      var p, q := Token(y), Token(x);
      TokenBraces(x);
      TokenBraces(y);
      assert s[j] == q[j];
      if q[j] == '{' {
        assert s[2] == q[2];
      }
    }
  }

  /** Two distinct placeholders of brace-free names cannot overlap when one of them starts at index 0. */
  lemma TokensApart(s: string, x: string, y: string, i: int)
    requires BraceFree(x) && BraceFree(y) && x != y
    requires OccursAt(s, Token(y), 0) && OccursAt(s, Token(x), i)
    ensures i >= |Token(y)|
  {
    SameStartSameToken(s, x, y);
    TokenInterior(s, y, x, i);
  }

  /** An occurrence in the tail of a concatenation is an occurrence in the whole. */
  lemma OccursShifted(a: string, b: string, q: string, j: int)
    requires OccursAt(b, q, j)
    ensures OccursAt(a + b, q, |a| + j)
  {
    assert (a + b)[|a| + j..|a| + j + |q|] == b[j..j + |q|];
  }

  /**
   * Replacing one placeholder never destroys an occurrence of a different one
   * (for brace-free names): it survives somewhere in the result.
   */
  lemma {:induction false} ReplaceKeepsToken(s: string, x: string, y: string, rep: string, i: int)
    requires BraceFree(x) && BraceFree(y) && x != y
    requires OccursAt(s, Token(x), i)
    ensures Contains(Replace(s, Token(y), rep), Token(x))
    decreases |s|
  {
    var p, q := Token(y), Token(x);
    var r := Replace(s, p, rep);
    if |s| < |p| {
      assert OccursAt(r, q, i);
    } else if s[..|p|] == p {
      assert OccursAt(s, p, 0);
      TokensApart(s, x, y, i);
      var rest := s[|p|..];
      assert rest[i - |p|..i - |p| + |q|] == s[i..i + |q|];
      ReplaceKeepsToken(rest, x, y, rep, i - |p|);
      var j :| 0 <= j <= |Replace(rest, p, rep)| && OccursAt(Replace(rest, p, rep), q, j);
      OccursShifted(rep, Replace(rest, p, rep), q, j);
    } else if i >= 1 {
      var rest := s[1..];
      assert rest[i - 1..i - 1 + |q|] == s[i..i + |q|];
      ReplaceKeepsToken(rest, x, y, rep, i - 1);
      var j :| 0 <= j <= |Replace(rest, p, rep)| && OccursAt(Replace(rest, p, rep), q, j);
      OccursShifted([s[0]], Replace(rest, p, rep), q, j);
    } else {
      assert OccursAt(s, q, 0);
      forall j | 0 <= j < |q|
        ensures !OccursAt(s, p, j)
      {
        TokenInterior(s, x, y, j);
      }
      ReplaceCopies(s, p, rep, |q|);
      assert r[..|q|] == s[..|q|];
      assert OccursAt(r, q, 0);
    }
  }

  /** A string without `{{` contains no placeholder at all. */
  lemma NoBracesNoToken(s: string, x: string)
    requires !Contains(s, "{{")
    ensures !Contains(s, Token(x))
  {
    if Contains(s, Token(x)) {
      var t := Token(x);
      var i :| 0 <= i <= |s| && OccursAt(s, t, i);
      assert t[..2] == "{{";
      assert s[i..i + 2] == t[..2];
      assert OccursAt(s, "{{", i);
    }
  }

  /** The `TypeError` Python raises when `str.replace` is given a non-string replacement. */
  function ReplaceArgError(v: Value): Error {
    TypeError("replace() argument 2 must be str, not " + TypeName(v))
  }

  /** Every content among the `(key, content)` pairs is a string. */
  predicate AllStr(pairs: seq<(string, Value)>) {
    forall i :: 0 <= i < |pairs| ==> pairs[i].1.Str?
  }

  /** One resolution loop: for each `(key, content)` in order, replace `{{key<suffix>}}` by the content. */
  function SubstAll(s: string, pairs: seq<(string, Value)>, suffix: string): (r: Outcome<string>)
    ensures r.Err? ==> exists i :: 0 <= i < |pairs| && !pairs[i].1.Str? && r.error == ReplaceArgError(pairs[i].1)
    decreases |pairs|
  {
    if |pairs| == 0 then Ok(s)
    else if !pairs[0].1.Str? then Err(ReplaceArgError(pairs[0].1))
    else
      var r := SubstAll(Replace(s, Token(pairs[0].0 + suffix), pairs[0].1.s), pairs[1..], suffix);
      assert r.Err? ==> exists i :: 1 <= i < |pairs| && !pairs[i].1.Str? && r.error == ReplaceArgError(pairs[i].1);
      r
  }

  /** `(key, content)` pairs of the stored inputs, in insertion order. */
  function InputPairs<R>(m: JobMemory<R>): seq<(string, Value)>
    requires Memory.Valid(m)
  {
    var items := Items(m.inputs);
    seq(|items|, i requires 0 <= i < |items| => (items[i].0, items[i].1.content))
  }

  /** `(key, content)` pairs of the stored outputs, in insertion order. */
  function OutputPairs<R>(m: JobMemory<R>): seq<(string, Value)>
    requires Memory.Valid(m)
  {
    var items := Items(m.outputs);
    seq(|items|, i requires 0 <= i < |items| => (items[i].0, items[i].1.content))
  }

  /** `_replace_input_template_placeholders`. */
  function Resolve<R>(template: string, root: Value, m: JobMemory<R>): (r: Outcome<string>)
    requires Memory.Valid(m)
    ensures r.Err? ==> r.error.TypeError?
  {
    if !root.Str? then Err(ReplaceArgError(root))
    else
      var afterRoot := Replace(template, RootPlaceholder, root.s);
      var afterInputs :- SubstAll(afterRoot, InputPairs(m), ".input");
      SubstAll(afterInputs, OutputPairs(m), ".output")
  }

  /** A resolution loop fails exactly when some content is not a string. */
  lemma {:induction false} SubstAllOkIff(s: string, pairs: seq<(string, Value)>, suffix: string)
    ensures SubstAll(s, pairs, suffix).Ok? <==> AllStr(pairs)
    decreases |pairs|
  {
    if |pairs| > 0 && pairs[0].1.Str? {
      SubstAllOkIff(Replace(s, Token(pairs[0].0 + suffix), pairs[0].1.s), pairs[1..], suffix);
      assert AllStr(pairs) <==> AllStr(pairs[1..]) by {
        if AllStr(pairs[1..]) {
          forall i | 0 <= i < |pairs|
            ensures pairs[i].1.Str?
          {
            if i > 0 {
              assert pairs[i] == pairs[1..][i - 1];
            }
          }
        }
      }
    }
  }

  /** Resolution raises `TypeError` exactly when the root input or some stored content is not a string. */
  lemma ResolveOkIff<R>(template: string, root: Value, m: JobMemory<R>)
    requires Memory.Valid(m)
    ensures Resolve(template, root, m).Ok? <==> root.Str? && AllStr(InputPairs(m)) && AllStr(OutputPairs(m))
  {
    if root.Str? {
      var afterRoot := Replace(template, RootPlaceholder, root.s);
      SubstAllOkIff(afterRoot, InputPairs(m), ".input");
      var a := SubstAll(afterRoot, InputPairs(m), ".input");
      if a.Ok? {
        SubstAllOkIff(a.value, OutputPairs(m), ".output");
      }
    }
  }

  /** A string without `{{` passes through a resolution loop unchanged. */
  lemma {:induction false} SubstAllNoBraces(s: string, pairs: seq<(string, Value)>, suffix: string)
    requires !Contains(s, "{{") && AllStr(pairs)
    ensures SubstAll(s, pairs, suffix) == Ok(s)
    decreases |pairs|
  {
    if |pairs| > 0 {
      var p := Token(pairs[0].0 + suffix);
      NoBracesNoToken(s, pairs[0].0 + suffix);
      ReplaceAbsent(s, p, pairs[0].1.s);
      assert AllStr(pairs[1..]) by {
        forall i | 0 <= i < |pairs| - 1
          ensures pairs[1..][i].1.Str?
        {
          assert pairs[1..][i] == pairs[i + 1];
        }
      }
      SubstAllNoBraces(s, pairs[1..], suffix);
    }
  }

  /** A template without `{{` is returned unchanged, whatever the root input and the memory hold. */
  lemma NoBracesUnchanged<R>(template: string, root: string, m: JobMemory<R>)
    requires Memory.Valid(m)
    requires !Contains(template, "{{")
    requires AllStr(InputPairs(m)) && AllStr(OutputPairs(m))
    ensures Resolve(template, Str(root), m) == Ok(template)
  {
    NoBracesNoToken(template, "root");
    ReplaceAbsent(template, RootPlaceholder, root);
    SubstAllNoBraces(template, InputPairs(m), ".input");
    SubstAllNoBraces(template, OutputPairs(m), ".output");
  }

  /** The names substituted by one resolution loop. */
  predicate NotSubstituted(x: string, pairs: seq<(string, Value)>, suffix: string) {
    forall i :: 0 <= i < |pairs| ==> BraceFree(pairs[i].0 + suffix) && pairs[i].0 + suffix != x
  }

  lemma {:induction false} SubstAllKeepsToken(s: string, pairs: seq<(string, Value)>, suffix: string, x: string)
    requires BraceFree(x) && Contains(s, Token(x))
    requires NotSubstituted(x, pairs, suffix)
    requires SubstAll(s, pairs, suffix).Ok?
    ensures Contains(SubstAll(s, pairs, suffix).value, Token(x))
    decreases |pairs|
  {
    if |pairs| > 0 {
      var i :| OccursAt(s, Token(x), i);
      ReplaceKeepsToken(s, x, pairs[0].0 + suffix, pairs[0].1.s, i);
      assert NotSubstituted(x, pairs[1..], suffix) by {
        forall k | 0 <= k < |pairs| - 1
          ensures BraceFree(pairs[1..][k].0 + suffix) && pairs[1..][k].0 + suffix != x
        {
          assert pairs[1..][k] == pairs[k + 1];
        }
      }
      SubstAllKeepsToken(Replace(s, Token(pairs[0].0 + suffix), pairs[0].1.s), pairs[1..], suffix, x);
    }
  }

  /**
   * A placeholder that names no stored entry (a task not yet run, or a
   * misspelt name) stays verbatim in the resolved input, provided the names
   * involved contain no braces.
   */
  lemma UnknownPlaceholderKept<R>(template: string, root: Value, m: JobMemory<R>, x: string)
    requires Memory.Valid(m)
    requires BraceFree(x) && x != "root" && Contains(template, Token(x))
    requires NotSubstituted(x, InputPairs(m), ".input")
    requires NotSubstituted(x, OutputPairs(m), ".output")
    requires Resolve(template, root, m).Ok?
    ensures Contains(Resolve(template, root, m).value, Token(x))
  {
    var i :| OccursAt(template, Token(x), i);
    ReplaceKeepsToken(template, x, "root", root.s, i);
    var afterRoot := Replace(template, RootPlaceholder, root.s);
    SubstAllKeepsToken(afterRoot, InputPairs(m), ".input", x);
    var a := SubstAll(afterRoot, InputPairs(m), ".input").value;
    SubstAllKeepsToken(a, OutputPairs(m), ".output", x);
  }

  /** All stored task names contain no braces. */
  predicate BraceFreeKeys<R>(m: JobMemory<R>) {
    (forall i :: 0 <= i < |m.inputs.keys| ==> BraceFree(m.inputs.keys[i]))
    && (forall i :: 0 <= i < |m.outputs.keys| ==> BraceFree(m.outputs.keys[i]))
  }

  lemma BraceFreeSuffix(k: string, suffix: string)
    requires BraceFree(k) && BraceFree(suffix)
    ensures BraceFree(k + suffix)
  {
    forall i | 0 <= i < |k + suffix|
      ensures (k + suffix)[i] != '{' && (k + suffix)[i] != '}'
    {
      if i >= |k| {
        assert (k + suffix)[i] == suffix[i - |k|];
      }
    }
  }

  lemma SuffixCancels(a: string, b: string, suffix: string)
    ensures a + suffix == b + suffix ==> a == b
  {
    if a + suffix == b + suffix {
      assert a == (a + suffix)[..|a|];
      assert b == (b + suffix)[..|b|];
    }
  }

  /**
   * `{{key.input}}` for a task whose input is not stored (not run yet, or a
   * misspelt name) is left in the resolved text as it was.
   */
  lemma AbsentInputPlaceholderKept<R>(template: string, root: Value, m: JobMemory<R>, key: string)
    requires Memory.Valid(m) && BraceFreeKeys(m) && BraceFree(key)
    requires key !in m.inputs.values
    requires Contains(template, InputPlaceholder(key))
    requires Resolve(template, root, m).Ok?
    ensures Contains(Resolve(template, root, m).value, InputPlaceholder(key))
  {
    var x := key + ".input";
    BraceFreeSuffix(key, ".input");
    forall i | 0 <= i < |InputPairs(m)|
      ensures BraceFree(InputPairs(m)[i].0 + ".input") && InputPairs(m)[i].0 + ".input" != x
    {
      var k := InputPairs(m)[i].0;
      assert k == m.inputs.keys[i];
      BraceFreeSuffix(k, ".input");
      assert k in m.inputs.values;
      SuffixCancels(k, key, ".input");
    }
    forall i | 0 <= i < |OutputPairs(m)|
      ensures BraceFree(OutputPairs(m)[i].0 + ".output") && OutputPairs(m)[i].0 + ".output" != x
    {
      var k := OutputPairs(m)[i].0;
      assert k == m.outputs.keys[i];
      BraceFreeSuffix(k, ".output");
      assert (k + ".output")[|k + ".output"| - 6] == 'o';
      assert x[|x| - 6] == '.';
    }
    UnknownPlaceholderKept(template, root, m, x);
  }

  /** A brace-free string holds no `{{`. */
  lemma BraceFreeNoOpen(s: string)
    requires BraceFree(s)
    ensures !Contains(s, "{{")
  {
    forall i | 0 <= i <= |s|
      ensures !OccursAt(s, "{{", i)
    {
      if i + 2 <= |s| {
        assert s[i..i + 2][0] == s[i];
      }
    }
  }

  /**
   * In `a + {{x}} + b` with brace-free `a`, `x` and `b`, the only `{` are the
   * two that open the placeholder and the only `}` the two that close it.
   */
  lemma TokenTextBraces(a: string, x: string, b: string)
    requires BraceFree(a) && BraceFree(x) && BraceFree(b)
    ensures var s := a + Token(x) + b;
      && |s| == |a| + |x| + 4 + |b|
      && s[|a|] == '{' && s[|a| + 1] == '{' && s[|a| + |x| + 2] == '}' && s[|a| + |x| + 3] == '}'
      && (forall k :: 0 <= k < |s| && s[k] == '{' ==> k == |a| || k == |a| + 1)
      && (forall k :: 0 <= k < |s| && s[k] == '}' ==> k == |a| + |x| + 2 || k == |a| + |x| + 3)
  {
    var s := a + Token(x) + b;
    forall k | 0 <= k < |s|
      ensures s[k] == '{' ==> k == |a| || k == |a| + 1
      ensures s[k] == '}' ==> k == |a| + |x| + 2 || k == |a| + |x| + 3
    {
      if k < |a| {
        assert s[k] == a[k];
      } else if |a| + 2 <= k < |a| + 2 + |x| {
        assert s[k] == x[k - |a| - 2];
      } else if |a| + |x| + 4 <= k {
        assert s[k] == b[k - |a| - |x| - 4];
      }
    }
  }

  /**
   * In a text whose only braces are those of one placeholder `{{x}}`, no
   * other placeholder occurs.
   */
  lemma OnlyToken(a: string, x: string, b: string, y: string)
    requires BraceFree(a) && BraceFree(x) && BraceFree(b)
    ensures Contains(a + Token(x) + b, Token(y)) ==> y == x
  {
    var s := a + Token(x) + b;
    forall i | 0 <= i <= |s| && OccursAt(s, Token(y), i)
      ensures y == x
    {
      var t := Token(y);
      var n := |a|;
      TokenTextBraces(a, x, b);
      assert s[i] == '{' && s[i + 1] == '{' && s[i + |y| + 2] == '}' && s[i + |y| + 3] == '}' by {
        var w := s[i..i + |t|];
        assert w[0] == s[i] && w[1] == s[i + 1] && w[|y| + 2] == s[i + |y| + 2] && w[|y| + 3] == s[i + |y| + 3];
      }
      assert i == n;
      assert |y| == |x|;
      assert Token(x) == s[n..n + |x| + 4] == t;
      assert x == Token(x)[2..|x| + 2] && y == t[2..|y| + 2];
    }
  }

  /** No placeholder starts inside a brace-free prefix. */
  lemma NoTokenInPrefix(a: string, rest: string, x: string)
    requires BraceFree(a)
    ensures forall j :: 0 <= j < |a| ==> !OccursAt(a + rest, Token(x), j)
  {
    var s := a + rest;
    forall j | 0 <= j < |a|
      ensures !OccursAt(s, Token(x), j)
    {
      assert s[j] == a[j];
      if j + |Token(x)| <= |s| {
        assert s[j..j + |Token(x)|][0] == s[j];
      }
    }
  }

  /**
   * A resolution loop leaves `{{x}}` in a brace-free text alone when no pair
   * names it.
   */
  lemma {:induction false} SubstAllMisses(a: string, x: string, b: string, pairs: seq<(string, Value)>, suffix: string)
    requires BraceFree(a) && BraceFree(x) && BraceFree(b) && AllStr(pairs)
    requires forall i :: 0 <= i < |pairs| ==> pairs[i].0 + suffix != x
    ensures SubstAll(a + Token(x) + b, pairs, suffix) == Ok(a + Token(x) + b)
    decreases |pairs|
  {
    if |pairs| > 0 {
      var s := a + Token(x) + b;
      var y := pairs[0].0 + suffix;
      OnlyToken(a, x, b, y);
      ReplaceAbsent(s, Token(y), pairs[0].1.s);
      var tl := pairs[1..];
      assert forall i :: 0 <= i < |tl| ==> tl[i] == pairs[i + 1];
      SubstAllMisses(a, x, b, tl, suffix);
    }
  }

  /**
   * A resolution loop replaces `{{x}}` in a brace-free text by the content of
   * the first pair that names it, when that content is itself brace-free.
   */
  lemma {:induction false} SubstAllHits(a: string, x: string, b: string, pairs: seq<(string, Value)>, suffix: string, i: nat)
    requires BraceFree(a) && BraceFree(x) && BraceFree(b) && AllStr(pairs)
    requires i < |pairs| && pairs[i].0 + suffix == x && BraceFree(pairs[i].1.s)
    requires forall j :: 0 <= j < i ==> pairs[j].0 + suffix != x
    ensures SubstAll(a + Token(x) + b, pairs, suffix) == Ok(a + pairs[i].1.s + b)
    decreases i
  {
    var s := a + Token(x) + b;
    var tl := pairs[1..];
    assert forall j :: 0 <= j < |tl| ==> tl[j] == pairs[j + 1];
    if i == 0 {
      var v := pairs[0].1.s;
      NoTokenInPrefix(a, Token(x) + b, x);
      assert a + (Token(x) + b) == s;
      ReplaceSplit(a, Token(x), b, v);
      BraceFreeNoOpen(b);
      NoBracesNoToken(b, x);
      ReplaceAbsent(b, Token(x), v);
      BraceFreeSuffix(a, v);
      BraceFreeSuffix(a + v, b);
      BraceFreeNoOpen(a + v + b);
      SubstAllNoBraces(a + v + b, tl, suffix);
    } else {
      OnlyToken(a, x, b, pairs[0].0 + suffix);
      ReplaceAbsent(s, Token(pairs[0].0 + suffix), pairs[0].1.s);
      SubstAllHits(a, x, b, tl, suffix, i - 1);
    }
  }

  /** An output key with `.input` appended never spells an output placeholder's name, and vice versa. */
  lemma SuffixesDiffer(k: string, key: string)
    ensures k + ".input" != key + ".output"
  {
    var x, y := k + ".input", key + ".output";
    assert x[|x| - 6] == '.' && y[|y| - 6] == 'o';
  }

  /** Where `key` sits among the stored keys, and no other key spells the same name with `suffix`. */
  lemma FirstWithKey<V>(d: Dict<string, V>, pairs: seq<(string, Value)>, key: string, suffix: string) returns (i: nat)
    requires PyDict.Valid(d) && key in d.values
    requires |pairs| == |d.keys| && forall j :: 0 <= j < |pairs| ==> pairs[j].0 == d.keys[j]
    ensures i < |pairs| && pairs[i].0 == key
    ensures forall j :: 0 <= j < i ==> pairs[j].0 + suffix != key + suffix
  {
    assert key in d.keys;
    i :| 0 <= i < |d.keys| && d.keys[i] == key;
    forall j | 0 <= j < i
      ensures pairs[j].0 + suffix != key + suffix
    {
      SuffixCancels(pairs[j].0, key, suffix);
    }
  }

  /**
   * `{{key.output}}` of a stored output whose content is the string `v` is
   * replaced by `v`: with brace-free surrounding text, name and content, and
   * only string contents stored, the template resolves to the text with `v`
   * in the placeholder's place, whatever the root input.
   */
  lemma ResolveOutputPlaceholder<R>(a: string, key: string, b: string, root: string, m: JobMemory<R>, v: string)
    requires Memory.Valid(m) && AllStr(InputPairs(m)) && AllStr(OutputPairs(m))
    requires BraceFree(a) && BraceFree(key) && BraceFree(b) && BraceFree(v)
    requires key in m.outputs.values && m.outputs.values[key].content == Str(v)
    ensures Resolve(a + OutputPlaceholder(key) + b, Str(root), m) == Ok(a + v + b)
  {
    var x := key + ".output";
    BraceFreeSuffix(key, ".output");
    var s := a + Token(x) + b;
    OnlyToken(a, x, b, "root");
    ReplaceAbsent(s, RootPlaceholder, root);
    forall j | 0 <= j < |InputPairs(m)|
      ensures InputPairs(m)[j].0 + ".input" != x
    {
      SuffixesDiffer(InputPairs(m)[j].0, key);
    }
    SubstAllMisses(a, x, b, InputPairs(m), ".input");
    var i := FirstWithKey(m.outputs, OutputPairs(m), key, ".output");
    SubstAllHits(a, x, b, OutputPairs(m), ".output", i);
  }

  /**
   * `{{key.input}}` of a stored input whose content is the string `v` is
   * replaced by `v`, under the same conditions as an output placeholder.
   */
  lemma ResolveInputPlaceholder<R>(a: string, key: string, b: string, root: string, m: JobMemory<R>, v: string)
    requires Memory.Valid(m) && AllStr(InputPairs(m)) && AllStr(OutputPairs(m))
    requires BraceFree(a) && BraceFree(key) && BraceFree(b) && BraceFree(v)
    requires key in m.inputs.values && m.inputs.values[key].content == Str(v)
    ensures Resolve(a + InputPlaceholder(key) + b, Str(root), m) == Ok(a + v + b)
  {
    var x := key + ".input";
    BraceFreeSuffix(key, ".input");
    var s := a + Token(x) + b;
    OnlyToken(a, x, b, "root");
    ReplaceAbsent(s, RootPlaceholder, root);
    var i := FirstWithKey(m.inputs, InputPairs(m), key, ".input");
    SubstAllHits(a, x, b, InputPairs(m), ".input", i);
    BraceFreeSuffix(a, v);
    BraceFreeSuffix(a + v, b);
    BraceFreeNoOpen(a + v + b);
    SubstAllNoBraces(a + v + b, OutputPairs(m), ".output");
  }

  /**
   * `{{root}}` in a brace-free text is replaced by a brace-free root input,
   * and nothing else changes when only string contents are stored.
   */
  lemma ResolveRootPlaceholder<R>(a: string, b: string, root: string, m: JobMemory<R>)
    requires Memory.Valid(m) && AllStr(InputPairs(m)) && AllStr(OutputPairs(m))
    requires BraceFree(a) && BraceFree(b) && BraceFree(root)
    ensures Resolve(a + RootPlaceholder + b, Str(root), m) == Ok(a + root + b)
  {
    NoTokenInPrefix(a, RootPlaceholder + b, "root");
    assert a + (RootPlaceholder + b) == a + RootPlaceholder + b;
    ReplaceSplit(a, RootPlaceholder, b, root);
    BraceFreeNoOpen(b);
    NoBracesNoToken(b, "root");
    ReplaceAbsent(b, RootPlaceholder, root);
    BraceFreeSuffix(a, root);
    BraceFreeSuffix(a + root, b);
    BraceFreeNoOpen(a + root + b);
    SubstAllNoBraces(a + root + b, InputPairs(m), ".input");
    SubstAllNoBraces(a + root + b, OutputPairs(m), ".output");
  }

  /** The root placeholder on its own resolves to the root input. */
  lemma RootOnly(root: string)
    ensures Replace(RootPlaceholder, RootPlaceholder, root) == root
  {
    assert RootPlaceholder[..|RootPlaceholder|] == RootPlaceholder;
    assert RootPlaceholder[|RootPlaceholder|..] == [];
  }

  /**
   * Each step works on the result of the previous one: an output placeholder
   * that arrives with the root input is itself substituted.
   */
  lemma RootTextIsResolvedToo<R>(raw: R)
    ensures var m := AddTaskOutput(EmptyMemory<R>(), "a", TaskOutput(Str("A"), raw));
      Resolve("{{root}}", Str("{{a.output}}"), m) == Ok("A")
  {
    var m := AddTaskOutput(EmptyMemory<R>(), "a", TaskOutput(Str("A"), raw));
    assert RootPlaceholder == "{{root}}";
    RootOnly("{{a.output}}");
    assert InputPairs(m) == [];
    assert SubstAll("{{a.output}}", InputPairs(m), ".input") == Ok("{{a.output}}");
    var p := Token("a" + ".output");
    assert p == "{{a.output}}";
    assert p[..|p|] == p && p[|p|..] == [];
    assert Replace(p, p, "A") == "A";
    assert OutputPairs(m) == [("a", Str("A"))];
    assert SubstAll("{{a.output}}", OutputPairs(m), ".output") == SubstAll("A", [], ".output");
  }
}

=== FILE: pydict.dfy ===
/**
 * Python's insertion-ordered `dict`: a sequence of distinct keys in insertion
 * order plus the map from each key to its value. Assigning to an existing key
 * keeps its position; assigning to a new key appends it.
 */
module PyDict {
  import opened Wrappers

  datatype Dict<K(==,!new), V> = Dict(keys: seq<K>, values: map<K, V>)

  predicate Distinct<K(==)>(xs: seq<K>) {
    forall i, j :: 0 <= i < j < |xs| ==> xs[i] != xs[j]
  }

  /** The keys are distinct and are exactly the keys of the map. */
  predicate Valid<K(!new), V>(d: Dict<K, V>) {
    && Distinct(d.keys)
    && d.values.Keys == set k | k in d.keys
  }

  function Empty<K(!new), V>(): (d: Dict<K, V>)
    ensures Valid(d) && |d.keys| == 0
  {
    Dict([], map[])
  }

  /** `d.get(k)`: the stored value, or `None` for a key never stored. */
  function Get<K(!new), V>(d: Dict<K, V>, k: K): (r: Option<V>)
    ensures r.Some? <==> k in d.values
    ensures r.Some? ==> r.value == d.values[k]
  {
    if k in d.values then Some(d.values[k]) else None
  }

  /** `d[k] = v`: an upsert. */
  function Put<K(!new), V>(d: Dict<K, V>, k: K, v: V): (r: Dict<K, V>)
    requires Valid(d)
    ensures Valid(r)
    ensures Get(r, k) == Some(v)
    ensures forall j :: j != k ==> Get(r, j) == Get(d, j)
    ensures k in d.values ==> r.keys == d.keys
    ensures k !in d.values ==> r.keys == d.keys + [k]
  {
    if k in d.values then Dict(d.keys, d.values[k := v])
    else Dict(d.keys + [k], d.values[k := v])
  }

  /** `d.items()` in iteration order. */
  function Items<K(!new), V>(d: Dict<K, V>): (r: seq<(K, V)>)
    requires Valid(d)
    ensures |r| == |d.keys|
    ensures forall i :: 0 <= i < |r| ==> r[i] == (d.keys[i], d.values[d.keys[i]])
  {
    seq(|d.keys|, i requires 0 <= i < |d.keys| => (d.keys[i], d.values[d.keys[i]]))
  }

  /**
   * `{k: v for (k, v) in pairs}`: later pairs overwrite the value of an earlier
   * equal key, which keeps the position of its first occurrence.
   */
  function FromPairs<K(!new), V>(pairs: seq<(K, V)>): (d: Dict<K, V>)
    ensures Valid(d)
    ensures d.values.Keys == set i | 0 <= i < |pairs| :: pairs[i].0
    ensures |d.keys| <= |pairs|
    decreases |pairs|
  {
    if |pairs| == 0 then Empty()
    else
      var d := FromPairs(pairs[..|pairs| - 1]);
      var last := pairs[|pairs| - 1];
      Put(d, last.0, last.1)
  }

  /** The value stored for a key is the one of the LAST pair with that key. */
  lemma {:induction false} FromPairsLastWins<K(!new), V>(pairs: seq<(K, V)>, i: nat)
    requires i < |pairs|
    requires forall j :: i < j < |pairs| ==> pairs[j].0 != pairs[i].0
    ensures Get(FromPairs(pairs), pairs[i].0) == Some(pairs[i].1)
    decreases |pairs|
  {
    if i < |pairs| - 1 {
      FromPairsLastWins(pairs[..|pairs| - 1], i);
    }
  }

  /** When every pair with key `k` carries `v`, the dict stores `v` for `k` exactly when some pair has key `k`. */
  lemma {:induction false} FromPairsAgree<K(!new), V>(pairs: seq<(K, V)>, k: K, v: V)
    requires forall i :: 0 <= i < |pairs| && pairs[i].0 == k ==> pairs[i].1 == v
    ensures (exists i :: 0 <= i < |pairs| && pairs[i].0 == k) ==> Get(FromPairs(pairs), k) == Some(v)
    decreases |pairs|
  {
    if |pairs| > 0 && pairs[|pairs| - 1].0 != k {
      var init := pairs[..|pairs| - 1];
      FromPairsAgree(init, k, v);
      if exists i :: 0 <= i < |pairs| && pairs[i].0 == k {
        var i :| 0 <= i < |pairs| && pairs[i].0 == k;
        assert init[i].0 == k;
      }
    }
  }

  /**
   * `for k in drop: del d[k]` (for the keys present): the other entries keep
   * their values and their order.
   */
  function Delete<K(!new), V>(d: Dict<K, V>, drop: set<K>): (r: Dict<K, V>)
    requires Valid(d)
    ensures Valid(r)
    ensures forall k :: k in r.values <==> k in d.values && k !in drop
    ensures forall k :: k in r.values ==> r.values[k] == d.values[k]
    ensures r.keys == Keep(d.keys, drop)
  {
    var keys := Keep(d.keys, drop);
    Dict(keys, map k | k in d.values && k !in drop :: d.values[k])
  }

  /** The elements of `xs` that are not in `drop`, in order. */
  function Keep<K(==,!new)>(xs: seq<K>, drop: set<K>): (r: seq<K>)
    ensures forall k :: k in r <==> k in xs && k !in drop
    ensures Distinct(xs) ==> Distinct(r)
    ensures |r| <= |xs|
  {
    if |xs| == 0 then []
    else
      var rest := Keep(xs[1..], drop);
      if xs[0] in drop then rest
      else
        assert Distinct(xs) ==> xs[0] !in xs[1..];
        [xs[0]] + rest
  }

  /**
   * Filtering keeps the order: it works piece by piece along a concatenation,
   * and a single element stays exactly when it is not dropped.
   */
  lemma {:induction false} KeepConcat<K(!new)>(a: seq<K>, b: seq<K>, drop: set<K>)
    ensures Keep(a + b, drop) == Keep(a, drop) + Keep(b, drop)
    ensures forall x :: Keep([x], drop) == if x in drop then [] else [x]
    decreases |a|
  {
    if |a| > 0 {
      assert (a + b)[0] == a[0];
      assert (a + b)[1..] == a[1..] + b;
      KeepConcat(a[1..], b, drop);
    } else {
      assert a + b == b;
    }
    forall x
      ensures Keep([x], drop) == if x in drop then [] else [x]
    {
      assert [x][1..] == [];
    }
  }

  /** Storing a key not yet present appends exactly one item at the end. */
  lemma PutNewItems<K(!new), V>(d: Dict<K, V>, k: K, v: V)
    requires Valid(d) && k !in d.values
    ensures Items(Put(d, k, v)) == Items(d) + [(k, v)]
  {
    var r := Put(d, k, v);
    forall i | 0 <= i < |d.keys|
      ensures Items(r)[i] == Items(d)[i]
    {
      assert d.keys[i] in d.values;
    }
  }

  /** A key that no pair carries is not stored. */
  lemma NotStored<K(!new), V>(pairs: seq<(K, V)>, k: K)
    requires forall i :: 0 <= i < |pairs| ==> pairs[i].0 != k
    ensures k !in FromPairs(pairs).values
  {
  }

  /** A non-empty list is its entries but the last, then the last. */
  lemma LastSplit<T>(s: seq<T>)
    requires |s| > 0
    ensures s[..|s| - 1] + [s[|s| - 1]] == s
  {
  }

  /** With distinct keys, the dict keeps every pair, in the given order. */
  lemma {:induction false} FromDistinctPairs<K(!new), V>(pairs: seq<(K, V)>)
    requires forall i, j :: 0 <= i < j < |pairs| ==> pairs[i].0 != pairs[j].0
    ensures Items(FromPairs(pairs)) == pairs
    decreases |pairs|
  {
    if |pairs| > 0 {
      var init := pairs[..|pairs| - 1];
      var last := pairs[|pairs| - 1];
      var d := FromPairs(init);
      assert Items(d) == init by {
        FromDistinctPairs(init);
      }
      assert last.0 !in d.values by {
        NotStored(init, last.0);
      }
      calc {
        Items(FromPairs(pairs));
        == { PutNewItems(d, last.0, last.1); }
        Items(d) + [last];
        ==
        init + [last];
        == { LastSplit(pairs); }
        pairs;
      }
    }
  }

  /** `{k: v for (k, v) in pairs}.items()`: every item is one of the pairs, and there are no more items than pairs. */
  function ItemsOf<K(==,!new), V>(pairs: seq<(K, V)>): (r: seq<(K, V)>)
    ensures |r| <= |pairs|
    ensures forall i :: 0 <= i < |r| ==> exists j :: 0 <= j < |pairs| && r[i] == pairs[j]
  {
    var d := FromPairs(pairs);
    var r := Items(d);
    forall i | 0 <= i < |r|
      ensures exists j :: 0 <= j < |pairs| && r[i] == pairs[j]
    {
      var k := d.keys[i];
      assert k in d.values;
      var j :| 0 <= j < |pairs| && pairs[j].0 == k;
      var last := LastWith(pairs, k, j);
      FromPairsLastWins(pairs, last);
      assert r[i] == pairs[last];
    }
    r
  }

  /** The last index whose pair has key `k`, given one at or after `j`. */
  function LastWith<K(==,!new), V>(pairs: seq<(K, V)>, k: K, j: nat): (r: nat)
    requires j < |pairs| && pairs[j].0 == k
    ensures j <= r < |pairs| && pairs[r].0 == k
    ensures forall m :: r < m < |pairs| ==> pairs[m].0 != k
    decreases |pairs| - j
  {
    if exists m :: j < m < |pairs| && pairs[m].0 == k then
      var m :| j < m < |pairs| && pairs[m].0 == k;
      LastWith(pairs, k, m)
    else j
  }

  /** A pair whose key no later pair repeats survives as an item. */
  lemma ItemsOfLastWins<K(!new), V>(pairs: seq<(K, V)>, i: nat)
    requires i < |pairs|
    requires forall j :: i < j < |pairs| ==> pairs[j].0 != pairs[i].0
    ensures pairs[i] in ItemsOf(pairs)
  {
    var d := FromPairs(pairs);
    FromPairsLastWins(pairs, i);
    var k := pairs[i].0;
    assert k in d.keys;
    var n :| 0 <= n < |d.keys| && d.keys[n] == k;
    assert Items(d)[n] == pairs[i];
  }

  /** With distinct keys the items are the pairs themselves, in order. */
  lemma ItemsOfDistinct<K(!new), V>(pairs: seq<(K, V)>)
    requires forall i, j :: 0 <= i < j < |pairs| ==> pairs[i].0 != pairs[j].0
    ensures ItemsOf(pairs) == pairs
  {
    FromDistinctPairs(pairs);
  }
}

=== FILE: pyvalue.dfy ===
/**
 * The handful of Python value semantics the library relies on: dynamic values
 * with truthiness, `str()` of a value, `str.strip()`, decimal rendering of
 * integers and `sep.join(items)`.
 */
module PyValue {
  import opened Wrappers

  /**
   * A dynamically typed Python value as it appears in option dictionaries,
   * tool arguments and tool results. Floats are opaque: `Num` keeps the
   * literal Python would print and whether the number is zero (falsy).
   * `Omit` is the Cohere SDK's `OMIT` sentinel (an `Ellipsis`, so truthy).
   * A `Dict` lists its entries in insertion order.
   */
  datatype Value =
    | Null
    | Bool(b: bool)
    | Int(i: int)
    | Num(repr: string, isZero: bool)
    | Str(s: string)
    | List(items: seq<Value>)
    | Tuple(elems: seq<Value>)
    | Dict(entries: seq<(Value, Value)>)
    | Omit

  /** Python truthiness: `None`, `False`, zero and empty containers are falsy. */
  predicate Truthy(v: Value) {
    match v
    case Null => false
    case Bool(b) => b
    case Int(i) => i != 0
    case Num(_, z) => !z
    case Str(s) => |s| > 0
    case List(xs) => |xs| > 0
    case Tuple(xs) => |xs| > 0
    case Dict(es) => |es| > 0
    case Omit => true
  }

  /** `type(v).__name__`, as Python prints it in a `TypeError`. */
  function TypeName(v: Value): string {
    match v
    case Null => "NoneType"
    case Bool(_) => "bool"
    case Int(_) => "int"
    case Num(_, _) => "float"
    case Str(_) => "str"
    case List(_) => "list"
    case Tuple(_) => "tuple"
    case Dict(_) => "dict"
    case Omit => "ellipsis"
  }

  /** The characters for which Python's `str.isspace()` holds. */
  predicate IsSpace(c: char) {
    var n := c as int;
    || (9 <= n <= 13) || (28 <= n <= 32)
    || n == 0x85 || n == 0xA0 || n == 0x1680
    || (0x2000 <= n <= 0x200A)
    || n == 0x2028 || n == 0x2029 || n == 0x202F || n == 0x205F || n == 0x3000
  }

  predicate AllSpace(s: string) {
    forall i :: 0 <= i < |s| ==> IsSpace(s[i])
  }

  /** `s.lstrip()`: the suffix of `s` that starts at its first non-space character. */
  function TrimLeft(s: string): (r: string)
    ensures |r| <= |s| && r == s[|s| - |r|..]
    ensures AllSpace(s[..|s| - |r|])
    ensures |r| > 0 ==> !IsSpace(r[0])
  {
    if |s| == 0 || !IsSpace(s[0]) then s
    else
      var r := TrimLeft(s[1..]);
      assert s[1..][|s| - 1 - |r|..] == s[|s| - |r|..];
      assert s[..|s| - |r|] == [s[0]] + s[1..][..|s| - 1 - |r|];
      r
  }

  /** `s.rstrip()`: the prefix of `s` that ends at its last non-space character. */
  function TrimRight(s: string): (r: string)
    ensures |r| <= |s| && r == s[..|r|]
    ensures AllSpace(s[|r|..])
    ensures |r| > 0 ==> !IsSpace(r[|r| - 1])
  {
    if |s| == 0 || !IsSpace(s[|s| - 1]) then s
    else
      var r := TrimRight(s[..|s| - 1]);
      assert s[..|s| - 1][..|r|] == s[..|r|];
      assert s[|r|..] == s[..|s| - 1][|r|..] + [s[|s| - 1]];
      r
  }

  /** `s.strip()`: no whitespace is left at either end. */
  function Strip(s: string): (r: string)
    ensures |r| <= |s|
    ensures |r| > 0 ==> !IsSpace(r[0]) && !IsSpace(r[|r| - 1])
  {
    var l := TrimLeft(s);
    var r := TrimRight(l);
    assert |r| > 0 ==> r[0] == l[0];
    r
  }

  /** `s.strip()` is empty exactly when `s` consists of whitespace only (or is empty). */
  lemma StripEmptyIffAllSpace(s: string)
    ensures Strip(s) == [] <==> AllSpace(s)
  {
    var l := TrimLeft(s);
    if Strip(s) == [] {
      assert AllSpace(l[0..]);
      assert |l| == 0;
      assert s == s[..|s| - |l|];
    } else {
      var r := Strip(s);
      assert r[0] == l[0];
      assert l[0] == s[|s| - |l|];
    }
  }

  lemma PrefixOfSuffix(s: string, l: string, r: string)
    requires |l| <= |s| && l == s[|s| - |l|..]
    requires |r| <= |l| && r == l[..|r|]
    ensures s[|s| - |l|..|s| - |l| + |r|] == r
  {
  }

  /** Stripping keeps a contiguous part of the original. */
  lemma StripIsSlice(s: string)
    ensures var i := |s| - |TrimLeft(s)|;
      i + |Strip(s)| <= |s| && s[i..i + |Strip(s)|] == Strip(s)
  {
    var l := TrimLeft(s);
    assert Strip(s) == TrimRight(l);
    PrefixOfSuffix(s, l, TrimRight(l));
  }

  /**
   * What stripping removes is whitespace on both sides of that part: with
   * `StripIsSlice` and `Strip`'s contract, exactly the surrounding whitespace goes.
   */
  lemma StripRemovesOnlySpace(s: string)
    ensures var i := |s| - |TrimLeft(s)|;
      i + |Strip(s)| <= |s| && AllSpace(s[..i]) && AllSpace(s[i + |Strip(s)|..])
  {
    var l := TrimLeft(s);
    var r := TrimRight(l);
    assert Strip(s) == r;
    SuffixTail(s, l, |r|);
  }

  /** The tail of a suffix of `s` is a tail of `s`. */
  lemma SuffixTail(s: string, l: string, k: nat)
    requires |l| <= |s| && l == s[|s| - |l|..] && k <= |l|
    ensures l[k..] == s[|s| - |l| + k..]
  {
  }

  function DigitChar(d: nat): char
    requires d < 10
  {
    "0123456789"[d]
  }

  /** Python's `str(n)` for a natural number. */
  function NatToStr(n: nat): (r: string)
    ensures |r| > 0
    ensures forall i :: 0 <= i < |r| ==> '0' <= r[i] <= '9'
    ensures |r| > 1 ==> r[0] != '0'
    decreases n
  {
    if n < 10 then [DigitChar(n)] else NatToStr(n / 10) + [DigitChar(n % 10)]
  }

  /** Reads back a string of decimal digits. */
  function ParseNat(s: string): nat
    requires forall i :: 0 <= i < |s| ==> '0' <= s[i] <= '9'
  {
    if |s| == 0 then 0
    else 10 * ParseNat(s[..|s| - 1]) + ((s[|s| - 1] as int) - ('0' as int))
  }

  /** Decimal rendering round-trips: parsing `str(n)` gives back `n`. */
  lemma {:induction false} NatToStrRoundTrip(n: nat)
    ensures ParseNat(NatToStr(n)) == n
    decreases n
  {
    if n >= 10 {
      var r := NatToStr(n);
      assert r[..|r| - 1] == NatToStr(n / 10);
      NatToStrRoundTrip(n / 10);
    }
  }

  /** Rendering is injective: distinct numbers print differently. */
  lemma NatToStrInjective(m: nat, n: nat)
    requires NatToStr(m) == NatToStr(n)
    ensures m == n
  {
    NatToStrRoundTrip(m);
    NatToStrRoundTrip(n);
  }

  /** Python's `str(i)` for any integer. */
  function IntToStr(i: int): string {
    if i < 0 then "-" + NatToStr(-i) else NatToStr(i)
  }

  /** `sep.join(items)`. */
  function Join(items: seq<string>, sep: string): (r: string)
    ensures |items| == 0 ==> r == ""
    ensures |items| == 1 ==> r == items[0]
    decreases |items|
  {
    if |items| == 0 then ""
    else if |items| == 1 then items[0]
    else items[0] + sep + Join(items[1..], sep)
  }

  /** Joining one more item appends exactly one separator and the item. */
  lemma {:induction false} JoinSnoc(items: seq<string>, x: string, sep: string)
    requires |items| > 0
    ensures Join(items + [x], sep) == Join(items, sep) + sep + x
    decreases |items|
  {
    if |items| == 1 {
      assert (items + [x])[1..] == [x];
    } else {
      assert (items + [x])[1..] == items[1..] + [x];
      JoinSnoc(items[1..], x, sep);
    }
  }

  /** A non-empty join starts with the first item and ends with the last: no stray separator. */
  lemma {:induction false} JoinEnds(items: seq<string>, sep: string)
    requires |items| > 0
    ensures var r := Join(items, sep);
      && |r| >= |items[0]| && r[..|items[0]|] == items[0]
      && |r| >= |items[|items| - 1]| && r[|r| - |items[|items| - 1]|..] == items[|items| - 1]
    decreases |items|
  {
    if |items| > 1 {
      JoinEnds(items[1..], sep);
      var rest := Join(items[1..], sep);
      var r := Join(items, sep);
      assert r == items[0] + sep + rest;
      assert r[|r| - |rest|..] == rest;
    }
  }

  /** The quote `repr()` puts around a text: `"` when the text holds `'` but no `"`, otherwise `'`. */
  function QuoteFor(s: string): (q: char)
    ensures q == '"' || q == '\''
  {
    if '\'' in s && '"' !in s then '"' else '\''
  }

  /**
   * The characters `repr()` writes as `\xhh`: the C0 controls other than tab,
   * newline and carriage return, DEL, the C1 controls, the no-break space and
   * the soft hyphen.
   */
  predicate HexEscaped(c: char) {
    var n := c as int;
    || (n < 32 && c != '\t' && c != '\n' && c != '\r')
    || (0x7F <= n <= 0xA0)
    || n == 0xAD
  }

  /** The lower-case hexadecimal digit for `d`. */
  function HexDigit(d: nat): (c: char)
    requires d < 16
  {
    if d < 10 then ('0' as int + d) as char else ('a' as int + d - 10) as char
  }

  /** The value of a hexadecimal digit of either case. */
  function HexValue(c: char): (r: Option<nat>)
    ensures r.Some? ==> r.value < 16
  {
    if '0' <= c <= '9' then Some(c as int - '0' as int)
    else if 'a' <= c <= 'f' then Some(c as int - 'a' as int + 10)
    else if 'A' <= c <= 'F' then Some(c as int - 'A' as int + 10)
    else None
  }

  /** One character inside a literal quoted by `q`, as `repr()` writes it. */
  function EscapeChar(c: char, q: char): string {
    if c == q || c == '\\' then ['\\', c]
    else if c == '\t' then "\\t"
    else if c == '\n' then "\\n"
    else if c == '\r' then "\\r"
    else if HexEscaped(c) then ['\\', 'x', HexDigit(c as int / 16), HexDigit(c as int % 16)]
    else [c]
  }

  /** The body of a literal quoted by `q`: every character escaped in turn. */
  function Escape(s: string, q: char): string
    decreases |s|
  {
    if |s| == 0 then "" else EscapeChar(s[0], q) + Escape(s[1..], q)
  }

  /** `repr()` of a text: the body between two copies of the chosen quote. */
  function StrRepr(s: string): (r: string)
    ensures |r| >= 2 && r[0] == QuoteFor(s) && r[|r| - 1] == QuoteFor(s)
  {
    var q := QuoteFor(s);
    [q] + Escape(s, q) + [q]
  }

  function Prepend(c: char, rest: Option<string>): Option<string> {
    match rest
    case None => None
    case Some(t) => Some([c] + t)
  }

  /**
   * Reading back the body of a literal quoted by `q`, as Python's parser does
   * for the escapes `repr()` writes: `None` at a bare quote or an escape it
   * does not know.
   */
  function Unescape(t: string, q: char): Option<string>
    decreases |t|
  {
    if |t| == 0 then Some("")
    else if t[0] == q then None
    else if t[0] != '\\' then Prepend(t[0], Unescape(t[1..], q))
    else if |t| < 2 then None
    else if t[1] == 't' then Prepend('\t', Unescape(t[2..], q))
    else if t[1] == 'n' then Prepend('\n', Unescape(t[2..], q))
    else if t[1] == 'r' then Prepend('\r', Unescape(t[2..], q))
    else if t[1] == '\\' || t[1] == '\'' || t[1] == '"' then Prepend(t[1], Unescape(t[2..], q))
    else if t[1] == 'x' && |t| >= 4 && HexValue(t[2]).Some? && HexValue(t[3]).Some? then
      Prepend((HexValue(t[2]).value * 16 + HexValue(t[3]).value) as char, Unescape(t[4..], q))
    else None
  }

  /** A string literal read back: a quote, a body it does not end early, and the same quote. */
  function ReadStrLiteral(r: string): Option<string> {
    if |r| >= 2 && (r[0] == '\'' || r[0] == '"') && r[|r| - 1] == r[0] then Unescape(r[1..|r| - 1], r[0])
    else None
  }

  /** An escaped character followed by any text reads back as that character followed by the text. */
  lemma UnescapeChar(c: char, q: char, rest: string)
    requires q == '\'' || q == '"'
    ensures Unescape(EscapeChar(c, q) + rest, q) == Prepend(c, Unescape(rest, q))
  {
    var t := EscapeChar(c, q) + rest;
    if c == q || c == '\\' {
      assert t[2..] == rest;
    } else if c == '\t' || c == '\n' || c == '\r' {
      assert t[2..] == rest;
    } else if HexEscaped(c) {
      var n := c as int;
      assert t[4..] == rest;
      assert HexValue(t[2]) == Some(n / 16) && HexValue(t[3]) == Some(n % 16);
      assert (n / 16 * 16 + n % 16) as char == c;
    } else {
      assert t[1..] == rest;
    }
  }

  /** The escaped body of a text reads back as the text: the body never holds a bare quote. */
  lemma {:induction false} UnescapeEscape(s: string, q: char)
    requires q == '\'' || q == '"'
    ensures Unescape(Escape(s, q), q) == Some(s)
    decreases |s|
  {
    if |s| > 0 {
      UnescapeEscape(s[1..], q);
      UnescapeChar(s[0], q, Escape(s[1..], q));
      assert [s[0]] + s[1..] == s;
    }
  }

  /** `repr()` of a text is a string literal that reads back as the text. */
  lemma StrReprRoundTrip(s: string)
    ensures ReadStrLiteral(StrRepr(s)) == Some(s)
  {
    var q := QuoteFor(s);
    var r := StrRepr(s);
    assert r[1..|r| - 1] == Escape(s, q);
    UnescapeEscape(s, q);
  }

  /** Distinct texts have distinct `repr()`s. */
  lemma StrReprInjective(s: string, t: string)
    requires StrRepr(s) == StrRepr(t)
    ensures s == t
  {
    StrReprRoundTrip(s);
    StrReprRoundTrip(t);
  }

  /** Python's `repr()` of a value inside a container display: texts are quoted and escaped. */
  function Repr(v: Value): string
    decreases v, 1
  {
    match v
    case Str(s) => StrRepr(s)
    case _ => PyStr(v)
  }

  /** Python's `str()` of a value; containers show their items' `repr()`. */
  function PyStr(v: Value): (r: string)
    ensures v.Str? ==> r == v.s
    ensures v.List? ==> |r| >= 2 && r[0] == '[' && r[|r| - 1] == ']'
    ensures v.Tuple? ==> |r| >= 2 && r[0] == '(' && r[|r| - 1] == ')'
    ensures v.Dict? ==> |r| >= 2 && r[0] == '{' && r[|r| - 1] == '}'
    decreases v, 0
  {
    match v
    case Null => "None"
    case Bool(b) => if b then "True" else "False"
    case Int(i) => IntToStr(i)
    case Num(r, _) => r
    case Str(s) => s
    case List(xs) => "[" + Join(seq(|xs|, k requires 0 <= k < |xs| => Repr(xs[k])), ", ") + "]"
    case Tuple(xs) =>
      "(" + Join(seq(|xs|, k requires 0 <= k < |xs| => Repr(xs[k])), ", ") + (if |xs| == 1 then "," else "") + ")"
    case Dict(es) =>
      "{" + Join(seq(|es|, k requires 0 <= k < |es| => Repr(es[k].0) + ": " + Repr(es[k].1)), ", ") + "}"
    case Omit => "Ellipsis"
  }

  /** `str()` of a list quotes a text holding an apostrophe in double quotes, as `repr()` does. */
  lemma ApostropheExample()
    ensures PyStr(List([Str("it's")])) == "[\"it's\"]"
  {
    assert "it's"[2] == '\'' && '"' !in "it's";
    assert Escape("it's", '"') == "it's" by {
      assert Escape("s", '"') == "s";
      assert Escape("'s", '"') == "'s";
      assert Escape("t's", '"') == "t's";
    }
    assert QuoteFor("it's") == '"';
    assert StrRepr("it's") == "\"it's\"";
    var xs := [Str("it's")];
    var items := seq(|xs|, k requires 0 <= k < |xs| => Repr(xs[k]));
    assert items == ["\"it's\""];
  }

  /** `str()` of a list shows a newline inside a text as the escape `\n`. */
  lemma NewlineExample()
    ensures PyStr(List([Str("a\nb"), Str("")])) == "['a\\nb', '']"
  {
    assert '\'' !in "a\nb" && '\'' !in "";
    assert Escape("a\nb", '\'') == "a\\nb" by {
      assert Escape("b", '\'') == "b";
      assert Escape("\nb", '\'') == "\\nb";
    }
    assert QuoteFor("a\nb") == '\'' && QuoteFor("") == '\'';
    assert StrRepr("a\nb") == "'a\\nb'" && StrRepr("") == "''";
    var ys := [Str("a\nb"), Str("")];
    var items := seq(|ys|, k requires 0 <= k < |ys| => Repr(ys[k]));
    assert items == ["'a\\nb'", "''"];
    assert Join(items, ", ") == "'a\\nb', ''" by {
      assert items[1..] == ["''"];
    }
  }

  /** `str()` of a dict shows `repr(key): repr(value)` pairs in braces. */
  lemma DictExample()
    ensures PyStr(Dict([(Str("k"), Int(1))])) == "{'k': 1}"
  {
    assert '\'' !in "k" && Escape("k", '\'') == "k";
    var es := [(Str("k"), Int(1))];
    var items := seq(|es|, k requires 0 <= k < |es| => Repr(es[k].0) + ": " + Repr(es[k].1));
    assert NatToStr(1) == "1";
    assert QuoteFor("k") == '\'' && StrRepr("k") == "'k'";
    assert Repr(es[0].0) == "'k'" && Repr(es[0].1) == "1";
    assert items[0] == "'k'" + ": " + "1";
    assert "'k'" + ": " + "1" == "'k': 1";
    assert |items| == 1;
    assert items == ["'k': 1"];
  }

  /** `str()` of a one-element tuple keeps the trailing comma. */
  lemma TupleExample()
    ensures PyStr(Tuple([Null])) == "(None,)"
  {
    var ts := [Null];
    var items := seq(|ts|, k requires 0 <= k < |ts| => Repr(ts[k]));
    assert items == ["None"];
  }

  /** `str()` leaves a string untouched, and turns everything else into a non-empty text. */
  lemma PyStrShape(v: Value)
    ensures v.Str? ==> PyStr(v) == v.s
    ensures !v.Str? && !v.Num? ==> |PyStr(v)| > 0
  {
  }
}

=== FILE: reranker.dfy ===
/**
 * `CohereReranker`: the documents are sent to the rerank endpoint, and the
 * answer's result indices select the documents in their new order.
 */
module Reranker {
  import opened Wrappers
  import opened Models

  /** The arguments of the SDK's `rerank`. */
  datatype RerankRequest = RerankRequest(model: string, query: string, documents: seq<string>, returnDocuments: bool)

  /** The SDK call: the `index` of every result, in result order; it may raise. */
  type RerankSdk = RerankRequest -> Outcome<seq<int>>

  const RerankModel := "rerank-english-v2.0"
  const ListIndexMsg := "list index out of range"

  /** Python's `xs[i]` on a list: negative indices count from the end; anything else outside raises `IndexError`. */
  function PyIndex(xs: seq<string>, i: int): (r: Outcome<string>)
    ensures r.Ok? <==> -|xs| <= i < |xs|
    ensures r.Ok? && i >= 0 ==> r.value == xs[i]
    ensures r.Ok? && i < 0 ==> r.value == xs[|xs| + i]
    ensures r.Err? ==> r.error == IndexError(ListIndexMsg)
  {
    if 0 <= i < |xs| then Ok(xs[i])
    else if -|xs| <= i < 0 then Ok(xs[|xs| + i])
    else Err(IndexError(ListIndexMsg))
  }

  /** `docs[i]` when `i` is a non-negative position of `docs`; "" otherwise, a case the reordering below never selects. */
  function At(docs: seq<string>, i: int): string {
    if 0 <= i < |docs| then docs[i] else ""
  }

  /** The documents at the given positions, in the order of the positions. */
  function Pick(docs: seq<string>, idx: seq<int>): (r: seq<string>)
    ensures |r| == |idx|
  {
    if |idx| == 0 then [] else [At(docs, idx[0])] + Pick(docs, idx[1..])
  }

  /** The `i`-th selected document is the document at the `i`-th index. */
  lemma {:induction false} PickAt(docs: seq<string>, idx: seq<int>, i: nat)
    requires i < |idx|
    ensures Pick(docs, idx)[i] == At(docs, idx[i])
    decreases i
  {
    if i > 0 {
      PickAt(docs, idx[1..], i - 1);
    }
  }

  /** Selection distributes over concatenation of the index lists. */
  lemma {:induction false} PickAppend(docs: seq<string>, u: seq<int>, v: seq<int>)
    ensures Pick(docs, u + v) == Pick(docs, u) + Pick(docs, v)
    decreases |u|
  {
    if |u| > 0 {
      assert (u + v)[1..] == u[1..] + v;
      PickAppend(docs, u[1..], v);
    } else {
      assert u + v == v;
    }
  }

  /** The loop `for each in results: reranked.append(docs[each.index])`: it stops at the first bad index. */
  function Reorder(docs: seq<string>, idx: seq<int>): (r: Outcome<seq<string>>)
    ensures r.Ok? <==> forall i :: 0 <= i < |idx| ==> -|docs| <= idx[i] < |docs|
    ensures r.Ok? ==> |r.value| == |idx| && forall i :: 0 <= i < |idx| ==> PyIndex(docs, idx[i]) == Ok(r.value[i])
    ensures r.Err? ==> r.error == IndexError(ListIndexMsg)
    decreases |idx|
  {
    if |idx| == 0 then Ok([])
    else
      match PyIndex(docs, idx[0])
      case Err(e) => Err(e)
      case Ok(d) =>
        var rest := Reorder(docs, idx[1..]);
        assert forall i :: 1 <= i < |idx| ==> idx[i] == idx[1..][i - 1];
        if rest.Err? then rest else Ok([d] + rest.value)
  }

  /** `rerank_docs(query, docs)`: one rerank request with the fixed model and no documents returned, then the reordering. */
  function RerankDocs(client: RerankSdk, query: string, docs: seq<string>): (r: Outcome<seq<string>>)
    ensures client(RerankRequest(RerankModel, query, docs, false)).Err? ==> r == Err(client(RerankRequest(RerankModel, query, docs, false)).error)
    ensures client(RerankRequest(RerankModel, query, docs, false)).Ok? ==>
      r == Reorder(docs, client(RerankRequest(RerankModel, query, docs, false)).value)
  {
    match client(RerankRequest(RerankModel, query, docs, false))
    case Err(e) => Err(e)
    case Ok(idx) => Reorder(docs, idx)
  }

  /** `rerank(query, docs)` returns what `rerank_docs` returns. */
  function Rerank(client: RerankSdk, query: string, docs: seq<string>): Outcome<seq<string>> {
    RerankDocs(client, query, docs)
  }

  /** With in-range indices the output is exactly the selected documents, in result order, each unmodified. */
  lemma ReorderInRange(docs: seq<string>, idx: seq<int>)
    requires forall i :: 0 <= i < |idx| ==> 0 <= idx[i] < |docs|
    ensures Reorder(docs, idx) == Ok(Pick(docs, idx))
  {
    var r := Reorder(docs, idx);
    forall i | 0 <= i < |idx|
      ensures r.value[i] == Pick(docs, idx)[i]
    {
      PickAt(docs, idx, i);
      assert At(docs, idx[i]) == docs[idx[i]];
    }
  }

  /** `0, 1, …, n-1`. */
  function Range(n: nat): (r: seq<int>)
    ensures |r| == n
    ensures forall i :: 0 <= i < n ==> r[i] == i
  {
    seq(n, i requires 0 <= i < n => i)
  }

  /** Selecting every position in order gives the documents back. */
  lemma PickRange(docs: seq<string>)
    ensures Pick(docs, Range(|docs|)) == docs
  {
    var p := Pick(docs, Range(|docs|));
    forall i | 0 <= i < |docs|
      ensures p[i] == docs[i]
    {
      PickAt(docs, Range(|docs|), i);
    }
  }

  /** Removing the element at `j` removes one occurrence of it. */
  lemma RemoveAt(b: seq<int>, j: nat)
    requires j < |b|
    ensures multiset(b[..j] + b[j + 1..]) == multiset(b) - multiset{b[j]}
  {
    assert b == b[..j] + [b[j]] + b[j + 1..];
  }

  /** A position holding `x`, which occurs in `b`. */
  lemma IndexOf(b: seq<int>, x: int) returns (j: nat)
    requires x in multiset(b)
    ensures j < |b| && b[j] == x
  {
    assert x in b;
    j :| 0 <= j < |b| && b[j] == x;
  }

  /** Where the first element of `a` sits in `b`, when both hold the same elements: the rests then hold the same elements too. */
  lemma MatchingTail(a: seq<int>, b: seq<int>) returns (j: nat)
    requires |a| > 0 && multiset(a) == multiset(b)
    ensures j < |b| && b[j] == a[0]
    ensures multiset(a[1..]) == multiset(b[..j] + b[j + 1..])
  {
    j := IndexOf(b, a[0]);
    RemoveAt(b, j);
    assert a == [a[0]] + a[1..];
  }

  /** Selecting without position `j` selects the same documents less one copy of the `j`-th. */
  lemma PickRemove(docs: seq<string>, b: seq<int>, j: nat)
    requires j < |b|
    ensures multiset(Pick(docs, b)) == multiset{At(docs, b[j])} + multiset(Pick(docs, b[..j] + b[j + 1..]))
  {
    assert b == b[..j] + ([b[j]] + b[j + 1..]);
    PickAppend(docs, b[..j], [b[j]] + b[j + 1..]);
    PickAppend(docs, [b[j]], b[j + 1..]);
    PickAppend(docs, b[..j], b[j + 1..]);
  }

  /** Selecting by index lists with the same elements yields the same documents, counted with multiplicity. */
  lemma {:induction false} PickMultiset(docs: seq<string>, a: seq<int>, b: seq<int>)
    requires multiset(a) == multiset(b)
    ensures multiset(Pick(docs, a)) == multiset(Pick(docs, b))
    decreases |a|
  {
    if |a| == 0 {
      assert |multiset(b)| == 0;
    } else {
      var j := MatchingTail(a, b);
      PickRemove(docs, a, 0);
      assert a[..0] + a[1..] == a[1..];
      PickRemove(docs, b, j);
      PickMultiset(docs, a[1..], b[..j] + b[j + 1..]);
    }
  }

  /** When the result indices are a permutation of the positions, the output is a permutation of the documents. */
  lemma RerankPermutes(client: RerankSdk, query: string, docs: seq<string>)
    requires client(RerankRequest(RerankModel, query, docs, false)).Ok?
    requires multiset(client(RerankRequest(RerankModel, query, docs, false)).value) == multiset(Range(|docs|))
    ensures Rerank(client, query, docs).Ok?
    ensures |Rerank(client, query, docs).value| == |docs|
    ensures multiset(Rerank(client, query, docs).value) == multiset(docs)
  {
    var idx := client(RerankRequest(RerankModel, query, docs, false)).value;
    forall i | 0 <= i < |idx|
      ensures 0 <= idx[i] < |docs|
    {
      assert idx[i] in multiset(Range(|docs|));
    }
    ReorderInRange(docs, idx);
    PickMultiset(docs, idx, Range(|docs|));
    PickRange(docs);
    assert |idx| == |multiset(idx)| == |multiset(Range(|docs|))| == |docs|;
  }
}

=== FILE: task.dfy ===
/** The base `Task`: a named unit of work whose behaviour the job engine treats as a black box. */
module Tasks {
  import opened Wrappers
  import opened PyValue
  import opened Models

  /**
   * A constructed task. `id` stands for the task's behaviour (its subclass and
   * configuration); the job engine only ever reads the name.
   */
  datatype Task = Task(name: string, id: nat)

  const EmptyNameMsg := "A task should have a non-empty value for name"

  /** `Task.__init__`: a name that is empty or whitespace only is rejected; any other name is kept as given. */
  function NewTask(name: string, id: nat): (r: Outcome<Task>)
    ensures r.Err? <==> AllSpace(name)
    ensures r.Err? ==> r.error == ValueError(EmptyNameMsg)
    ensures r.Ok? ==> r.value.name == name && r.value.id == id
  {
    StripEmptyIffAllSpace(name);
    if |name| == 0 || |Strip(name)| == 0 then Err(ValueError(EmptyNameMsg))
    else Ok(Task(name, id))
  }

  /** Surrounding whitespace does not make a name invalid and is not stripped. */
  lemma PaddedNameKept()
    ensures NewTask(" rag ", 0) == Ok(Task(" rag ", 0))
    ensures NewTask(" \t\n", 0) == Err(ValueError(EmptyNameMsg))
    ensures NewTask("", 0) == Err(ValueError(EmptyNameMsg))
  {
    assert !IsSpace(" rag "[1]);
    assert AllSpace(" \t\n");
  }
}

=== FILE: tools.dfy ===
/**
 * The tool wrappers handed to the function-calling agents: a declaration the
 * model sees plus the callable the agent runs, and the name-to-callable
 * registry each agent builds from them.
 */
module Tools {
  import opened Wrappers
  import opened Models

  /** A callable supplied by the user; `id` stands for its behaviour. */
  datatype Callable = Callable(id: nat)

  /**
   * A non-empty tool declaration: its `type` entry (only assistant and Groq
   * declarations have one) and the function name it declares. In a dict
   * declaration the name sits at `["function"]["name"]`; `nameMiss` is the key
   * missing on that path (`"function"` or `"name"`), if any. Gemini and Cohere
   * declarations are SDK objects whose `.name` always exists.
   */
  datatype Decl = Decl(kind: Option<string>, name: string, nameMiss: Option<string>)

  /** A constructed tool. A falsy declaration (`None`, `{}`) is `None` at construction; a falsy callable is `None`. */
  datatype Tool = Tool(decl: Decl, callable: Option<Callable>)

  const BothMandatoryMsg := "Both 'declaration' and 'callable' params are mandatory"
  const DeclMandatoryMsg := "'declaration' param is mandatory"
  const CallableMandatoryMsg := "'callable' param is mandatory for tools of `function` type"

  /** The `type` value that marks a declaration as a function. */
  const FunctionKind := "function"

  /**
   * `OpenAIChatTool.__init__` (and the identical `GeminiTool`, `GroqTool` and
   * `CohereTool` constructors): both parts must be truthy; they are stored as
   * given.
   */
  function NewChatTool(decl: Option<Decl>, callable: Option<Callable>): (r: Outcome<Tool>)
    ensures r.Err? <==> decl.None? || callable.None?
    ensures r.Err? ==> r.error == ValueError(BothMandatoryMsg)
    ensures r.Ok? ==> r.value == Tool(decl.value, callable)
  {
    if decl.None? || callable.None? then Err(ValueError(BothMandatoryMsg))
    else Ok(Tool(decl.value, callable))
  }

  /**
   * `OpenAIAssistantTool.__init__`: the declaration must be truthy; a callable
   * is demanded only of `function` tools. The declaration check comes first.
   */
  function NewAssistantTool(decl: Option<Decl>, callable: Option<Callable>): (r: Outcome<Tool>)
    ensures r.Err? <==> decl.None? || (decl.value.kind == Some(FunctionKind) && callable.None?)
    ensures decl.None? ==> r == Err(ValueError(DeclMandatoryMsg))
    ensures decl.Some? && r.Err? ==> r.error == ValueError(CallableMandatoryMsg)
    ensures r.Ok? ==> r.value == Tool(decl.value, callable)
  {
    if decl.None? then Err(ValueError(DeclMandatoryMsg))
    else if decl.value.kind == Some(FunctionKind) && callable.None? then Err(ValueError(CallableMandatoryMsg))
    else Ok(Tool(decl.value, callable))
  }

  /** A tool that is not a function (file search, code interpreter) is accepted without a callable, and only such a tool is. */
  lemma AssistantToolWithoutCallable(d: Decl)
    ensures NewAssistantTool(Some(d), None).Ok? <==> d.kind != Some(FunctionKind)
    ensures NewChatTool(Some(d), None).Err?
  {
  }

  /** Whether an agent registers the tool's callable: every tool, or (OpenAI assistants, Groq) only `function` tools. */
  predicate Selected(t: Tool, onlyFunctions: bool) {
    !onlyFunctions || t.decl.kind == Some(FunctionKind)
  }

  /**
   * Some declaration has no `type` entry: an agent that keeps only `function`
   * tools reads `declaration["type"]` of every tool and raises `KeyError` on it.
   */
  predicate Untyped(tools: seq<Tool>) {
    exists i :: 0 <= i < |tools| && tools[i].decl.kind.None?
  }

  /**
   * Reading the tool while building a `function`-only registry succeeds: its
   * `type` entry exists and, for a `function` tool, so does its name.
   */
  predicate ReadsCleanly(t: Tool, onlyFunctions: bool) {
    !onlyFunctions || (t.decl.kind.Some? && (t.decl.kind == Some(FunctionKind) ==> t.decl.nameMiss.None?))
  }

  /** The `KeyError` reading the tool raises: the `type` entry is read first, then the name. */
  function ReadError(t: Tool): Error {
    if t.decl.kind.None? then KeyError(TypeKey)
    else KeyError(t.decl.nameMiss.GetOr(""))
  }

  const TypeKey := "type"

  /** Tool `i` is the first one that does not read cleanly. */
  predicate FirstUnclean(tools: seq<Tool>, onlyFunctions: bool, i: int) {
    && 0 <= i < |tools|
    && !ReadsCleanly(tools[i], onlyFunctions)
    && forall j :: 0 <= j < i ==> ReadsCleanly(tools[j], onlyFunctions)
  }

  /**
   * The exception building the registry raises, if any: the comprehension
   * reads the tools in order, and the first tool that does not read cleanly
   * raises its `KeyError`.
   */
  function RegistryError(tools: seq<Tool>, onlyFunctions: bool): (r: Option<Error>)
    ensures r.None? <==> forall i :: 0 <= i < |tools| ==> ReadsCleanly(tools[i], onlyFunctions)
    ensures r.Some? ==> exists i :: FirstUnclean(tools, onlyFunctions, i) && r.value == ReadError(tools[i])
    decreases |tools|
  {
    if |tools| == 0 then None
    else if !ReadsCleanly(tools[0], onlyFunctions) then Some(ReadError(tools[0]))
    else
      var r := RegistryError(tools[1..], onlyFunctions);
      assert forall i :: 1 <= i < |tools| ==> tools[i] == tools[1..][i - 1];
      assert r.Some? ==> exists i :: FirstUnclean(tools, onlyFunctions, i) && r.value == ReadError(tools[i]) by {
        if r.Some? {
          var i :| FirstUnclean(tools[1..], onlyFunctions, i) && r.value == ReadError(tools[1..][i]);
          assert FirstUnclean(tools, onlyFunctions, i + 1);
        }
      }
      r
  }

  /** An untyped declaration always makes a `function`-only registry raise a `KeyError`. */
  lemma UntypedRaises(tools: seq<Tool>)
    requires Untyped(tools)
    ensures RegistryError(tools, true).Some? && RegistryError(tools, true).value.KeyError?
  {
    var i :| 0 <= i < |tools| && tools[i].decl.kind.None?;
    assert !ReadsCleanly(tools[i], true);
  }

  /**
   * `{tool.declaration.name: tool.callable for tool in tools [if type == "function"]}`:
   * the registry from function name to callable; a later tool of the same
   * name replaces an earlier one.
   */
  function Registry(tools: seq<Tool>, onlyFunctions: bool): (reg: map<string, Option<Callable>>)
    ensures reg.Keys == set i | 0 <= i < |tools| && Selected(tools[i], onlyFunctions) :: tools[i].decl.name
    decreases |tools|
  {
    if |tools| == 0 then map[]
    else
      var init := tools[..|tools| - 1];
      var last := tools[|tools| - 1];
      var reg := Registry(init, onlyFunctions);
      assert forall i :: 0 <= i < |init| ==> init[i] == tools[i];
      if Selected(last, onlyFunctions) then reg[last.decl.name := last.callable] else reg
  }

  /** The registry maps each selected name to the callable of the LAST selected tool declaring it. */
  lemma {:induction false} RegistryLastWins(tools: seq<Tool>, onlyFunctions: bool, i: nat)
    requires i < |tools| && Selected(tools[i], onlyFunctions)
    requires forall j :: i < j < |tools| && Selected(tools[j], onlyFunctions) ==> tools[j].decl.name != tools[i].decl.name
    ensures tools[i].decl.name in Registry(tools, onlyFunctions)
    ensures Registry(tools, onlyFunctions)[tools[i].decl.name] == tools[i].callable
    decreases |tools|
  {
    if i < |tools| - 1 {
      var init := tools[..|tools| - 1];
      assert init[i] == tools[i];
      RegistryLastWins(init, onlyFunctions, i);
    }
  }

  /**
   * The declarations passed to the model: `None` for an empty tool list where
   * the agent does so (Gemini, Groq), otherwise the list itself (Cohere).
   */
  function DeclaredTools(tools: seq<Tool>, noneWhenEmpty: bool): (r: Option<seq<Decl>>)
    ensures r.None? <==> noneWhenEmpty && |tools| == 0
    ensures r.Some? ==> |r.value| == |tools| && forall i :: 0 <= i < |tools| ==> r.value[i] == tools[i].decl
  {
    if noneWhenEmpty && |tools| == 0 then None
    else Some(seq(|tools|, i requires 0 <= i < |tools| => tools[i].decl))
  }
}

=== FILE: wrappers.dfy ===
/** Failure-compatible wrappers shared by every module of the model. */
module Wrappers {

  /** Python's `Optional[T]`: `None` or a present value. */
  datatype Option<+T> = None | Some(value: T) {
    function GetOr(default: T): T {
      match this
      case Some(v) => v
      case None => default
    }
  }

  /** The value returned by a Python call, or the exception it raised. */
  datatype Result<+T, +E> = Ok(value: T) | Err(error: E) {
    predicate IsFailure() {
      Err?
    }

    function PropagateFailure<U>(): Result<U, E>
      requires Err?
    {
      Err(error)
    }

    function Extract(): T
      requires Ok?
    {
      value
    }
  }

  /** `next((i for i, x in enumerate(xs) if p(x)), None)`: the index of the first element satisfying `p`. */
  function First<T>(xs: seq<T>, p: T -> bool): (r: Option<nat>)
    ensures r.None? <==> forall i :: 0 <= i < |xs| ==> !p(xs[i])
    ensures r.Some? ==> r.value < |xs| && p(xs[r.value]) && forall j :: 0 <= j < r.value ==> !p(xs[j])
  {
    if |xs| == 0 then None
    else if p(xs[0]) then Some(0)
    else
      var r := First(xs[1..], p);
      assert forall j :: 1 <= j < |xs| ==> xs[j] == xs[1..][j - 1];
      if r.None? then None else Some(r.value + 1)
  }
}
